=== FILE: README.md ===
# DRE-RSS query core in Dafny

This project models the query logic of the DRE-RSS procurement browser. Its records are public procurement procedures ("procedimentos") taken from the Portuguese Diário da República RSS feed. The project proves properties of that model. It covers three pieces.

- **The browser page (`scripts.js`).**
  - Publication-date extraction from the full detail text (`extractPublicationDate`).
  - The 19-entry lower-case search "haystack" and the free-text search of `filterProcedimentos`.
  - The seed filter (`procedureMatchesSeed`): a district gate and a tag gate.
  - The type-aware comparator of `sortProcedimentos`, applied through a stable sort.
  - The page's state: the globals at the top of the file, threaded explicitly through `State`. On it run the search → seed → sort pipeline, `clearSearch`, `handleSort`, `addTag`/`removeTag`, `saveSeed`, `generateSeedCode` and `searchBySeed`/`clearSeedSearch`.
- **The feed extractor (`scripts/rss_dre_extractor.py`).**
  - `extract_procedure_info`: the `n.º N/N` number and the trimmed title.
  - The CDATA stripping and the item-keeping rule of `parse_rss_to_json`.
  - The 17 detail-page field patterns and the whitespace normalisation of their captures.
  - The merge of each basic item with its detail dict.
- **The feed console (`scripts/consultar_feed_rss.py`).**
  - `buscar_por_entidade`.
  - The entity counting and top-5 ranking of `mostrar_estatisticas`.

Modules:
- `Wrappers`: `Option`/`Result`.
- `Text`: characters, trimming, case, substring, split/join, digits, lexicographic order, leftmost search.
- `Seqs`: the order-preserving `Filter` and subsequences.
- `StableSort`: a stable insertion sort over an `int`-valued comparator, the way `Array.prototype.sort` and Python's `sorted` are specified to behave.
- `Procedures`: the record and its haystack.
- `Dates`: the date keys.
- `Price`: the `parseFloat` price key.
- `PublicationDate`, `Search`, `SortKeys`, `SortEngine`, `QueryState`: the browser page.
- `RssFields`, `RssExtractor`: the extractor.
- `FeedQuery`: the console.

Several inputs become parameters of the model:
- the search box, the seed box and the district select are string parameters;
- `Math.random` is a sequence of six draws in `[0, 36)`;
- the creation timestamp is a string;
- the detail page a link leads to is an optional dict.

Where the code and the documentation of the project disagree, the model follows the code:
- **Price column.** A price without digits (such as "N/A") becomes `NaN`, not 0. It then ties with every price, so the price comparator does not chain (`SortEngine.UnreadablePriceBreaksChain`). Only a missing or empty price reads as 0, through the `|| '0'` fallback. Sortedness is therefore proved for records whose price `parseFloat` can read and whose deadline is empty or readable (`SortEngine.Comparable`).
- **Unknown seed.** An active seed code that no saved seed has filters nothing; it is not reported as an error.
- **Haystack.** The haystack has 19 entries: 18 fields plus the extracted publication date.
- **District gate.** The gate compares lower-cased districts without trimming them.
- **Clearing the search.** `clearSearch` resets the list to every record even when a seed is active, and this quirk is kept (`QueryState.ClearSearchIgnoresSeed`).
- **Entity of a merged record.** The extractor overrides the title-derived `entidade` with the detail page's "Designação da entidade adjudicante" when the page was read (`RssExtractor.MergedEntityComesFromPage`).

## Model

| member | source | states |
|---|---|---|
| Procedures.EntryInHaystack | scripts.js:59-79 | whatever any of the 19 search entries contains, lower-cased, the haystack contains |
| Procedures.EntryLowerInHaystack | scripts.js:59-79 | whatever any of the 19 search entries contains once lower-cased, the haystack contains, so a lower-case term matches an entry written in any case |
| Procedures.HaystackIsLower | scripts.js:79 | the haystack is already lower case |
| PublicationDate.MatchAtIsPattern | scripts.js:148 | the one-position matcher succeeds with capture `t` exactly when the label, a whitespace run and a `\d{1,2}-\d{1,2}-\d{4}` token `t` sit at that position |
| PublicationDate.ExtractPublicationDateSpec | scripts.js:144-156 | "N/A" exactly when the text is missing, empty or matched nowhere; otherwise the leftmost match's date token with every '-' replaced by '/' |
| PublicationDate.ExtractedDateShape | scripts.js:149-152 | an extracted date starts with a digit and reads back as a calendar day |
| PublicationDate.SlashedTokenDay | scripts.js:144-183 | the slashed token `D/M/YYYY` is read by the publication key as the date (YYYY, M, D) |
| Dates.BeforeStrictTotal | scripts.js:207-208 | the order on days is irreflexive, asymmetric, transitive and total |
| Dates.ParseYearFirst | scripts.js:182-194 | reversing day-first fields and re-joining them with '-' parses as the day-month-year reading of the fields |
| Dates.DeadlineDayIsDayMonthYear | scripts.js:193-194 | a deadline's day is the day-first reading of its token before the first space |
| Dates.PublicationDayOfFields | scripts.js:182-183 | `d/m/y` with numeric fields is the day (y, m, d) |
| Price.PriceMissingIsZero | scripts.js:200-201 | a missing or empty price reads as 0 |
| Price.PriceWithoutDigitsIsNaN | scripts.js:200-201 | a non-empty price without digits reads as NaN |
| Price.PriceIgnoresNoise | scripts.js:200-201 | deleting a character that is neither a digit nor a comma does not change the price |
| Price.PriceOfAmount | scripts.js:200-201 | `whole,frac` followed by a unit reads as the decimal whole.frac |
| Price.PriceOfGroupedAmount | scripts.js:200-201 | a '.' thousands separator is dropped: `a.b,frac` reads as the decimal (a b).frac |
| Price.CommaBecomesPoint | scripts.js:200-201 | the first comma after the integer digits becomes the decimal point |
| Price.PriceExamples | scripts.js:200-201 | "1.500,00 EUR" reads as 1500 and "250,00 EUR" as 250 |
| Search.SearchFilter | scripts.js:47-82 | an empty trimmed query keeps every record in order; otherwise the result is the order-preserving subsequence of the records whose haystack contains the lower-cased trimmed query, each with all its copies |
| Search.FieldMatchIsFound | scripts.js:59-81 | a record one of whose fields, lower-cased, contains the lower-cased trimmed query is found, whatever the field's case |
| Search.SearchIdempotent | scripts.js:56-82 | searching the search result again changes nothing |
| Search.FindSeedFirst | scripts.js:634 | the seed lookup returns the first seed with the code, and nothing exactly when no seed has it |
| Search.MatchesSeedIsSearch | scripts.js:631-691 | with an active seed whose tags are clean, a record is admitted exactly when its lower-cased district equals the seed's (or the seed has none) and a free-text search for one of the tags would keep it |
| Search.SeedAdmitsTaggedEntry | scripts.js:643-691 | a record in the seed's district, one of whose 19 search entries contains one of the seed's tags once both are lower-cased, is admitted, whatever the entry's case |
| Search.OtherDistrictIsRejected | scripts.js:643-656 | a seed with a district rejects a record from any other district, whatever its text |
| Search.SeedFilter | scripts.js:86-90 | the order-preserving subsequence of the records the seed admits, each with all its copies |
| Search.UnknownSeedKeepsAll | scripts.js:634-635 | an active code no seed has keeps every record in order |
| Search.SeedIsDistrictAndTagSearch | scripts.js:659-689 | with clean tags, the tag gate holds exactly when some tag alone would find the record in the free-text search |
| Search.NoDistrictIsTagGate | scripts.js:643-691 | a seed without a district admits exactly the records its tag gate admits |
| StableSort.SortStable | scripts.js:161-209 | on a consistent comparator the sort keeps the input order within each class of equivalent elements |
| StableSort.SortSorted | scripts.js:161-209 | on a consistent comparator the sorted copy is ordered by the comparator |
| SortEngine.SortProcedures | scripts.js:158-212 | the sorted copy is a permutation of its input |
| SortEngine.DescNegatesAsc | scripts.js:207-208 | the descending comparator is the negation of the ascending one |
| SortEngine.UnknownColumnIsZero | scripts.js:203-204 | an unknown column compares every pair as equal |
| SortEngine.UnknownColumnKeepsOrder | scripts.js:203-204 | for an unknown column the sorted copy is the input |
| SortEngine.CompareIsKeyOrder | scripts.js:163-209 | on comparable records the comparator is the order of the column key, reversed for descending |
| SortEngine.ComparatorConsistent | scripts.js:163-209 | on comparable records the comparator flips under swapping and chains |
| SortEngine.SortedByKey | scripts.js:158-212 | the sorted copy is non-decreasing in the column key for ascending and non-increasing for descending |
| SortEngine.StableByKey | scripts.js:161-212 | records with equal keys keep their input order |
| SortEngine.SortProceduresIdempotent | scripts.js:158-212 | on comparable records, sorting the sorted copy again changes nothing |
| SortEngine.DescIsReverse | scripts.js:158-212 | on comparable records with pairwise different keys, the descending copy is the ascending copy reversed |
| SortEngine.MissingPublicationGoesLast | scripts.js:177-208 | "N/A" goes after every real publication date ascending and before it descending |
| SortEngine.EmptyDeadlineGoesFirst | scripts.js:188-207 | in ascending order an empty deadline goes before a non-empty one |
| SortEngine.DeadlineIgnoresTime | scripts.js:192-197 | deadlines on the same day compare equal whatever their times |
| SortEngine.DeadlineKeyIsDay | scripts.js:192-197 | a readable deadline's key is its day-first date |
| SortEngine.UnreadablePriceTiesWithAll | scripts.js:199-209 | an unreadable price compares equal to every price in both orders |
| SortEngine.UnreadablePriceBreaksChain | scripts.js:199-209 | an unreadable price between two unequal prices breaks transitivity of the comparator |
| SortEngine.GreaterPriceGoesAfter | scripts.js:199-208 | in ascending order a larger readable price goes after a smaller one |
| QueryState.LoadShowsPipeline | scripts.js:1-37 | loading into the start state (empty search box, no active seed) shows exactly what the search-seed-sort pipeline would show |
| QueryState.Load | scripts.js:29-37 | loading keeps every record unfiltered and shows a permutation of them that is non-increasing in the publication key; the search box, tags, seeds and active seed are kept |
| QueryState.FilterProcedures | scripts.js:46-104 | the filtered list is what search then seed admit; what is shown is a permutation of it; nothing else changes |
| QueryState.PipelineIsOneFilter | scripts.js:54-90 | search then seed filtering is one filter with both conditions |
| QueryState.StagesCommute | scripts.js:54-90 | the search and seed stages may be applied in either order |
| QueryState.PipelineShowsSorted | scripts.js:93-97 | on comparable records, with a known sort column, what the pipeline shows is ordered by the column key in the current direction |
| QueryState.ClearSearch | scripts.js:107-118 | clearing empties the query and resets the list to every record, whatever the active seed |
| QueryState.ClearSearchIgnoresSeed | scripts.js:107-118 | a record the active seed rejects is listed after clearing but not after the next filter |
| QueryState.HandleSort | scripts.js:215-231 | the same column flips the direction, another column starts ascending, and the shown list is a permutation of the filtered one |
| QueryState.HandleSortTwice | scripts.js:215-223 | two clicks on the same column restore its direction, or leave a new column descending |
| QueryState.HandleSortShowsSorted | scripts.js:215-231 | on comparable filtered records, after a click on a known column the shown list is ordered by its key |
| QueryState.AddTag | scripts.js:452-458 | the tag list grows by at most the cleaned text, which is added when it is non-empty and new, keeping the tags clean and distinct |
| QueryState.AddTagIdempotent | scripts.js:452-458 | adding the same text twice adds it once |
| QueryState.TagOfIsClean | scripts.js:453 | a non-empty cleaned tag is trimmed and lower case |
| QueryState.SpliceStart | scripts.js:460-461 | the start index of `splice(index, 1)`: a non-negative index capped at the length, a negative one counted from the end, and 0 below minus the length |
| QueryState.RemoveTag | scripts.js:460-463 | `splice(index, 1)` removes one tag at the normalised index or none, keeping order and cleanliness |
| QueryState.RemoveUndoesAdd | scripts.js:452-463 | removing the last tag, by its index or by -1, undoes adding it |
| QueryState.SeedCode | scripts.js:509-516 | ten characters: "SEED" then the six drawn alphabet characters |
| QueryState.DrawsOfSeedCode | scripts.js:509-516 | the draws can be read back from the code |
| QueryState.SeedCodeInjective | scripts.js:509-516 | different draws give different codes |
| QueryState.TypedCodeReadsBack | scripts.js:509-516 | a code typed in lower case with surrounding blanks reads as itself in the seed box |
| QueryState.SeedNameShape | scripts.js:490 | the seed name is the first tag, the first two joined by ", ", or those two followed by "..." |
| QueryState.SaveSeed | scripts.js:480-507 | an empty tag list is an alert and changes nothing; otherwise the new seed is appended and the tags cleared |
| QueryState.SearchBySeed | scripts.js:559-578 | an empty or unknown code is an alert; otherwise the code becomes active, the list is what search and seed admit, it is shown as a permutation of that list, and nothing else changes |
| QueryState.ClearSeedSearch | scripts.js:580-587 | no seed is active, the list is the plain search result, it is shown as a permutation of that list, and nothing else changes |
| QueryState.SavedSeedIsFound | scripts.js:480-578 | a seed just saved with a fresh code is found by its code |
| QueryState.CodeReadsAsItself | scripts.js:509-516 | a generated code typed as it is reads as itself |
| RssExtractor.ExtractProcedureInfo | scripts/rss_dre_extractor.py:152-166 | the number is "N/A" or a non-empty run of digits |
| RssExtractor.ExtractProcedureInfoSpec | scripts/rss_dre_extractor.py:152-166 | "N/A" exactly when `n.º\s*(\d+)/\d+` matches nowhere, otherwise the leftmost match's digits; the entity is the trimmed title; the description has no effect |
| RssExtractor.NumberOfTitle | scripts/rss_dre_extractor.py:157-158 | a title carrying `n.º N/YYYY` after a prefix without 'º' yields N |
| RssExtractor.StripCDataPlain | scripts/rss_dre_extractor.py:193-194 | text without a CDATA opener is left unchanged |
| RssExtractor.StripCDataWrapped | scripts/rss_dre_extractor.py:193-194 | a one-line CDATA section is replaced by its content |
| RssExtractor.ParseRssSpec | scripts/rss_dre_extractor.py:181-204 | the items kept are exactly those with a title and a link, in order, each mapped to its number, entity and link |
| RssExtractor.AsWrittenAgrees | scripts/rss_dre_extractor.py:186-204 | the parser as written fails exactly when a kept item has a text-less description, and otherwise agrees with the corrected parser |
| RssExtractor.EmptyDescriptionCrashes | scripts/rss_dre_extractor.py:189-195 | an item with `<description/>` makes the parser as written fail while the corrected one keeps it |
| RssExtractor.Merge | scripts/rss_dre_extractor.py:283-291 | the merged dict has the keys of both, and the details' value wins on a shared key |
| RssExtractor.MergeAll | scripts/rss_dre_extractor.py:279-291 | one merged entry per item, in order; an item without details stays as it was |
| RssExtractor.MergedEntityComesFromPage | scripts/rss_dre_extractor.py:137-140 | a merged record keeps the item's number and link but takes its entity and full text from the detail page |
| RssFields.CollapseSpaceSpec | scripts/rss_dre_extractor.py:132 | collapsing leaves no two adjacent whitespace characters, is empty only for empty input, and keeps whether the ends are whitespace |
| RssFields.NormalizeSpec | scripts/rss_dre_extractor.py:131-132 | a normalised value is trimmed, has no two adjacent whitespace characters, keeps every visible character in order, and normalising it again changes nothing |
| RssFields.SearchIsLeftmost | scripts/rss_dre_extractor.py:129 | the search finds the leftmost position where the pattern matches, or nothing when none does |
| RssFields.CaptureShape | scripts/rss_dre_extractor.py:109-126 | a capture is non-empty; the NIPC capture is all digits; a line capture has no newline after its first character |
| RssFields.LineFieldReadsValue | scripts/rss_dre_extractor.py:109-126 | a label, blanks and a one-line value ended by a newline capture that value |
| RssFields.NumberFieldReadsDigits | scripts/rss_dre_extractor.py:110 | "NIPC:", blanks and a digit run capture the whole run |
| RssFields.FieldValue | scripts/rss_dre_extractor.py:129-135 | a value exists exactly when the pattern matches, and it is trimmed and collapsed |
| RssFields.ExtractFields | scripts/rss_dre_extractor.py:108-135 | one entry per pattern, in order, holding that pattern's normalised capture or nothing |
| RssFields.DetailsHaveEveryField | scripts/rss_dre_extractor.py:128-140 | the details dict holds the full text and every pattern key with its value |
| FeedQuery.SearchByEntity | scripts/consultar_feed_rss.py:112-125 | the records whose title or else description contains the lower-cased term, in order, each once per copy, all with one of the two keys |
| FeedQuery.EmptyTermFindsSearchable | scripts/consultar_feed_rss.py:118-123 | an empty term finds exactly the records with a title or a description |
| FeedQuery.TitleMatchIsFound | scripts/consultar_feed_rss.py:116-121 | a record whose lower-cased title contains the lower-cased term is in the search result, whatever the case of either |
| FeedQuery.CountEntitiesSpec | scripts/consultar_feed_rss.py:137-144 | entities are listed in first-seen order, once each, with the number of titles naming them, and the counts add up to the number of titles holding ':' |
| FeedQuery.CountKeysSpec | scripts/consultar_feed_rss.py:138-144 | counting keys lists them in first-seen order, once each, with their multiplicity, and the counts sum to the number of keys |
| FeedQuery.CountsArePositive | scripts/consultar_feed_rss.py:144 | every listed entity has a count of at least one |
| FeedQuery.RankingDescends | scripts/consultar_feed_rss.py:148 | the ranking is in non-increasing order of count |
| FeedQuery.RankingKeepsTies | scripts/consultar_feed_rss.py:148 | entities with equal counts keep their first-seen order |
| FeedQuery.TopEntities | scripts/consultar_feed_rss.py:149 | at most five entries, and they are the head of the ranking |
| FeedQuery.TopEntitiesSpec | scripts/consultar_feed_rss.py:148-149 | the top entries come from the counts and descend by count |
| FeedQuery.TopEntitiesAreLargest | scripts/consultar_feed_rss.py:148-149 | no entity left out of the top has a larger count than one in it |

## Left out

- Rendering, modals, indicators, clipboard and logging on the page (`displayProcedimentos`, `updateSortIndicators`, `toggleRow`, `updateTagsDisplay`, `updateActiveSeedDisplay`, `formatDeadline`, `formatPrice`, `showSeed*`, `copyToClipboard`): these produce markup only.
- `fetch` of `data/ativos.json` and the seed storage (`loadSeedsFromFile`, `saveSeedsToFile`, `localStorage`): I/O. The loaded data and the saved seeds are parameters.
- `handleSeedInput`: keyboard handling. It only calls `addTag` with the trimmed text.
- HTTP, Selenium, BeautifulSoup, file writes and `subprocess` in the extractor; the feed loaders and the `input()` menu of the console; all of `serve.py`. These are I/O; the detail page arrives as a parameter.
- ElementTree parsing: an item is modelled as its optional `title`, `description` and `link` elements, each with optional text.
- Unicode: `\s`, `\d`, `toLowerCase`, `toUpperCase`, `lower()` and `strip()` are modelled on ASCII (six whitespace characters, ten digits, A-Z). Strings are sequences of characters, not UTF-16 units.
- Dates are (year, month, day) triples compared lexicographically. Calendar validity, `Date` parsing of out-of-range fields and timezone effects are not modelled. `SortEngine.ComparatorConsistent` is proved for dates that parse.
- `Dates.ParseDate`: reads only three dash-separated numeric fields, year first, and reads every other string as `Invalid Date`. The host's `Date` parser also accepts the date-only forms `YYYY` and `YYYY-MM` of the ECMAScript Date Time String Format. A deadline whose first token has one or two fields (`2024 …`, `03-2024 17:00`) therefore ties with every record in the model, whereas the page compares it normally. The host also reads some non-ISO strings by its own legacy rules. For example, the two-digit year of `15-03-24` may be widened, where the model keeps year 24. Those legacy rules are engine-specific and are not modelled.
- `parseFloat` is modelled as the exact rational of the leading decimal digits. Floating-point rounding is not modelled.
- `Math.random` and `new Date().toISOString()` become parameters: six draws in `[0, 36)` and a timestamp string.
- Python dict insertion order is not modelled: dicts are maps, so `RssExtractor.Merge` states keys and values and not their order.
- `FeedQuery.SearchByEntity`: a record whose `titulo` or `descricao` is not a string makes `.lower()` raise in the console; records are modelled as string-to-string maps, so that error cannot arise.
- `RssFields.ExtractFields`: the surrounding `fetch_procedure_details` returns nothing when the page has no detail block or an exception occurs; that page handling is I/O and is left out.
- `QueryState.SaveSeed`: of `closeSeedModal` only the clearing of the tag list is modelled; the input boxes and the modal display are not. The stored district is always present (an empty select gives an empty string).
- `SortEngine.SortedByKey`: proved only for records whose price reads and whose deadline is empty or reads. Otherwise the comparator does not chain (`SortEngine.UnreadablePriceBreaksChain`), and the order depends on the engine's algorithm.
- `SortEngine.StableByKey`: proved only for the same comparable records as `SortEngine.SortedByKey`.
- `SortEngine.SortProceduresIdempotent`: proved only for the same comparable records as `SortEngine.SortedByKey`.
- `SortEngine.DescIsReverse`: proved only for the same comparable records as `SortEngine.SortedByKey`.
- `QueryState.PipelineShowsSorted`: proved only for the same comparable records as `SortEngine.SortedByKey`.
- `QueryState.HandleSortShowsSorted`: proved only for the same comparable records as `SortEngine.SortedByKey`.

## Findings

| source | as written | input that shows it | evidently intended | confidence | as-written member | corrected member |
|---|---|---|---|---|---|---|
| scripts/rss_dre_extractor.py:189-195 | `description = description_elem.text if description_elem is not None else ""` keeps `None` for an empty `<description/>`, and `re.sub` on `None` raises `TypeError`, which aborts the whole parse | an item `<item><title>t</title><description/><link>l</link></item>` | an empty description reads as "", like an empty title or link (`or ""`), and the item is kept | medium, not executed | RssExtractor.ParseRssAsWritten (shown by RssExtractor.EmptyDescriptionCrashes) | RssExtractor.ParseRss (RssExtractor.ParseRssSpec, RssExtractor.AsWrittenAgrees) |

=== FILE: dates.dfy ===
/** The calendar dates the sort keys are built from. The page turns a date
    written `D/M/YYYY` or `D-M-YYYY` into `YYYY-M-D` by splitting, reversing and
    re-joining, and hands that to the host's `Date` parser; only the order of the
    resulting time values matters to the sort, so a parsed date is kept as a
    (year, month, day) triple compared lexicographically, and a string read as
    `Invalid Date` (whose time value is NaN) is `None`. Only the three-field
    form is read; see `ParseDate`. */
module Dates {
  import opened Wrappers
  import opened Text
  import opened Seqs

  datatype Date = Date(year: nat, month: nat, day: nat)

  /** `a` lies strictly before `b` on the calendar. */
  predicate Before(a: Date, b: Date) {
    || a.year < b.year
    || (a.year == b.year && a.month < b.month)
    || (a.year == b.year && a.month == b.month && a.day < b.day)
  }

  /** A non-empty run of digits: one field of a numeric date. */
  predicate IsField(s: string) {
    |s| > 0 && AllDigits(s)
  }

  /** `new Date(s)` read only in its three-field form `Y-M-D`: three
      dash-separated numeric fields, year first. Every other string is read
      as an invalid date here, although the host also accepts the one- and
      two-field forms `YYYY` and `YYYY-MM` and reads some other strings by
      its own legacy rules. */
  function ParseDate(s: string): Option<Date> {
    var f := Split(s, '-');
    if |f| == 3 && IsField(f[0]) && IsField(f[1]) && IsField(f[2])
    then Some(Date(DigitsValue(f[0]), DigitsValue(f[1]), DigitsValue(f[2])))
    else None
  }

  /** `s.split(sep).reverse().join('-')`: the fields of a day-first date put
      year first. */
  function YearFirst(s: string, sep: char): string {
    Join("-", Reverse(Split(s, sep)))
  }

  /** The day of a publication date as the page writes it (`D/M/YYYY`). */
  function PublicationDay(pub: string): Option<Date> {
    ParseDate(YearFirst(pub, '/'))
  }

  /** The day of a deadline such as `15-03-2024 17:00`: the token before the
      first space, read day first. */
  function DeadlineDay(deadline: string): Option<Date> {
    ParseDate(YearFirst(Split(deadline, ' ')[0], '-'))
  }

  /** The reference reading of day-first fields: exactly three numeric fields
      day, month, year. */
  function DayMonthYear(f: seq<string>): Option<Date> {
    if |f| == 3 && IsField(f[0]) && IsField(f[1]) && IsField(f[2])
    then Some(Date(DigitsValue(f[2]), DigitsValue(f[1]), DigitsValue(f[0])))
    else None
  }

  // ---------------------------------------------------------------- the order

  /** `Before` is a strict total order on dates. */
  lemma BeforeStrictTotal(a: Date, b: Date, c: Date)
    ensures !Before(a, a)
    ensures Before(a, b) ==> !Before(b, a)
    ensures Before(a, b) && Before(b, c) ==> Before(a, c)
    ensures a == b || Before(a, b) || Before(b, a)
  {
  }

  // ---------------------------------------------------------------- parsing

  lemma FieldHasNoDash(s: string, c: char)
    requires IsField(s) && !IsDigit(c)
    ensures c !in s
  {
  }

  /** `ParseDate` accepts exactly the strings `Y-M-D` with three numeric
      fields, and reads them as year, month and day. */
  lemma ParseDateFields(y: string, m: string, d: string)
    requires IsField(y) && IsField(m) && IsField(d)
    ensures ParseDate(y + "-" + m + "-" + d) == Some(Date(DigitsValue(y), DigitsValue(m), DigitsValue(d)))
  {
    FieldHasNoDash(y, '-');
    FieldHasNoDash(m, '-');
    FieldHasNoDash(d, '-');
    Join3("-", y, m, d);
    SplitJoin([y, m, d], '-');
  }

  lemma ParseDateShape(s: string)
    requires ParseDate(s).Some?
    ensures exists y, m, d :: IsField(y) && IsField(m) && IsField(d) && s == y + "-" + m + "-" + d
  {
    var f := Split(s, '-');
    assert f == [f[0], f[1], f[2]];
    Join3("-", f[0], f[1], f[2]);
  }

  /** A deadline's day is the day-first reading of the fields of its first
      token: the reversal and the parser's year-first reading cancel out. */
  lemma DeadlineDayIsDayMonthYear(deadline: string)
    ensures DeadlineDay(deadline) == DayMonthYear(Split(Split(deadline, ' ')[0], '-'))
  {
    ParseYearFirst(Split(Split(deadline, ' ')[0], '-'));
  }

  /** Reading reversed fields year first is reading them day first. */
  lemma ParseYearFirst(f: seq<string>)
    requires |f| >= 1 && forall k :: 0 <= k < |f| ==> '-' !in f[k]
    ensures ParseDate(Join("-", Reverse(f))) == DayMonthYear(f)
  {
    var r := Reverse(f);
    forall k | 0 <= k < |r| ensures '-' !in r[k] {
      assert r[k] == f[|f| - 1 - k];
    }
    SplitJoin(r, '-');
    assert Split(Join("-", r), '-') == r;
  }

  /** A publication date written `D/M/YYYY` from a `D-M-YYYY` token reads as
      that year, month and day. */
  lemma PublicationDayOfFields(d: string, m: string, y: string)
    requires IsField(d) && IsField(m) && IsField(y)
    ensures PublicationDay(d + "/" + m + "/" + y) == Some(Date(DigitsValue(y), DigitsValue(m), DigitsValue(d)))
  {
    FieldHasNoDash(d, '/');
    FieldHasNoDash(m, '/');
    FieldHasNoDash(y, '/');
    Join3("/", d, m, y);
    SplitJoin([d, m, y], '/');
    assert Reverse([d, m, y]) == [y, m, d];
    Join3("-", y, m, d);
    ParseDateFields(y, m, d);
  }
}

=== FILE: feed_query.dfy ===
/** The feed-query script's search and statistics over the records of a feed,
    each record a dict of text fields: the search by entity, the count of
    procedures per entity and the ranking of the five most frequent. Loading
    the feed and printing are not modelled. */
module FeedQuery {
  import opened Wrappers
  import opened Text
  import opened Seqs
  import opened StableSort

  /** A feed record: its fields by name (`titulo`, `descricao`, `link`, ...). */
  type Record = map<string, string>

  /** The field `key` is present and its lower-cased text contains the
      lower-cased term. */
  predicate FieldMentions(p: Record, key: string, term: string) {
    key in p && Contains(Lower(p[key]), Lower(term))
  }

  /** The test of `buscar_por_entidade`: the title mentions the term, or else
      the description does. */
  predicate Mentions(term: string, p: Record) {
    FieldMentions(p, "titulo", term) || FieldMentions(p, "descricao", term)
  }

  function MentionsOf(term: string): Record -> bool {
    p => Mentions(term, p)
  }

  /** The record has a title or a description to search. */
  predicate Searchable(p: Record) {
    "titulo" in p || "descricao" in p
  }

  /** `buscar_por_entidade(procedimentos, termo)`: the records that mention
      the term, each once however many of its fields do, in their order. */
  method SearchByEntity(procs: seq<Record>, term: string) returns (found: seq<Record>)
    ensures found == Filter(procs, MentionsOf(term))
    ensures IsSubsequence(found, procs)
    ensures forall p | p in procs :: multiset(found)[p] == if Mentions(term, p) then multiset(procs)[p] else 0
    ensures forall i :: 0 <= i < |found| ==> Searchable(found[i])
  {
    var termLower := Lower(term);
    found := [];
    var i := 0;
    while i < |procs|
      invariant i <= |procs|
      invariant found == Filter(procs[..i], MentionsOf(term))
    {
      var proc := procs[i];
      if "titulo" in proc && Contains(Lower(proc["titulo"]), termLower) {
        found := found + [proc];
      } else if "descricao" in proc && Contains(Lower(proc["descricao"]), termLower) {
        found := found + [proc];
      }
      assert procs[..i + 1] == procs[..i] + [proc];
      FilterAppend(procs[..i], [proc], MentionsOf(term));
      i := i + 1;
    }
    assert procs[..i] == procs;
    FilterSpec(procs, MentionsOf(term));
  }

  /** The empty term is in every text, so it finds exactly the records with a
      title or a description. */
  lemma EmptyTermFindsSearchable(procs: seq<Record>)
    ensures Filter(procs, MentionsOf("")) == Filter(procs, Searchable)
  {
    forall i | 0 <= i < |procs| ensures MentionsOf("")(procs[i]) == Searchable(procs[i]) {
      var p := procs[i];
      if "titulo" in p {
        ContainsEmpty(Lower(p["titulo"]));
      }
      if "descricao" in p {
        ContainsEmpty(Lower(p["descricao"]));
      }
    }
    FilterCongruent(procs, MentionsOf(""), Searchable);
  }

  /** A record whose title contains the term once both are lower-cased is
      found by the search wherever it sits in the records: title and term may
      be written in any case. */
  lemma TitleMatchIsFound(procs: seq<Record>, term: string, p: Record)
    requires p in procs
    requires "titulo" in p && Contains(Lower(p["titulo"]), Lower(term))
    ensures p in Filter(procs, MentionsOf(term))
  {
    FilterSpec(procs, MentionsOf(term));
    assert multiset(Filter(procs, MentionsOf(term)))[p] == multiset(procs)[p];
  }

  // ---------------------------------------------------------------- counting entities

  /** The entity counted for a record: the stripped text after the first ':'
      of its title (`titulo.split(':', 1)[1].strip()`), when it has one. */
  function EntityKey(p: Record): Option<string> {
    if "titulo" !in p then None
    else
      match IndexOf(p["titulo"], ':', 0)
      case None => None
      case Some(k) => Some(Trim(p["titulo"][k + 1..]))
  }

  predicate Counted(p: Record) {
    EntityKey(p).Some?
  }

  /** The entity keys of the counted records, in the records' order. */
  function EntityKeys(procs: seq<Record>): seq<string>
    decreases |procs|
  {
    if |procs| == 0 then []
    else
      var last := procs[|procs| - 1];
      EntityKeys(procs[..|procs| - 1]) + (if Counted(last) then [EntityKey(last).value] else [])
  }

  /** An insertion-ordered dict from entity to count, as a list of pairs. */
  type Counts = seq<(string, nat)>

  /** `entidades[e] = entidades.get(e, 0) + 1`. */
  function Bump(counts: Counts, e: string): Counts
    decreases |counts|
  {
    if |counts| == 0 then [(e, 1)]
    else if counts[0].0 == e then [(e, counts[0].1 + 1)] + counts[1..]
    else [counts[0]] + Bump(counts[1..], e)
  }

  /** Counting a sequence of keys one by one into an empty dict. */
  function CountKeys(keys: seq<string>): Counts
    decreases |keys|
  {
    if |keys| == 0 then [] else Bump(CountKeys(keys[..|keys| - 1]), keys[|keys| - 1])
  }

  /** The counting loop of `mostrar_estatisticas`: a record bumps its entity's
      count when it has one and is skipped otherwise. */
  function CountEntities(procs: seq<Record>): Counts {
    CountKeys(EntityKeys(procs))
  }

  /** The dict's keys, in order. */
  function KeysOf(counts: Counts): seq<string>
    decreases |counts|
  {
    if |counts| == 0 then [] else [counts[0].0] + KeysOf(counts[1..])
  }

  /** The dict's value for `e`, 0 when absent. */
  function CountOf(counts: Counts, e: string): nat
    decreases |counts|
  {
    if |counts| == 0 then 0 else (if counts[0].0 == e then counts[0].1 else 0) + CountOf(counts[1..], e)
  }

  /** The sum of the dict's values. */
  function Total(counts: Counts): nat
    decreases |counts|
  {
    if |counts| == 0 then 0 else counts[0].1 + Total(counts[1..])
  }

  predicate Distinct(s: seq<string>) {
    forall i, j :: 0 <= i < j < |s| ==> s[i] != s[j]
  }

  /** The values of `s` in the order each first appears. */
  function FirstSeen(s: seq<string>): seq<string>
    decreases |s|
  {
    if |s| == 0 then []
    else
      var seen := FirstSeen(s[..|s| - 1]);
      if s[|s| - 1] in seen then seen else seen + [s[|s| - 1]]
  }

  lemma {:induction false} BumpKeys(counts: Counts, e: string)
    ensures KeysOf(Bump(counts, e)) == if e in KeysOf(counts) then KeysOf(counts) else KeysOf(counts) + [e]
    decreases |counts|
  {
    if |counts| > 0 && counts[0].0 != e {
      BumpKeys(counts[1..], e);
      assert KeysOf(counts) == [counts[0].0] + KeysOf(counts[1..]);
    }
  }

  lemma {:induction false} BumpCounts(counts: Counts, e: string)
    ensures forall x :: CountOf(Bump(counts, e), x) == CountOf(counts, x) + (if x == e then 1 else 0)
    ensures Total(Bump(counts, e)) == Total(counts) + 1
    decreases |counts|
  {
    if |counts| > 0 && counts[0].0 != e {
      BumpCounts(counts[1..], e);
    }
  }

  lemma AppendDistinct(s: seq<string>, e: string)
    requires Distinct(s) && e !in s
    ensures Distinct(s + [e])
  {
  }

  /** Counting keys gives one entry per key, in the order keys first
      appear; each entry holds the number of times its key occurs, and the
      counts add up to the number of keys. */
  lemma {:induction false} CountKeysSpec(keys: seq<string>)
    ensures KeysOf(CountKeys(keys)) == FirstSeen(keys)
    ensures Distinct(KeysOf(CountKeys(keys)))
    ensures forall e :: CountOf(CountKeys(keys), e) == multiset(keys)[e]
    ensures Total(CountKeys(keys)) == |keys|
    decreases |keys|
  {
    if |keys| > 0 {
      var init, e := keys[..|keys| - 1], keys[|keys| - 1];
      var counts := CountKeys(init);
      CountKeysSpec(init);
      BumpKeys(counts, e);
      BumpCounts(counts, e);
      assert keys == init + [e];
      assert multiset(keys) == multiset(init) + multiset{e};
      if e !in KeysOf(counts) {
        AppendDistinct(KeysOf(counts), e);
      }
    }
  }

  /** The entity dict of `mostrar_estatisticas`: one entry per entity, in the
      order entities first appear; each counting the records with that
      entity; the counts adding up to the number of records whose title has a
      ':'. */
  lemma CountEntitiesSpec(procs: seq<Record>)
    ensures KeysOf(CountEntities(procs)) == FirstSeen(EntityKeys(procs))
    ensures Distinct(KeysOf(CountEntities(procs)))
    ensures forall e :: CountOf(CountEntities(procs), e) == multiset(EntityKeys(procs))[e]
    ensures Total(CountEntities(procs)) == |Filter(procs, Counted)|
  {
    CountKeysSpec(EntityKeys(procs));
    EntityKeysCount(procs);
  }

  /** One key per record whose title has a ':'. */
  lemma {:induction false} EntityKeysCount(procs: seq<Record>)
    ensures |EntityKeys(procs)| == |Filter(procs, Counted)|
    decreases |procs|
  {
    if |procs| > 0 {
      var init, last := procs[..|procs| - 1], procs[|procs| - 1];
      EntityKeysCount(init);
      assert procs == init + [last];
      FilterAppend(init, [last], Counted);
    }
  }

  /** Every entity in the dict has been seen at least once. */
  lemma {:induction false} CountsArePositive(keys: seq<string>)
    ensures forall i :: 0 <= i < |CountKeys(keys)| ==> CountKeys(keys)[i].1 >= 1
    decreases |keys|
  {
    if |keys| > 0 {
      CountsArePositive(keys[..|keys| - 1]);
      BumpPositive(CountKeys(keys[..|keys| - 1]), keys[|keys| - 1]);
    }
  }

  lemma {:induction false} BumpPositive(counts: Counts, e: string)
    requires forall i :: 0 <= i < |counts| ==> counts[i].1 >= 1
    ensures forall i :: 0 <= i < |Bump(counts, e)| ==> Bump(counts, e)[i].1 >= 1
    decreases |counts|
  {
    if |counts| > 0 && counts[0].0 != e {
      BumpPositive(counts[1..], e);
    }
  }

  // ---------------------------------------------------------------- ranking

  /** `key=lambda x: x[1], reverse=True`: a larger count goes first. */
  function ByCountDesc(a: (string, nat), b: (string, nat)): int {
    if a.1 > b.1 then -1 else if a.1 < b.1 then 1 else 0
  }

  /** `sorted(entidades.items(), key=..., reverse=True)`: Python's sort is
      stable, also in reverse, so entities with the same count keep the
      order in which they were first seen. */
  function Ranking(counts: Counts): (r: Counts)
    ensures multiset(r) == multiset(counts) && |r| == |counts|
  {
    var r := Sort(counts, ByCountDesc);
    assert |multiset(r)| == |r| && |multiset(counts)| == |counts|;
    r
  }

  /** `sorted_entidades[:5]`. */
  function TopEntities(counts: Counts): (r: Counts)
    ensures |r| == if |counts| < 5 then |counts| else 5
    ensures r == Ranking(counts)[..|r|]
  {
    var ranked := Ranking(counts);
    ranked[..if |ranked| < 5 then |ranked| else 5]
  }

  lemma ByCountConsistent(u: set<(string, nat)>)
    ensures ConsistentOn(ByCountDesc, u)
  {
    forall a, b | a in u && b in u ensures FlipsAt(ByCountDesc, a, b) {
    }
    forall a, b, c | a in u && b in u && c in u ensures ChainsAt(ByCountDesc, a, b, c) {
    }
  }

  /** The ranking lists the counts from the largest down. */
  lemma RankingDescends(counts: Counts)
    ensures forall i, j :: 0 <= i < j < |Ranking(counts)| ==> Ranking(counts)[i].1 >= Ranking(counts)[j].1
  {
    ByCountConsistent(Elements(counts));
    SortSorted(counts, ByCountDesc, Elements(counts));
  }

  function SameCount(n: nat): ((string, nat)) -> bool {
    (c: (string, nat)) => c.1 == n
  }

  /** Among entities with the same count, the ranking keeps the dict's order. */
  lemma RankingKeepsTies(counts: Counts, n: nat)
    ensures Filter(Ranking(counts), SameCount(n)) == Filter(counts, SameCount(n))
  {
    var u := Elements(counts) + {("", n)};
    ByCountConsistent(u);
    forall q | q in u ensures ClassOf(ByCountDesc, ("", n))(q) == SameCount(n)(q) {
      assert ClassOf(ByCountDesc, ("", n))(q) == (ByCountDesc(q, ("", n)) == 0);
      assert SameCount(n)(q) == (q.1 == n);
    }
    SortStableBy(counts, ByCountDesc, u, ("", n), SameCount(n));
  }

  /** The five shown are drawn from the dict and listed from the largest
      count down. */
  lemma TopEntitiesSpec(counts: Counts)
    ensures var top := TopEntities(counts);
      && multiset(top) <= multiset(counts)
      && (forall i, j :: 0 <= i < j < |top| ==> top[i].1 >= top[j].1)
  {
    var ranked := Ranking(counts);
    var top := TopEntities(counts);
    RankingDescends(counts);
    assert ranked == top + ranked[|top|..];
    assert multiset(ranked) == multiset(top) + multiset(ranked[|top|..]);
  }

  lemma LeftOut<T>(s: seq<T>, k: nat)
    requires k <= |s|
    ensures multiset(s) - multiset(s[..k]) == multiset(s[k..])
  {
    assert s == s[..k] + s[k..];
  }

  /** No entity left out of the five has a larger count than one shown. */
  lemma TopEntitiesAreLargest(counts: Counts)
    ensures var top := TopEntities(counts);
      forall x, y | x in multiset(counts) - multiset(top) && y in top :: x.1 <= y.1
  {
    var ranked := Ranking(counts);
    var top := TopEntities(counts);
    RankingDescends(counts);
    LeftOut(ranked, |top|);
    forall x: (string, nat), y: (string, nat) | x in ranked[|top|..] && y in top ensures x.1 <= y.1 {
      AfterIsSmaller(ranked, |top|, x, y);
    }
  }

  lemma AfterIsSmaller(ranked: Counts, k: nat, x: (string, nat), y: (string, nat))
    requires k <= |ranked| && x in ranked[k..] && y in ranked[..k]
    requires forall i, j :: 0 <= i < j < |ranked| ==> ranked[i].1 >= ranked[j].1
    ensures x.1 <= y.1
  {
    var j :| 0 <= j < |ranked[k..]| && ranked[k..][j] == x;
    var i :| 0 <= i < k && ranked[..k][i] == y;
    assert ranked[i] == y && ranked[k + j] == x;
  }
}

=== FILE: price.dfy ===
/** The numeric key of the price column: `parseFloat` of the base price with
    every character other than a digit or a comma removed and the first comma
    made the decimal point. Amounts are exact rationals here; a text that
    `parseFloat` cannot read (NaN) is `None`. */
module Price {
  import opened Wrappers
  import opened Text
  import opened Seqs
  import opened Procedures

  predicate Kept(c: char) {
    IsDigit(c) || c == ','
  }

  /** `s.replace(/[^\d,]/g, '')`. */
  function Cleaned(s: string): string
    decreases |s|
  {
    if |s| == 0 then "" else (if Kept(s[0]) then [s[0]] else "") + Cleaned(s[1..])
  }

  /** `s.replace(a, b)` with a one-character pattern: only the first `a` changes. */
  function ReplaceFirst(s: string, a: char, b: char): string {
    match IndexOf(s, a, 0)
    case None => s
    case Some(k) => s[..k] + [b] + s[k + 1..]
  }

  /** The number written with integer digits `whole` and fraction digits `frac`. */
  function Decimal(whole: string, frac: string): real {
    DigitsValue(whole) as real + DigitsValue(frac) as real / Pow10(|frac|) as real
  }

  /** `parseFloat` on a text of digits, commas and at most one '.': the longest
      prefix of the form `digits[.digits]`, NaN when it holds no digit at all. */
  function DecimalPrefix(s: string): Option<real> {
    var i := DigitRunEnd(s, 0);
    var j := if i < |s| && s[i] == '.' then DigitRunEnd(s, i + 1) else i;
    var frac := if j > i then s[i + 1..j] else "";
    if i == 0 && frac == "" then None else Some(Decimal(s[..i], frac))
  }

  /** The price key of a procedure's `preco_base` (a missing or empty price
      reads as "0"). */
  function PriceValue(o: Option<string>): Option<real> {
    DecimalPrefix(ReplaceFirst(Cleaned(Or(o, "0")), ',', '.'))
  }

  // ---------------------------------------------------------------- cleaning

  lemma {:induction false} CleanedAppend(a: string, b: string)
    ensures Cleaned(a + b) == Cleaned(a) + Cleaned(b)
    decreases |a|
  {
    if |a| == 0 {
      assert a + b == b;
    } else {
      var head := if Kept(a[0]) then [a[0]] else "";
      assert (a + b)[0] == a[0] && (a + b)[1..] == a[1..] + b;
      assert Cleaned(a + b) == head + Cleaned(a[1..] + b);
      CleanedAppend(a[1..], b);
      assert Cleaned(a) == head + Cleaned(a[1..]);
    }
  }

  /** A text of digits and commas is left as it is. */
  lemma {:induction false} CleanedAllKept(s: string)
    requires forall k :: 0 <= k < |s| ==> Kept(s[k])
    ensures Cleaned(s) == s
    decreases |s|
  {
    if |s| > 0 {
      CleanedAllKept(s[1..]);
      assert s == [s[0]] + s[1..];
    }
  }

  /** A text without digits and commas disappears. */
  lemma {:induction false} CleanedNoneKept(s: string)
    requires forall k :: 0 <= k < |s| ==> !Kept(s[k])
    ensures Cleaned(s) == ""
    decreases |s|
  {
    if |s| > 0 {
      CleanedNoneKept(s[1..]);
    }
  }

  /** Without digits, only commas survive the cleaning. */
  lemma {:induction false} CleanedNoDigits(s: string)
    requires forall k :: 0 <= k < |s| ==> !IsDigit(s[k])
    ensures forall k :: 0 <= k < |Cleaned(s)| ==> Cleaned(s)[k] == ','
    decreases |s|
  {
    if |s| > 0 {
      CleanedNoDigits(s[1..]);
    }
  }

  // ---------------------------------------------------------------- reading the number

  /** Without a digit there is no number. */
  lemma DecimalPrefixNoDigits(t: string)
    requires forall k :: 0 <= k < |t| ==> !IsDigit(t[k])
    ensures DecimalPrefix(t) == None
  {
    assert DigitRunEnd(t, 0) == 0;
    if |t| > 0 && t[0] == '.' {
      assert DigitRunEnd(t, 1) == 1;
    }
  }

  /** `digits.digits` reads as that decimal number. */
  lemma DecimalPrefixOf(whole: string, frac: string)
    requires |whole| > 0 && AllDigits(whole) && AllDigits(frac)
    ensures DecimalPrefix(whole + "." + frac) == Some(Decimal(whole, frac))
  {
    var t := whole + "." + frac;
    assert t[0..|whole|] == whole;
    DigitRunEndStops(t, 0, |whole|);
    assert t[|whole| + 1..|t|] == frac;
    DigitRunEndStops(t, |whole| + 1, |t|);
    assert t[..|whole|] == whole;
  }

  // ---------------------------------------------------------------- properties

  /** A missing price is the number 0. */
  lemma PriceMissingIsZero(o: Option<string>)
    requires !Truthy(o)
    ensures PriceValue(o) == Some(0.0)
  {
    CleanedAllKept("0");
    assert IndexOf("0", ',', 0).None?;
    assert DigitRunEnd("0", 0) == 1;
  }

  /** A non-empty price with no digit in it (such as "N/A") is NaN. */
  lemma PriceWithoutDigitsIsNaN(s: string)
    requires s != "" && forall k :: 0 <= k < |s| ==> !IsDigit(s[k])
    ensures PriceValue(Some(s)) == None
  {
    var c := Cleaned(s);
    CleanedNoDigits(s);
    var t := ReplaceFirst(c, ',', '.');
    assert forall k :: 0 <= k < |t| ==> t[k] == ',' || t[k] == '.';
    DecimalPrefixNoDigits(t);
  }

  /** Characters other than digits and commas (currency, thousands dots,
      spaces) do not change the price. */
  lemma PriceIgnoresNoise(x: string, c: char, y: string)
    requires x + y != "" && !IsDigit(c) && c != ','
    ensures PriceValue(Some(x + [c] + y)) == PriceValue(Some(x + y))
  {
    CleanedAppend(x + [c], y);
    CleanedAppend(x, [c]);
    CleanedAppend(x, y);
    assert Cleaned([c]) == "" by {
      assert [c][1..] == "";
    }
    assert Cleaned(x + [c] + y) == Cleaned(x + y);
  }

  /** A price written as integer digits, a decimal comma, fraction digits and
      a unit without digits or commas is that decimal number. */
  lemma PriceOfAmount(whole: string, frac: string, unit: string)
    requires |whole| > 0 && AllDigits(whole) && AllDigits(frac)
    requires forall k :: 0 <= k < |unit| ==> !IsDigit(unit[k]) && unit[k] != ','
    ensures PriceValue(Some(whole + "," + frac + unit)) == Some(Decimal(whole, frac))
  {
    CleanedAmount(whole, frac, unit);
    CommaBecomesPoint(whole, frac);
    DecimalPrefixOf(whole, frac);
  }

  lemma CleanedAmount(whole: string, frac: string, unit: string)
    requires AllDigits(whole) && AllDigits(frac)
    requires forall k :: 0 <= k < |unit| ==> !IsDigit(unit[k]) && unit[k] != ','
    ensures Cleaned(whole + "," + frac + unit) == whole + "," + frac
  {
    var s := whole + "," + frac;
    assert forall k :: 0 <= k < |s| ==> Kept(s[k]) by {
      forall k | 0 <= k < |s| ensures Kept(s[k]) {
        if k < |whole| {
          assert s[k] == whole[k];
        } else if k > |whole| {
          assert s[k] == frac[k - |whole| - 1];
        }
      }
    }
    CleanedAllKept(s);
    CleanedNoneKept(unit);
    CleanedAppend(s, unit);
  }

  lemma CommaBecomesPoint(whole: string, frac: string)
    requires AllDigits(whole)
    ensures ReplaceFirst(whole + "," + frac, ',', '.') == whole + "." + frac
  {
    var s := whole + "," + frac;
    assert s[|whole|] == ',';
    assert forall k :: 0 <= k < |whole| ==> s[k] == whole[k] && s[k] != ',';
    assert IndexOf(s, ',', 0) == Some(|whole|);
    assert s[..|whole|] == whole && s[|whole| + 1..] == frac;
  }

  /** A thousands dot is ignored: `a.b,frac unit` is the amount `ab,frac`. */
  lemma PriceOfGroupedAmount(a: string, b: string, frac: string, unit: string)
    requires |a| > 0 && AllDigits(a) && AllDigits(b) && AllDigits(frac)
    requires forall k :: 0 <= k < |unit| ==> !IsDigit(unit[k]) && unit[k] != ','
    ensures PriceValue(Some(a + "." + b + "," + frac + unit)) == Some(Decimal(a + b, frac))
  {
    var rest := b + "," + frac + unit;
    assert a + "." + b + "," + frac + unit == a + ['.'] + rest;
    PriceIgnoresNoise(a, '.', rest);
    assert a + rest == (a + b) + "," + frac + unit;
    assert AllDigits(a + b) by {
      forall k | 0 <= k < |a + b| ensures IsDigit((a + b)[k]) {
        if k >= |a| {
          assert (a + b)[k] == b[k - |a|];
        }
      }
    }
    PriceOfAmount(a + b, frac, unit);
  }

  /** The two prices of the page's own examples: "1.500,00 EUR" is 1500 and
      "250,00 EUR" is 250. */
  lemma PriceExamples()
    ensures PriceValue(Some("1.500,00 EUR")) == Some(1500.0)
    ensures PriceValue(Some("250,00 EUR")) == Some(250.0)
  {
    ThousandsExample();
    PlainExample();
  }

  lemma ThousandsExample()
    ensures PriceValue(Some("1.500,00 EUR")) == Some(1500.0)
  {
    var a, b, frac, unit := "1", "500", "00", " EUR";
    assert "1.500,00 EUR" == a + "." + b + "," + frac + unit;
    PriceOfGroupedAmount(a, b, frac, unit);
    assert a + b == "1500";
    DecimalExamples();
  }

  lemma PlainExample()
    ensures PriceValue(Some("250,00 EUR")) == Some(250.0)
  {
    var whole, frac, unit := "250", "00", " EUR";
    assert "250,00 EUR" == whole + "," + frac + unit;
    PriceOfAmount(whole, frac, unit);
    DecimalExamples();
  }

  lemma DecimalExamples()
    ensures Decimal("1500", "00") == 1500.0 && Decimal("250", "00") == 250.0
  {
    assert "1500"[..3] == "150" && "150"[..2] == "15" && "15"[..1] == "1";
    assert DigitsValue("1500") == 1500;
    assert "250"[..2] == "25" && "25"[..1] == "2";
    assert DigitsValue("250") == 250;
    assert "00"[..1] == "0";
    assert DigitsValue("00") == 0;
    assert Pow10(2) == 100;
  }
}

=== FILE: procedures.dfy ===
/** A procurement procedure as the page receives it from `data/ativos.json`:
    every field may be missing, so each is an `Option<string>`. The field names
    are English renderings of the JSON keys (`descricao`, `designacao_contrato`,
    `entidade`, ...). */
module Procedures {
  import opened Wrappers
  import opened Text
  import opened PublicationDate

  datatype Procedure = Procedure(
    description: Option<string>,          // descricao
    contractDesignation: Option<string>,  // designacao_contrato
    entity: Option<string>,               // entidade
    awardingEntity: Option<string>,       // entidade_adjudicante
    platform: Option<string>,             // plataforma_eletronica
    basePrice: Option<string>,            // preco_base
    proposalDeadline: Option<string>,     // prazo_apresentacao_propostas
    taxId: Option<string>,                // nipc
    district: Option<string>,             // distrito
    municipality: Option<string>,         // concelho
    parish: Option<string>,               // freguesia
    website: Option<string>,              // site
    email: Option<string>,                // email
    procedureNumber: Option<string>,      // numero_procedimento
    executionTerm: Option<string>,        // prazo_execucao
    euFunds: Option<string>,              // fundos_eu
    authorName: Option<string>,           // autor_nome
    authorRole: Option<string>,           // autor_cargo
    fullDetails: Option<string>           // detalhes_completos
  )

  /** JavaScript truthiness of an optional string: present and non-empty. */
  predicate Truthy(o: Option<string>) {
    o.Some? && o.value != ""
  }

  /** `o || fallback` for an optional string. */
  function Or(o: Option<string>, fallback: string): (r: string)
    ensures Truthy(o) ==> r == o.value
    ensures !Truthy(o) ==> r == fallback
  {
    if Truthy(o) then o.value else fallback
  }

  /** `o || ''`: the text of a field, a missing one read as empty. */
  function OrEmpty(o: Option<string>): string {
    Or(o, "")
  }

  /** The 19 entries of the search text: the 18 text fields, missing ones as
      empty strings, then the extracted publication date. */
  function SearchEntries(p: Procedure): (e: seq<string>)
    ensures |e| == 19
  {
    [ OrEmpty(p.description), OrEmpty(p.contractDesignation), OrEmpty(p.entity),
      OrEmpty(p.awardingEntity), OrEmpty(p.platform), OrEmpty(p.basePrice),
      OrEmpty(p.proposalDeadline), OrEmpty(p.taxId), OrEmpty(p.district),
      OrEmpty(p.municipality), OrEmpty(p.parish), OrEmpty(p.website),
      OrEmpty(p.email), OrEmpty(p.procedureNumber), OrEmpty(p.executionTerm),
      OrEmpty(p.euFunds), OrEmpty(p.authorName), OrEmpty(p.authorRole),
      Or(Some(ExtractPublicationDate(p.fullDetails)), "") ]
  }

  /** The lower-cased, space-joined search text of a procedure (the same text
      for the free-text search and for the seed tags). */
  function Haystack(p: Procedure): string {
    Lower(Join(" ", SearchEntries(p)))
  }

  /** Whatever one entry contains, in lower case, the haystack contains. */
  lemma EntryInHaystack(p: Procedure, k: nat, needle: string)
    requires k < 19 && Contains(SearchEntries(p)[k], needle)
    ensures Contains(Haystack(p), Lower(needle))
  {
    JoinContainsPart(" ", SearchEntries(p), k, needle);
    ContainsLower(Join(" ", SearchEntries(p)), needle);
  }

  /** Whatever one entry contains once lower-cased, the haystack contains:
      the page finds a lower-case term in an entry written in any case. */
  lemma EntryLowerInHaystack(p: Procedure, k: nat, needle: string)
    requires k < 19 && Contains(Lower(SearchEntries(p)[k]), needle)
    ensures Contains(Haystack(p), needle)
  {
    ContainsSelf(SearchEntries(p)[k]);
    EntryInHaystack(p, k, SearchEntries(p)[k]);
    ContainsTrans(Haystack(p), Lower(SearchEntries(p)[k]), needle);
  }

  /** The haystack is in lower case. */
  lemma HaystackIsLower(p: Procedure)
    ensures Lower(Haystack(p)) == Haystack(p)
  {
    LowerIdempotent(Join(" ", SearchEntries(p)));
  }
}

=== FILE: publication_date.dfy ===
/** The publication-date extractor of the browser page (`extractPublicationDate`
    in scripts.js): find the label "Data de Envio do Anúncio:" followed by
    optional whitespace and a `D-M-YYYY` date, and return that date written with
    slashes, or "N/A". The regular expression
    `Data de Envio do Anúncio:\s*(\d{1,2}-\d{1,2}-\d{4})` is hand-coded as a
    matcher at one position (`MatchAt`) plus the leftmost-position search. */
module PublicationDate {
  import opened Wrappers
  import opened Text
  import opened Dates

  const Label: string := "Data de Envio do An\U{00FA}ncio:"

  /** The sentinel for "no publication date". */
  const NotAvailable: string := "N/A"

  // ---------------------------------------------------------------- declarative pattern

  /** `t` is `D-M-YYYY` with a day and a month of `a` and `b` digits. */
  predicate DateLayout(t: string, a: nat, b: nat) {
    && |t| == a + b + 6
    && AllDigits(t[..a]) && t[a] == '-'
    && AllDigits(t[a + 1..a + 1 + b]) && t[a + 1 + b] == '-'
    && AllDigits(t[a + 2 + b..])
  }

  /** `t` matches `\d{1,2}-\d{1,2}-\d{4}` in full. */
  predicate IsDateToken(t: string) {
    exists a, b | 1 <= a <= 2 && 1 <= b <= 2 :: DateLayout(t, a, b)
  }

  /** The whole pattern matches at `i` with `t` as its captured group: the
      label, a run of whitespace, then `t` as a prefix of what follows. */
  ghost predicate PatternAt(s: string, i: nat, t: string) {
    && LiteralAt(s, i, Label)
    && exists k :: i + |Label| <= k <= |s| && AllSpace(s[i + |Label|..k]) && t <= s[k..] && IsDateToken(t)
  }

  // ---------------------------------------------------------------- the matcher

  /** `\d{1,2}-` at `k`: the index just after the dash. The two-digit reading is
      tried first, as the greedy quantifier does; only one of the two can fit. */
  function ShortFieldEnd(s: string, k: nat): (r: Option<nat>)
    ensures r.Some? ==> k + 2 <= r.value <= |s|
  {
    if k + 2 < |s| && IsDigit(s[k]) && IsDigit(s[k + 1]) && s[k + 2] == '-' then Some(k + 3)
    else if k + 1 < |s| && IsDigit(s[k]) && s[k + 1] == '-' then Some(k + 2)
    else None
  }

  /** The `D-M-YYYY` token starting at `k`, if there is one. */
  function DateTokenAt(s: string, k: nat): Option<string> {
    match ShortFieldEnd(s, k)
    case None => None
    case Some(d) =>
      match ShortFieldEnd(s, d)
      case None => None
      case Some(m) =>
        if m + 4 <= |s| && AllDigits(s[m..m + 4]) then Some(s[k..m + 4]) else None
  }

  /** The capture of the pattern when a match starts at `i`. */
  function MatchAt(s: string, i: nat): Option<string> {
    if i <= |s| && LiteralAt(s, i, Label) then DateTokenAt(s, SkipSpace(s, i + |Label|)) else None
  }

  lemma DateTokenAtSound(s: string, k: nat, t: string)
    requires DateTokenAt(s, k) == Some(t)
    ensures t <= s[k..] && IsDateToken(t)
  {
    var d := ShortFieldEnd(s, k).value;
    var m := ShortFieldEnd(s, d).value;
    var a, b := d - k - 1, m - d - 1;
    assert t == s[k..m + 4];
    assert t <= s[k..];
    PrefixSlice(s, k, t, 0, a);
    PrefixSlice(s, k, t, a + 1, a + 1 + b);
    PrefixSlice(s, k, t, a + 2 + b, |t|);
    assert t[..a] == t[0..a];
    assert t[a + 2 + b..] == t[a + 2 + b..|t|];
    assert DateLayout(t, a, b);
  }

  /** `\d{1,2}-` read off a field of `a` digits that `s` carries at `k`. */
  lemma ShortFieldOf(s: string, k: nat, a: nat)
    requires 1 <= a <= 2 && k + a < |s|
    requires AllDigits(s[k..k + a]) && s[k + a] == '-'
    ensures ShortFieldEnd(s, k) == Some(k + a + 1)
  {
    assert s[k..k + a][0] == s[k];
    if a == 2 {
      assert s[k..k + a][1] == s[k + 1];
    }
  }

  lemma DateTokenAtComplete(s: string, k: nat, t: string)
    requires k <= |s| && t <= s[k..] && IsDateToken(t)
    ensures DateTokenAt(s, k) == Some(t)
  {
    var a, b :| 1 <= a <= 2 && 1 <= b <= 2 && DateLayout(t, a, b);
    var d := k + a + 1;
    var m := d + b + 1;
    PrefixSlice(s, k, t, 0, a);
    PrefixSlice(s, k, t, a + 1, a + 1 + b);
    PrefixSlice(s, k, t, a + 2 + b, |t|);
    PrefixSlice(s, k, t, 0, |t|);
    assert s[k + a] == t[a] && s[d + b] == t[a + 1 + b];
    ShortFieldOf(s, k, a);
    ShortFieldOf(s, d, b);
    assert m + 4 == k + |t|;
    assert t[0..a] == t[..a] && t[a + 2 + b..|t|] == t[a + 2 + b..] && t[0..|t|] == t;
  }

  /** A slice of a prefix of `s[k..]` is the matching slice of `s`. */
  lemma PrefixSlice(s: string, k: nat, t: string, i: nat, j: nat)
    requires k <= |s| && t <= s[k..] && i <= j <= |t|
    ensures k + j <= |s| && s[k + i..k + j] == t[i..j]
  {
    assert t == s[k..][..|t|];
  }

  /** `MatchAt` is exactly the pattern: it returns `t` iff the pattern matches
      at `i` capturing `t`. */
  lemma MatchAtIsPattern(s: string, i: nat, t: string)
    ensures MatchAt(s, i) == Some(t) <==> PatternAt(s, i, t)
  {
    if MatchAt(s, i) == Some(t) {
      MatchAtSound(s, i, t);
    }
    if PatternAt(s, i, t) {
      MatchAtComplete(s, i, t);
    }
  }

  lemma MatchAtSound(s: string, i: nat, t: string)
    requires MatchAt(s, i) == Some(t)
    ensures PatternAt(s, i, t)
  {
    var k := SkipSpace(s, i + |Label|);
    DateTokenAtSound(s, k, t);
    assert AllSpace(s[i + |Label|..k]);
  }

  lemma MatchAtComplete(s: string, i: nat, t: string)
    requires PatternAt(s, i, t)
    ensures MatchAt(s, i) == Some(t)
  {
    var k :| i + |Label| <= k <= |s| && AllSpace(s[i + |Label|..k]) && t <= s[k..] && IsDateToken(t);
    var a, b :| 1 <= a <= 2 && 1 <= b <= 2 && DateLayout(t, a, b);
    assert t[..a][0] == t[0];
    assert s[k] == t[0] && !IsSpace(s[k]);
    SkipSpaceStops(s, i + |Label|, k);
    DateTokenAtComplete(s, k, t);
  }

  // ---------------------------------------------------------------- extraction

  /** The capture of the leftmost match in `text`, if any. */
  function FindDate(text: string): Option<string> {
    match Leftmost(text, 0, MatchAt)
    case None => None
    case Some(i) => MatchAt(text, i)
  }

  /** `extractPublicationDate(detalhesCompletos)`. */
  function ExtractPublicationDate(details: Option<string>): string {
    if details.None? || details.value == "" then NotAvailable
    else
      match FindDate(details.value)
      case None => NotAvailable
      case Some(t) => ReplaceChar(t, '-', '/')
  }

  /** "N/A" exactly when the text is missing or empty or the pattern matches
      nowhere; otherwise the capture of the leftmost match, a `D-M-YYYY` token,
      with every '-' turned into '/'. */
  lemma ExtractPublicationDateSpec(details: Option<string>)
    ensures var r := ExtractPublicationDate(details);
      && (r == NotAvailable <==>
           (details.None? || details.value == "" || forall i :: 0 <= i <= |details.value| ==> MatchAt(details.value, i).None?))
      && (r != NotAvailable ==>
           exists i, t :: 0 <= i <= |details.value| && MatchAt(details.value, i) == Some(t)
             && (forall j :: 0 <= j < i ==> MatchAt(details.value, j).None?)
             && IsDateToken(t) && r == ReplaceChar(t, '-', '/'))
  {
    if details.Some? && details.value != "" {
      var s := details.value;
      FindDateIsLeftmost(s);
      if FindDate(s).Some? {
        var t := FindDate(s).value;
        FoundIsDateToken(s, t);
        SlashedTokenIsNotNotAvailable(t);
      }
    }
  }

  /** `FindDate` returns the capture at the first position where the pattern
      matches, and nothing exactly when it matches nowhere. */
  lemma FindDateIsLeftmost(s: string)
    ensures FindDate(s).None? <==> forall i :: 0 <= i <= |s| ==> MatchAt(s, i).None?
    ensures FindDate(s).Some? ==>
      exists i :: 0 <= i <= |s| && MatchAt(s, i) == FindDate(s) && forall j :: 0 <= j < i ==> MatchAt(s, j).None?
  {
    LeftmostIsFirst(s, 0, MatchAt);
  }

  lemma FoundIsDateToken(s: string, t: string)
    requires FindDate(s) == Some(t)
    ensures IsDateToken(t)
  {
    var i := Leftmost(s, 0, MatchAt).value;
    DateTokenAtSound(s, SkipSpace(s, i + |Label|), t);
  }

  /** A slashed date token starts with a digit, so it is never "N/A". */
  lemma SlashedTokenIsNotNotAvailable(t: string)
    requires IsDateToken(t)
    ensures |t| > 0 && IsDigit(ReplaceChar(t, '-', '/')[0]) && ReplaceChar(t, '-', '/') != NotAvailable
  {
    var a, b :| 1 <= a <= 2 && 1 <= b <= 2 && DateLayout(t, a, b);
    assert t[..a][0] == t[0];
    assert ReplaceChar(t, '-', '/')[0] == t[0];
  }

  /** A date the extractor returns starts with a digit and reads as a day. */
  lemma ExtractedDateShape(details: Option<string>)
    requires ExtractPublicationDate(details) != NotAvailable
    ensures var r := ExtractPublicationDate(details);
      |r| > 0 && IsDigit(r[0]) && PublicationDay(r).Some?
  {
    var t := FindDate(details.value).value;
    FoundIsDateToken(details.value, t);
    var a, b :| 1 <= a <= 2 && 1 <= b <= 2 && DateLayout(t, a, b);
    SlashedTokenDay(t, a, b);
  }

  /** A date token with its dashes turned into slashes starts with a digit and
      reads back as the day, month and year it was written with. */
  lemma SlashedTokenDay(t: string, a: nat, b: nat)
    requires 1 <= a <= 2 && 1 <= b <= 2 && DateLayout(t, a, b)
    ensures |ReplaceChar(t, '-', '/')| > 0 && IsDigit(ReplaceChar(t, '-', '/')[0])
    ensures PublicationDay(ReplaceChar(t, '-', '/'))
      == Some(Date(DigitsValue(t[a + 2 + b..]), DigitsValue(t[a + 1..a + 1 + b]), DigitsValue(t[..a])))
  {
    var d, m, y := t[..a], t[a + 1..a + 1 + b], t[a + 2 + b..];
    assert t == d + "-" + m + "-" + y;
    SlashedFields(d, m, y);
    assert d[0] == t[0];
    PublicationDayOfFields(d, m, y);
  }

  lemma SlashedFields(d: string, m: string, y: string)
    requires AllDigits(d) && AllDigits(m) && AllDigits(y)
    ensures ReplaceChar(d + "-" + m + "-" + y, '-', '/') == d + "/" + m + "/" + y
  {
    DigitsStay(d);
    DigitsStay(m);
    DigitsStay(y);
    ReplaceAppend(d, "-");
    ReplaceAppend(d + "-", m);
    ReplaceAppend(d + "-" + m, "-");
    ReplaceAppend(d + "-" + m + "-", y);
    assert ReplaceChar("-", '-', '/') == "/";
  }

  /** Replacing characters works piecewise on a concatenation. */
  lemma ReplaceAppend(x: string, z: string)
    ensures ReplaceChar(x + z, '-', '/') == ReplaceChar(x, '-', '/') + ReplaceChar(z, '-', '/')
  {
    var l, r := ReplaceChar(x + z, '-', '/'), ReplaceChar(x, '-', '/') + ReplaceChar(z, '-', '/');
    forall i | 0 <= i < |l| ensures l[i] == r[i] {
      if i < |x| {
        assert (x + z)[i] == x[i];
      } else {
        assert (x + z)[i] == z[i - |x|];
      }
    }
  }

  /** A run of digits has no '-' to replace. */
  lemma DigitsStay(x: string)
    requires AllDigits(x)
    ensures ReplaceChar(x, '-', '/') == x
  {
    forall i | 0 <= i < |x| ensures ReplaceChar(x, '-', '/')[i] == x[i] {
      assert IsDigit(x[i]);
    }
  }
}

=== FILE: query_state.dfy ===
/** The page's state and the handlers that change it: loading, the query
    pipeline (search, then seed, then sort), clearing the search, the column
    headers, the seed editor's tags, saving a seed, and activating or clearing
    a seed by its code. The globals of scripts.js become one immutable `State`
    that every handler maps to a new one; what a handler displays is the
    `shown` list. */
module QueryState {
  import opened Wrappers
  import opened Text
  import opened Seqs
  import opened Procedures
  import opened Search
  import opened SortEngine
  import opened SortKeys

  /** The page's globals, plus the search box the pipeline reads and the list
      the page last displayed. */
  datatype State = State(
    all: seq<Procedure>,        // allProcedimentos
    filtered: seq<Procedure>,   // filteredProcedimentos
    tags: seq<string>,          // currentTags, the seed editor's keywords
    activeSeed: Option<string>, // activeSeedCode
    seeds: seq<Seed>,           // allSeeds
    sortColumn: Option<string>, // currentSortColumn
    sortDirection: Direction,   // currentSortDirection
    query: string,              // the search box
    shown: seq<Procedure>       // the list last passed to displayProcedimentos
  )

  /** The messages a handler shows instead of acting. */
  datatype Alert = NoTags | EmptyCode | UnknownCode

  /** The globals as the script declares them, with the seeds read at start-up. */
  function Initial(seeds: seq<Seed>): (st: State)
    ensures st.sortColumn.None? && st.sortDirection == Asc && st.activeSeed.None?
    ensures st.all == [] && st.filtered == [] && st.shown == [] && st.tags == [] && st.seeds == seeds
    ensures st.query == ""
  {
    State([], [], [], None, seeds, None, Asc, "", [])
  }

  // ---------------------------------------------------------------- loading and the pipeline

  /** The list the page displays for `list`: sorted by the current column and
      direction when a column is set, as it is otherwise. */
  function Arrange(st: State, list: seq<Procedure>): (r: seq<Procedure>)
    ensures multiset(r) == multiset(list)
    ensures !Truthy(st.sortColumn) ==> r == list
  {
    if Truthy(st.sortColumn) then SortProcedures(list, st.sortColumn.value, st.sortDirection) else list
  }

  /** Loading the data file: every procedure is kept and the list is shown
      newest publication first. */
  function Load(st: State, data: seq<Procedure>): (r: State)
    ensures r.all == data && r.filtered == data
    ensures r.sortColumn == Some(PublicationColumn) && r.sortDirection == Desc
    ensures multiset(r.shown) == multiset(data)
    ensures forall i, j :: 0 <= i < j < |r.shown| ==>
      KeyCompare(ColumnKey(PublicationColumn, r.shown[i]), ColumnKey(PublicationColumn, r.shown[j])) >= 0
    ensures r.tags == st.tags && r.seeds == st.seeds && r.activeSeed == st.activeSeed && r.query == st.query
  {
    SortedByKey(data, PublicationColumn, Desc);
    st.(all := data, filtered := data, sortColumn := Some(PublicationColumn), sortDirection := Desc,
        shown := SortProcedures(data, PublicationColumn, Desc))
  }

  /** What the pipeline keeps: the procedure passes the search term and the
      active seed. */
  predicate Admits(st: State, p: Procedure) {
    MatchesQuery(SearchTerm(st.query), p) && MatchesSeed(st.seeds, st.activeSeed, p)
  }

  /** The procedures of `st.all` the pipeline admits, in their loaded order. */
  function Admitted(st: State): seq<Procedure> {
    Filter(st.all, p => Admits(st, p))
  }

  /** `filterProcedimentos`: the search stage, then the seed stage, then the
      current sort. */
  function FilterProcedures(st: State): (r: State)
    ensures r.filtered == Admitted(st)
    ensures multiset(r.shown) == multiset(r.filtered)
    ensures r.(filtered := st.filtered, shown := st.shown) == st
  {
    var filtered := SeedFilter(SearchFilter(st.all, st.query), st.seeds, st.activeSeed);
    PipelineIsOneFilter(st);
    st.(filtered := filtered, shown := Arrange(st, filtered))
  }

  /** The two stages together are one filter by `Admits`. */
  lemma PipelineIsOneFilter(st: State)
    ensures SeedFilter(SearchFilter(st.all, st.query), st.seeds, st.activeSeed) == Admitted(st)
  {
    var term := SearchTerm(st.query);
    var q := p => MatchesQuery(term, p);
    var m := p => MatchesSeed(st.seeds, st.activeSeed, p);
    var both := p => Admits(st, p);
    if term == "" {
      forall p ensures MatchesQuery(term, p) {
        ContainsEmpty(Haystack(p));
      }
      if Truthy(st.activeSeed) {
        FilterCongruent(st.all, m, both);
      } else {
        FilterAll(st.all, both);
      }
    } else if Truthy(st.activeSeed) {
      FilterFilter(st.all, q, m, both);
    } else {
      FilterCongruent(st.all, q, both);
    }
  }

  /** The order of the two filter stages does not matter. */
  lemma StagesCommute(records: seq<Procedure>, raw: string, seeds: seq<Seed>, active: Option<string>)
    ensures SeedFilter(SearchFilter(records, raw), seeds, active) == SearchFilter(SeedFilter(records, seeds, active), raw)
  {
    var term := SearchTerm(raw);
    var q := p => MatchesQuery(term, p);
    var m := p => MatchesSeed(seeds, active, p);
    if term != "" && Truthy(active) {
      var both := p => MatchesQuery(term, p) && MatchesSeed(seeds, active, p);
      FilterFilter(records, q, m, both);
      FilterFilter(records, m, q, both);
    }
  }

  /** Loading into the start state shows what the pipeline would show: the
      search box is empty and no seed is active, so every procedure is kept,
      sorted by the default column. */
  lemma LoadShowsPipeline(seeds: seq<Seed>, data: seq<Procedure>)
    ensures FilterProcedures(Load(Initial(seeds), data)) == Load(Initial(seeds), data)
  {
    var st := Load(Initial(seeds), data);
    forall p ensures Admits(st, p) {
      ContainsEmpty(Haystack(p));
    }
    FilterAll(data, p => Admits(st, p));
  }

  /** Running the pipeline again changes nothing. */
  lemma FilterProceduresIdempotent(st: State)
    ensures FilterProcedures(FilterProcedures(st)) == FilterProcedures(st)
  {
  }

  /** What the pipeline shows is its filtered list in the column's key order
      when a known column is set and every kept procedure is comparable. */
  lemma PipelineShowsSorted(st: State)
    requires Truthy(st.sortColumn) && KnownColumn(st.sortColumn.value)
    requires forall i :: 0 <= i < |st.all| ==> Comparable(st.sortColumn.value, st.all[i])
    ensures var r := FilterProcedures(st);
      forall i, j :: 0 <= i < j < |r.shown| ==>
        DirSign(st.sortDirection) * KeyCompare(ColumnKey(st.sortColumn.value, r.shown[i]), ColumnKey(st.sortColumn.value, r.shown[j])) <= 0
  {
    var col := st.sortColumn.value;
    var r := FilterProcedures(st);
    FilterSpec(st.all, p => Admits(st, p));
    forall i | 0 <= i < |r.filtered| ensures Comparable(col, r.filtered[i]) {
      assert r.filtered[i] in multiset(r.filtered);
      assert r.filtered[i] in multiset(st.all);
    }
    SortedByKey(r.filtered, col, st.sortDirection);
  }

  /** `clearSearch`: empties the search box and shows every procedure in the
      current order, without the active seed's filter. */
  function ClearSearch(st: State): (r: State)
    ensures r.query == "" && r.filtered == st.all
    ensures multiset(r.shown) == multiset(st.all)
    ensures r.(query := st.query, filtered := st.filtered, shown := st.shown) == st
  {
    st.(query := "", filtered := st.all, shown := Arrange(st, st.all))
  }

  /** The quirk of `clearSearch`: with an active seed that rejects a
      procedure, that procedure is shown after clearing the search, although
      running the pipeline on the cleared state would drop it. */
  lemma ClearSearchIgnoresSeed(st: State, p: Procedure)
    requires p in st.all && !MatchesSeed(st.seeds, st.activeSeed, p)
    ensures p in ClearSearch(st).filtered
    ensures p !in FilterProcedures(ClearSearch(st)).filtered
  {
    var c := ClearSearch(st);
    FilterSpec(c.all, q => Admits(c, q));
    assert multiset(FilterProcedures(c).filtered)[p] == 0;
  }

  // ---------------------------------------------------------------- sorting by a column header

  function Flip(dir: Direction): Direction {
    if dir == Asc then Desc else Asc
  }

  /** `handleSort(column)`: the current column flips its direction, any other
      column starts ascending; the filtered list is shown sorted that way. */
  function HandleSort(st: State, column: string): (r: State)
    ensures r.sortColumn == Some(column)
    ensures r.sortDirection == (if st.sortColumn == Some(column) then Flip(st.sortDirection) else Asc)
    ensures multiset(r.shown) == multiset(st.filtered)
    ensures r.(sortColumn := st.sortColumn, sortDirection := st.sortDirection, shown := st.shown) == st
  {
    var dir := if st.sortColumn == Some(column) then (if st.sortDirection == Asc then Desc else Asc) else Asc;
    st.(sortColumn := Some(column), sortDirection := dir, shown := SortProcedures(st.filtered, column, dir))
  }

  /** Clicking the same header twice restores the direction; a new column
      clicked twice ends descending. */
  lemma HandleSortTwice(st: State, column: string)
    ensures HandleSort(HandleSort(st, column), column).sortDirection
      == (if st.sortColumn == Some(column) then st.sortDirection else Desc)
  {
  }

  /** After a click on a known column the page shows the filtered list in
      that column's key order. */
  lemma HandleSortShowsSorted(st: State, column: string)
    requires KnownColumn(column)
    requires forall i :: 0 <= i < |st.filtered| ==> Comparable(column, st.filtered[i])
    ensures var r := HandleSort(st, column);
      forall i, j :: 0 <= i < j < |r.shown| ==>
        DirSign(r.sortDirection) * KeyCompare(ColumnKey(column, r.shown[i]), ColumnKey(column, r.shown[j])) <= 0
  {
    SortedByKey(st.filtered, column, HandleSort(st, column).sortDirection);
  }

  // ---------------------------------------------------------------- the seed editor's tags

  /** A tag as `addTag` stores it: trimmed, then lower-cased. */
  function TagOf(text: string): string {
    Lower(Trim(text))
  }

  /** The tag list the editor keeps: clean tags, none twice. */
  predicate TagsOk(tags: seq<string>) {
    (forall i :: 0 <= i < |tags| ==> CleanTag(tags[i]))
    && (forall i, j :: 0 <= i < j < |tags| ==> tags[i] != tags[j])
  }

  /** `addTag(text)`: appends the cleaned text unless it is empty or already there. */
  function AddTag(st: State, text: string): (r: State)
    ensures |st.tags| <= |r.tags| <= |st.tags| + 1 && r.tags[..|st.tags|] == st.tags
    ensures forall t :: t in r.tags <==> t in st.tags || (t == TagOf(text) && t != "")
    ensures TagsOk(st.tags) ==> TagsOk(r.tags)
    ensures r.(tags := st.tags) == st
  {
    var t := TagOf(text);
    if t != "" && t !in st.tags then
      AppendTag(st.tags, text);
      st.(tags := st.tags + [t])
    else
      st
  }

  lemma AppendTag(tags: seq<string>, text: string)
    requires TagOf(text) != "" && TagOf(text) !in tags
    ensures (tags + [TagOf(text)])[..|tags|] == tags
    ensures TagsOk(tags) ==> TagsOk(tags + [TagOf(text)])
  {
    TagOfIsClean(text);
    assert (tags + [TagOf(text)])[..|tags|] == tags;
  }

  lemma TagOfIsClean(text: string)
    requires TagOf(text) != ""
    ensures CleanTag(TagOf(text))
  {
    LowerTrimCommute(Trim(text));
    TrimIdempotent(text);
    LowerIdempotent(Trim(text));
  }

  /** Adding the same text twice is adding it once. */
  lemma AddTagIdempotent(st: State, text: string)
    ensures AddTag(AddTag(st, text), text) == AddTag(st, text)
  {
  }

  /** The index `splice(index, 1)` removes at: a negative index counts from
      the end; an index past the end removes nothing. */
  function SpliceStart(len: nat, index: int): (k: nat)
    ensures k <= len
    ensures 0 <= index ==> k == (if index < len then index else len)
    ensures index < 0 && -index <= len ==> k == len + index
    ensures index < -(len as int) ==> k == 0
  {
    if index < 0 then (if len + index < 0 then 0 else len + index)
    else if index > len then len else index
  }

  /** `removeTag(index)`: `currentTags.splice(index, 1)`. */
  function RemoveTag(st: State, index: int): (r: State)
    ensures var k := SpliceStart(|st.tags|, index);
      && (k < |st.tags| ==> |r.tags| == |st.tags| - 1 && multiset(r.tags) + multiset{st.tags[k]} == multiset(st.tags))
      && (k == |st.tags| ==> r.tags == st.tags)
    ensures IsSubsequence(r.tags, st.tags)
    ensures TagsOk(st.tags) ==> TagsOk(r.tags)
    ensures r.(tags := st.tags) == st
  {
    var k := SpliceStart(|st.tags|, index);
    if k < |st.tags| then
      var tags := st.tags[..k] + st.tags[k + 1..];
      RemoveAtFacts(st.tags, k);
      st.(tags := tags)
    else
      IsSubsequenceRefl(st.tags);
      st
  }

  lemma RemoveAtFacts(s: seq<string>, k: nat)
    requires k < |s|
    ensures var r := s[..k] + s[k + 1..];
      && multiset(r) + multiset{s[k]} == multiset(s)
      && IsSubsequence(r, s)
      && (TagsOk(s) ==> TagsOk(r))
  {
    assert s == s[..k] + [s[k]] + s[k + 1..];
    SkipOne(s, k);
    RemoveKeepsTagsOk(s, k);
  }

  lemma RemoveKeepsTagsOk(s: seq<string>, k: nat)
    requires k < |s|
    ensures TagsOk(s) ==> TagsOk(s[..k] + s[k + 1..])
  {
    var r := s[..k] + s[k + 1..];
    forall i | 0 <= i < |r| ensures r[i] == s[if i < k then i else i + 1] {
    }
  }

  /** Deleting one element leaves a subsequence. */
  lemma {:induction false} SkipOne<T>(s: seq<T>, k: nat)
    requires k < |s|
    ensures IsSubsequence(s[..k] + s[k + 1..], s)
    decreases k
  {
    var r := s[..k] + s[k + 1..];
    if k == 0 {
      assert r == s[1..];
      TailIsSubsequence(s);
    } else {
      SkipOne(s[1..], k - 1);
      assert r[0] == s[0];
      assert r[1..] == s[1..][..k - 1] + s[1..][k..];
    }
  }

  /** Removing the tag just added, by its index or by -1, undoes the addition. */
  lemma RemoveUndoesAdd(st: State, text: string)
    requires TagOf(text) != "" && TagOf(text) !in st.tags
    ensures RemoveTag(AddTag(st, text), |st.tags|) == st
    ensures RemoveTag(AddTag(st, text), -1) == st
  {
    var a := AddTag(st, text);
    assert a.tags == st.tags + [TagOf(text)];
    assert a.tags[..|st.tags|] + a.tags[|st.tags| + 1..] == st.tags;
  }

  // ---------------------------------------------------------------- seed codes

  const CodeAlphabet: string := "ABCDEFGHIJKLMNOPQRSTUVWXYZ0123456789"
  const CodePrefix: string := "SEED"

  /** The character `generateSeedCode` picks for the draw `i`:
      `CodeAlphabet[i]` (see `CodeCharIsAlphabet`). */
  function CodeChar(i: nat): char
    requires i < 36
  {
    if i < 26 then ('A' as int + i) as char else ('0' as int + i - 26) as char
  }

  lemma CodeCharIsAlphabet()
    ensures |CodeAlphabet| == 36
    ensures forall i :: 0 <= i < 36 ==> CodeAlphabet[i] == CodeChar(i)
  {
  }

  /** The draw a code character came from. */
  function CodeIndex(c: char): Option<nat> {
    if 'A' <= c <= 'Z' then Some(c as int - 'A' as int)
    else if '0' <= c <= '9' then Some(c as int - '0' as int + 26)
    else None
  }

  lemma CodeIndexOfChar(i: nat)
    requires i < 36
    ensures CodeIndex(CodeChar(i)) == Some(i)
    ensures UpperChar(CodeChar(i)) == CodeChar(i) && !IsSpace(CodeChar(i))
  {
  }

  /** The six draws `Math.floor(Math.random() * 36)`, made inputs. */
  predicate ValidDraws(draws: seq<nat>) {
    |draws| == 6 && forall k :: 0 <= k < 6 ==> draws[k] < 36
  }

  /** `generateSeedCode()` for the given draws: "SEED" and six alphabet characters. */
  function SeedCode(draws: seq<nat>): (code: string)
    requires ValidDraws(draws)
    ensures |code| == 10 && code[..4] == CodePrefix
    ensures forall k :: 4 <= k < 10 ==> code[k] == CodeChar(draws[k - 4])
  {
    CodePrefix + seq(6, k requires 0 <= k < 6 => CodeChar(draws[k]))
  }

  /** The draws a code was generated from, if it is a generated code. */
  function DrawsOf(code: string): Option<seq<nat>> {
    if |code| != 10 || code[..4] != CodePrefix || exists k :: 4 <= k < 10 && CodeIndex(code[k]).None? then None
    else Some(seq(6, k requires 0 <= k < 6 => CodeIndex(code[k + 4]).value))
  }

  /** A code gives back the draws it was generated from, so different draws
      give different codes. */
  lemma DrawsOfSeedCode(draws: seq<nat>)
    requires ValidDraws(draws)
    ensures DrawsOf(SeedCode(draws)) == Some(draws)
  {
    var code := SeedCode(draws);
    forall k | 4 <= k < 10 ensures CodeIndex(code[k]) == Some(draws[k - 4]) {
      CodeIndexOfChar(draws[k - 4]);
    }
    var d := seq(6, k requires 0 <= k < 6 => CodeIndex(code[k + 4]).value);
    assert DrawsOf(code) == Some(d);
    assert forall k :: 0 <= k < 6 ==> d[k] == draws[k];
    assert d == draws;
  }

  lemma SeedCodeInjective(a: seq<nat>, b: seq<nat>)
    requires ValidDraws(a) && ValidDraws(b) && SeedCode(a) == SeedCode(b)
    ensures a == b
  {
    DrawsOfSeedCode(a);
    DrawsOfSeedCode(b);
  }

  /** Every character of a generated code is an upper-case letter or a digit. */
  predicate CodeLetter(c: char) {
    'A' <= c <= 'Z' || '0' <= c <= '9'
  }

  lemma SeedCodeLetters(draws: seq<nat>)
    requires ValidDraws(draws)
    ensures forall k :: 0 <= k < 10 ==> CodeLetter(SeedCode(draws)[k])
  {
    var code := SeedCode(draws);
    assert forall k :: 0 <= k < 4 ==> code[k] == code[..4][k];
    forall k | 4 <= k < 10 ensures CodeLetter(code[k]) {
      CodeIndexOfChar(draws[k - 4]);
    }
  }

  /** A generated code typed back into the seed search, in lower case and
      with blanks around it, reads as that code. */
  lemma TypedCodeReadsBack(draws: seq<nat>, before: string, after: string)
    requires ValidDraws(draws) && AllSpace(before) && AllSpace(after)
    ensures CodeOf(before + Lower(SeedCode(draws)) + after) == SeedCode(draws)
  {
    var code := SeedCode(draws);
    SeedCodeLetters(draws);
    LowerCodeLetters(code);
    TrimPadded(before, Lower(code), after);
  }

  lemma LowerCodeLetters(code: string)
    requires |code| > 0 && forall k :: 0 <= k < |code| ==> CodeLetter(code[k])
    ensures IsTrimmed(Lower(code)) && Upper(Lower(code)) == code
  {
    var typed := Lower(code);
    assert forall k :: 0 <= k < |code| ==> UpperChar(typed[k]) == code[k];
  }

  // ---------------------------------------------------------------- saving and activating seeds

  /** The name of a saved seed: its first two tags joined by ", ", and "..."
      when there are more. */
  function SeedName(tags: seq<string>): string {
    Join(", ", tags[..if |tags| < 2 then |tags| else 2]) + (if |tags| > 2 then "..." else "")
  }

  lemma SeedNameShape(tags: seq<string>)
    ensures |tags| == 1 ==> SeedName(tags) == tags[0]
    ensures |tags| == 2 ==> SeedName(tags) == tags[0] + ", " + tags[1]
    ensures |tags| > 2 ==> SeedName(tags) == tags[0] + ", " + tags[1] + "..."
  {
    if |tags| >= 2 {
      var two := tags[..2];
      assert two == [tags[0], tags[1]] && two[1..] == [tags[1]];
      assert Join(", ", two) == tags[0] + ", " + tags[1];
      assert SeedName(tags) == Join(", ", two) + (if |tags| > 2 then "..." else "");
    } else if |tags| == 1 {
      assert tags[..1] == [tags[0]];
    }
  }

  /** `saveSeed()` with the district chosen in the editor, the code's random
      draws and the creation time: no tags is an alert; otherwise the seed is
      appended and the editor's tags are cleared. */
  function SaveSeed(st: State, district: string, draws: seq<nat>, created: string): (r: Result<State, Alert>)
    requires ValidDraws(draws)
    ensures r.Failure? <==> st.tags == []
    ensures r.Failure? ==> r.error == NoTags
    ensures r.Success? ==>
      && r.value.seeds == st.seeds + [Seed(SeedCode(draws), st.tags, Some(district), SeedName(st.tags), created)]
      && r.value.tags == []
      && r.value.(seeds := st.seeds, tags := st.tags) == st
  {
    if |st.tags| == 0 then Failure(NoTags)
    else
      var seed := Seed(SeedCode(draws), st.tags, Some(district), SeedName(st.tags), created);
      Success(st.(seeds := st.seeds + [seed], tags := []))
  }

  /** The seed code the seed search reads from its input box. */
  function CodeOf(input: string): string {
    Upper(Trim(input))
  }

  /** `searchBySeed()` with the text of its input box: an empty code or one
      no saved seed has is an alert and changes nothing; otherwise the code
      becomes active and the pipeline runs. */
  function SearchBySeed(st: State, input: string): (r: Result<State, Alert>)
    ensures CodeOf(input) == "" ==> r == Failure(EmptyCode)
    ensures CodeOf(input) != "" && FindSeed(st.seeds, CodeOf(input)).None? ==> r == Failure(UnknownCode)
    ensures r.Success? <==> CodeOf(input) != "" && FindSeed(st.seeds, CodeOf(input)).Some?
    ensures r.Success? ==>
      && r.value.activeSeed == Some(CodeOf(input))
      && r.value.filtered == Admitted(st.(activeSeed := Some(CodeOf(input))))
      && multiset(r.value.shown) == multiset(r.value.filtered)
      && r.value.(activeSeed := st.activeSeed, filtered := st.filtered, shown := st.shown) == st
  {
    var code := CodeOf(input);
    if code == "" then Failure(EmptyCode)
    else if FindSeed(st.seeds, code).None? then Failure(UnknownCode)
    else Success(FilterProcedures(st.(activeSeed := Some(code))))
  }

  /** `clearSeedSearch()`: no active seed, and the pipeline runs with the
      search alone. */
  function ClearSeedSearch(st: State): (r: State)
    ensures r.activeSeed.None?
    ensures r.filtered == SearchFilter(st.all, st.query)
    ensures multiset(r.shown) == multiset(r.filtered)
    ensures r.(activeSeed := st.activeSeed, filtered := st.filtered, shown := st.shown) == st
  {
    var c := st.(activeSeed := None);
    PipelineIsOneFilter(c);
    FilterProcedures(c)
  }

  /** A seed just saved under a fresh code can be activated by typing that
      code, and the active seed is then the one saved, with the editor's tags. */
  lemma SavedSeedIsFound(st: State, district: string, draws: seq<nat>, created: string)
    requires ValidDraws(draws) && st.tags != []
    requires forall i :: 0 <= i < |st.seeds| ==> st.seeds[i].code != SeedCode(draws)
    ensures var saved := SaveSeed(st, district, draws, created).value;
      && SearchBySeed(saved, SeedCode(draws)).Success?
      && FindSeed(saved.seeds, SeedCode(draws)) == Some(Seed(SeedCode(draws), st.tags, Some(district), SeedName(st.tags), created))
  {
    var saved := SaveSeed(st, district, draws, created).value;
    var code := SeedCode(draws);
    CodeReadsAsItself(draws);
    FindSeedFirst(saved.seeds, code);
    var n := |st.seeds|;
    assert saved.seeds[n].code == code;
    var i :| 0 <= i < |saved.seeds| && saved.seeds[i] == FindSeed(saved.seeds, code).value
      && saved.seeds[i].code == code && forall j :: 0 <= j < i ==> saved.seeds[j].code != code;
    assert i == n;
  }

  /** A generated code is already trimmed and upper-case. */
  lemma CodeReadsAsItself(draws: seq<nat>)
    requires ValidDraws(draws)
    ensures CodeOf(SeedCode(draws)) == SeedCode(draws)
  {
    var code := SeedCode(draws);
    SeedCodeLetters(draws);
    assert !IsSpace(code[0]) && !IsSpace(code[9]);
    TrimTrimmed(code);
    assert forall k :: 0 <= k < 10 ==> UpperChar(code[k]) == code[k];
  }
}

=== FILE: rss_extractor.dfy ===
/** The RSS extractor's handling of the feed: the procedure number and entity
    of an item's title, the rule that keeps the items with a title and a link,
    and the merge of each kept item with the details read from its page. The
    feed arrives already parsed, as a list of items; the details of each page
    are an input, one per item. */
module RssExtractor {
  import opened Wrappers
  import opened Text
  import opened Seqs
  import opened RssFields

  // ---------------------------------------------------------------- procedure number and entity

  /** "n.º", the mark before a procedure number in a feed title. */
  const NumberMark: string := "n.\U{00BA}"

  const NotAvailable: string := "N/A"

  /** The pattern `n\.º\s*(\d+)/\d+` tried at position `i`: its capture is the
      digits before the slash. */
  function NumberAt(s: string, i: nat): Option<string> {
    if LiteralAt(s, i, NumberMark) then
      var w := SkipSpace(s, i + |NumberMark|);
      var d := DigitRunEnd(s, w);
      if w < d && d + 1 < |s| && s[d] == '/' && IsDigit(s[d + 1]) then Some(s[w..d]) else None
    else None
  }

  /** `re.search` of that pattern: the capture of the leftmost match. */
  function FindNumber(title: string): Option<string> {
    match Leftmost(title, 0, NumberAt)
    case None => None
    case Some(i) => NumberAt(title, i)
  }

  datatype ProcedureInfo = ProcedureInfo(numero: string, entidade: string)

  /** `extract_procedure_info(title, description)`. */
  function ExtractProcedureInfo(title: string, description: string): (r: ProcedureInfo)
    ensures r.numero == NotAvailable || (r.numero != "" && AllDigits(r.numero))
  {
    var numero := match FindNumber(title) case None => NotAvailable case Some(n) => n;
    ProcedureInfo(numero, Trim(title))
  }

  /** The number is the capture of the leftmost match and "N/A" exactly when
      the pattern matches nowhere; the entity is the trimmed title; the
      description plays no part. */
  lemma ExtractProcedureInfoSpec(title: string, description: string, other: string)
    ensures var r := ExtractProcedureInfo(title, description);
      && (r.numero == NotAvailable <==> forall i :: 0 <= i <= |title| ==> NumberAt(title, i).None?)
      && (r.numero != NotAvailable ==>
            exists i :: 0 <= i <= |title| && NumberAt(title, i) == Some(r.numero) && (forall k :: 0 <= k < i ==> NumberAt(title, k).None?))
      && r.entidade == Trim(title)
      && ExtractProcedureInfo(title, other) == r
  {
    LeftmostIsFirst(title, 0, NumberAt);
    assert !IsDigit(NotAvailable[0]);
  }

  /** `Leftmost` finds a position where the matcher succeeds after failing
      everywhere before it. */
  lemma LeftmostAt(s: string, at: (string, nat) -> Option<string>, k: nat)
    requires k <= |s| && at(s, k).Some? && forall j :: 0 <= j < k ==> at(s, j).None?
    ensures Leftmost(s, 0, at) == Some(k)
  {
    LeftmostIsFirst(s, 0, at);
  }

  /** A title with "n.º", blanks, the number, '/' and a year, and no 'º'
      before that, has that number. */
  lemma NumberOfTitle(pre: string, gap: string, digits: string, year: string, rest: string)
    requires forall k :: 0 <= k < |pre| ==> pre[k] != '\U{00BA}'
    requires AllSpace(gap) && |digits| > 0 && AllDigits(digits) && |year| > 0 && AllDigits(year)
    ensures FindNumber(pre + NumberMark + gap + digits + "/" + year + rest) == Some(digits)
  {
    var s := pre + NumberMark + gap + digits + "/" + year + rest;
    var b := |pre|;
    var a, w, d := b + 3, b + 3 + |gap|, b + 3 + |gap| + |digits|;
    assert s[b + 2] == '\U{00BA}' && s[b] == 'n' && s[b + 1] == '.';
    forall k | 0 <= k < b ensures NumberAt(s, k).None? {
      assert s[k + 2] != '\U{00BA}';
      assert s[k..k + 3][2] == s[k + 2];
    }
    assert s[b..b + 3] == NumberMark;
    assert s[a..w] == gap && s[w] == digits[0];
    SkipSpaceStops(s, a, w);
    assert s[w..d] == digits && s[d] == '/' && s[d + 1] == year[0];
    DigitRunEndStops(s, w, d);
    assert NumberAt(s, b) == Some(digits);
    LeftmostAt(s, NumberAt, b);
  }

  // ---------------------------------------------------------------- CDATA markers

  const CDataOpen: string := "<![CDATA["
  const CDataClose: string := "]]>"

  /** The end of the lazy `(.*?)` that starts at `j`: the first "]]>" from `j`
      on, provided no line break comes first (`.` does not match one). */
  function CloseAt(s: string, j: nat): (r: Option<nat>)
    requires j <= |s|
    ensures r.Some? ==> j <= r.value && LiteralAt(s, r.value, CDataClose)
    decreases |s| - j
  {
    if LiteralAt(s, j, CDataClose) then Some(j)
    else if j < |s| && s[j] != '\n' then CloseAt(s, j + 1)
    else None
  }

  /** `re.sub(r'<!\[CDATA\[(.*?)\]\]>', r'\1', s)` from position `i`: every
      wrapped section is replaced by its contents, scanning left to right. */
  function StripCData(s: string, i: nat): string
    requires i <= |s|
    decreases |s| - i
  {
    if i == |s| then ""
    else if LiteralAt(s, i, CDataOpen) && CloseAt(s, i + |CDataOpen|).Some? then
      var c := CloseAt(s, i + |CDataOpen|).value;
      s[i + |CDataOpen|..c] + StripCData(s, c + |CDataClose|)
    else [s[i]] + StripCData(s, i + 1)
  }

  /** A text without the opening marker is left as it is. */
  lemma {:induction false} StripCDataPlain(s: string, i: nat)
    requires i <= |s| && forall k :: i <= k < |s| ==> !LiteralAt(s, k, CDataOpen)
    ensures StripCData(s, i) == s[i..]
    decreases |s| - i
  {
    if i < |s| {
      StripCDataPlain(s, i + 1);
      assert s[i..] == [s[i]] + s[i + 1..];
    }
  }

  lemma {:induction false} CloseAtStops(s: string, j: nat, c: nat)
    requires j <= c && LiteralAt(s, c, CDataClose)
    requires forall m :: j <= m < c ==> s[m] != '\n' && s[m] != ']'
    ensures CloseAt(s, j) == Some(c)
    decreases c - j
  {
    if j < c {
      assert s[j..j + 3][0] == s[j];
      CloseAtStops(s, j + 1, c);
    }
  }

  /** One line wrapped in the markers, with no ']' in it, is unwrapped. */
  lemma StripCDataWrapped(x: string)
    requires forall m :: 0 <= m < |x| ==> x[m] != '\n' && x[m] != ']'
    ensures StripCData(CDataOpen + x + CDataClose, 0) == x
  {
    var s := CDataOpen + x + CDataClose;
    var c := |CDataOpen| + |x|;
    ClosesAfter(CDataOpen, x);
    assert LiteralAt(s, 0, CDataOpen) by {
      assert s[..9] == CDataOpen;
    }
    assert s[9..c] == x;
    assert StripCData(s, 0) == x + StripCData(s, c + 3);
  }

  lemma ClosesAfter(p: string, x: string)
    requires forall m :: 0 <= m < |x| ==> x[m] != '\n' && x[m] != ']'
    ensures CloseAt(p + x + CDataClose, |p|) == Some(|p| + |x|)
  {
    var s := p + x + CDataClose;
    var c := |p| + |x|;
    assert s[c..c + 3] == CDataClose;
    forall m | |p| <= m < c ensures s[m] != '\n' && s[m] != ']' {
      assert s[m] == x[m - |p|];
    }
    CloseAtStops(s, |p|, c);
  }

  // ---------------------------------------------------------------- items

  /** An XML element as `find` returns it: `text` is nothing for an element
      without text, such as `<description/>`. */
  datatype Element = Element(text: Option<string>)

  /** A feed `<item>` with the three children the parser looks up; a missing
      child is nothing. */
  datatype Item = Item(title: Option<Element>, description: Option<Element>, link: Option<Element>)

  /** An entry of the basic list: `numero_procedimento`, `entidade`, `link`. */
  datatype Basic = Basic(numero: string, entidade: string, link: string)

  /** The parser keeps an item when it has a title and a link. */
  predicate Listed(item: Item) {
    item.title.Some? && item.link.Some?
  }

  /** `elem.text or ""`, and "" for a missing element. */
  function TextOf(e: Option<Element>): string {
    match e
    case Some(Element(Some(t))) => t
    case _ => ""
  }

  /** The entry of a kept item: the title unwrapped, its number and entity,
      and the link as it is. */
  function BasicOf(item: Item): (b: Basic)
    ensures b.link == TextOf(item.link)
  {
    var title := StripCData(TextOf(item.title), 0);
    var description := StripCData(TextOf(item.description), 0);
    var info := ExtractProcedureInfo(title, description);
    Basic(info.numero, info.entidade, TextOf(item.link))
  }

  /** `parse_rss_to_json`, with an element without text read as "" for the
      description as it is for the title and the link. */
  function ParseRss(items: seq<Item>): seq<Basic>
    decreases |items|
  {
    if |items| == 0 then []
    else (if Listed(items[0]) then [BasicOf(items[0])] else []) + ParseRss(items[1..])
  }

  /** The entries are those of the items with a title and a link, one each,
      in document order. */
  lemma {:induction false} ParseRssSpec(items: seq<Item>)
    ensures var kept := Filter(items, Listed);
      |ParseRss(items)| == |kept| && forall k :: 0 <= k < |kept| ==> ParseRss(items)[k] == BasicOf(kept[k])
    decreases |items|
  {
    if |items| > 0 {
      ParseRssSpec(items[1..]);
    }
  }

  /** Why `parse_rss_to_json` stops: the `TypeError` of `re.sub` on `None`. */
  datatype Crash = DescriptionWithoutText

  /** A kept item whose description element has no text: the code as written
      hands its `None` text to `re.sub`. */
  predicate Crashes(item: Item) {
    Listed(item) && item.description == Some(Element(None))
  }

  /** `parse_rss_to_json` as written: the description is `elem.text` without
      the `or ""` the title and the link have, and the exception it raises on
      `None` is not the `ParseError` the function catches. */
  function ParseRssAsWritten(items: seq<Item>): Result<seq<Basic>, Crash>
    decreases |items|
  {
    if |items| == 0 then Success([])
    else if Crashes(items[0]) then Failure(DescriptionWithoutText)
    else
      match ParseRssAsWritten(items[1..])
      case Failure(e) => Failure(e)
      case Success(rest) => Success((if Listed(items[0]) then [BasicOf(items[0])] else []) + rest)
  }

  /** The code as written fails exactly when a kept item has a description
      element without text, and otherwise agrees with `ParseRss`. */
  lemma {:induction false} AsWrittenAgrees(items: seq<Item>)
    ensures ParseRssAsWritten(items).Failure? <==> exists k :: 0 <= k < |items| && Crashes(items[k])
    ensures ParseRssAsWritten(items).Success? ==> ParseRssAsWritten(items).value == ParseRss(items)
    decreases |items|
  {
    if |items| > 0 {
      AsWrittenAgrees(items[1..]);
      if exists k :: 0 <= k < |items[1..]| && Crashes(items[1..][k]) {
        var k :| 0 <= k < |items[1..]| && Crashes(items[1..][k]);
        assert Crashes(items[k + 1]);
      }
      if exists k :: 0 <= k < |items| && Crashes(items[k]) {
        var k :| 0 <= k < |items| && Crashes(items[k]);
        if k > 0 {
          assert Crashes(items[1..][k - 1]);
        }
      }
    }
  }

  /** A feed whose one item has a title, a link and an empty `<description/>`. */
  lemma EmptyDescriptionCrashes(t: string, l: string)
    ensures var item := Item(Some(Element(Some(t))), Some(Element(None)), Some(Element(Some(l))));
      && ParseRssAsWritten([item]) == Failure(DescriptionWithoutText)
      && ParseRss([item]) == [BasicOf(item)]
  {
  }

  // ---------------------------------------------------------------- merging with the details

  /** A JSON object of the output: string values, or `null` as nothing. */
  type Dict = map<string, Option<string>>

  function BasicDict(b: Basic): Dict {
    map["numero_procedimento" := Some(b.numero), "entidade" := Some(b.entidade), "link" := Some(b.link)]
  }

  /** `{**item, **details}` when the details are a non-empty dict, the item
      alone otherwise. */
  function Merge(item: Dict, details: Option<Dict>): (r: Dict)
    ensures r.Keys == item.Keys + (if details.Some? then details.value.Keys else {})
    ensures forall k | k in r :: r[k] == if details.Some? && k in details.value then details.value[k] else item[k]
  {
    if details.Some? && details.value != map[] then item + details.value else item
  }

  /** The loop of `main` over the basic list, with `fetched[i]` standing for
      the details read from the page of `items[i]`: one entry per item, in
      order. */
  method MergeAll(items: seq<Basic>, fetched: seq<Option<Dict>>) returns (out: seq<Dict>)
    requires |fetched| == |items|
    ensures |out| == |items|
    ensures forall i :: 0 <= i < |items| ==> out[i] == Merge(BasicDict(items[i]), fetched[i])
  {
    out := [];
    var i := 0;
    while i < |items|
      invariant i <= |items| && |out| == i
      invariant forall j :: 0 <= j < i ==> out[j] == Merge(BasicDict(items[j]), fetched[j])
    {
      out := out + [Merge(BasicDict(items[i]), fetched[i])];
      i := i + 1;
    }
  }

  /** With the details of a page, the entry keeps the item's number and link
      but takes its entity from the page's "Designação da entidade
      adjudicante" field, which is nothing when the page lacks it. */
  lemma MergedEntityComesFromPage(b: Basic, text: string, fields: seq<(string, Option<string>)>)
    requires |fields| == |Patterns| && forall k :: 0 <= k < |fields| ==> fields[k].0 == Patterns[k].0
    ensures var r := Merge(BasicDict(b), Some(DetailsDict(text, fields)));
      && r["numero_procedimento"] == Some(b.numero)
      && r["link"] == Some(b.link)
      && r["entidade"] == fields[0].1
      && r["detalhes_completos"] == Some(text)
  {
    PageDetailsKeys(text, fields);
  }

  lemma PageDetailsKeys(text: string, fields: seq<(string, Option<string>)>)
    requires |fields| == |Patterns| && forall k :: 0 <= k < |fields| ==> fields[k].0 == Patterns[k].0
    ensures var d := DetailsDict(text, fields);
      && "numero_procedimento" !in d && "link" !in d
      && "entidade" in d && d["entidade"] == fields[0].1
      && d["detalhes_completos"] == Some(text)
  {
    DetailsHaveEveryField(text, fields);
    DictOfKeys(fields);
    assert forall k :: 0 <= k < |Patterns| ==> Patterns[k].0 != "numero_procedimento" && Patterns[k].0 != "link";
    assert "numero_procedimento" !in KeysOf(fields) && "link" !in KeysOf(fields);
    assert Patterns[0].0 == "entidade";
  }
}

=== FILE: rss_fields.dfy ===
/** The fields the RSS extractor reads from the text of a procedure's detail
    page: one pattern per field, searched for its leftmost match, and the
    capture stripped and with its whitespace runs collapsed. Fetching and
    parsing the page are not modelled: the page arrives as its text. */
module RssFields {
  import opened Wrappers
  import opened Text
  import opened Seqs

  // ---------------------------------------------------------------- normalisation

  predicate Visible(c: char) {
    !IsSpace(c)
  }

  /** `re.sub(r'\s+', ' ', s)`: every run of whitespace becomes one blank. */
  function CollapseSpace(s: string): string
    decreases |s|
  {
    if |s| == 0 then ""
    else if IsSpace(s[0]) then " " + CollapseSpace(s[SkipSpace(s, 0)..])
    else [s[0]] + CollapseSpace(s[1..])
  }

  /** The only whitespace is single blanks. */
  predicate Collapsed(s: string) {
    forall i :: 0 <= i < |s| && IsSpace(s[i]) ==> s[i] == ' ' && (i + 1 == |s| || !IsSpace(s[i + 1]))
  }

  /** A captured value as the extractor stores it: `strip()`, then collapsed. */
  function Normalize(v: string): string {
    CollapseSpace(Trim(v))
  }

  /** Collapsing leaves single blanks only, keeps the text empty or not, and
      keeps whether it starts and ends with whitespace. */
  lemma {:induction false} CollapseSpaceSpec(s: string)
    ensures Collapsed(CollapseSpace(s))
    ensures |CollapseSpace(s)| == 0 <==> |s| == 0
    ensures |s| > 0 ==> (IsSpace(CollapseSpace(s)[0]) <==> IsSpace(s[0]))
    ensures |s| > 0 ==> (IsSpace(CollapseSpace(s)[|CollapseSpace(s)| - 1]) <==> IsSpace(s[|s| - 1]))
    decreases |s|
  {
    if |s| > 0 {
      var r := CollapseSpace(s);
      if IsSpace(s[0]) {
        var j := SkipSpace(s, 0);
        var t := s[j..];
        CollapseSpaceSpec(t);
        assert r == " " + CollapseSpace(t);
        if |t| == 0 {
          assert IsSpace(s[|s| - 1]);
        } else {
          assert t[0] == s[j] && t[|t| - 1] == s[|s| - 1];
        }
        forall i | 1 <= i < |r| ensures r[i] == CollapseSpace(t)[i - 1] {
        }
      } else {
        var t := s[1..];
        CollapseSpaceSpec(t);
        assert r == [s[0]] + CollapseSpace(t);
        if |t| > 0 {
          assert t[|t| - 1] == s[|s| - 1];
        }
        forall i | 1 <= i < |r| ensures r[i] == CollapseSpace(t)[i - 1] {
        }
      }
    }
  }

  /** A collapsed text is left as it is. */
  lemma {:induction false} CollapseFixed(s: string)
    requires Collapsed(s)
    ensures CollapseSpace(s) == s
    decreases |s|
  {
    if |s| > 0 {
      assert Collapsed(s[1..]) by {
        forall i | 0 <= i < |s[1..]| && IsSpace(s[1..][i])
          ensures s[1..][i] == ' ' && (i + 1 == |s[1..]| || !IsSpace(s[1..][i + 1]))
        {
          assert s[1..][i] == s[i + 1];
        }
      }
      CollapseFixed(s[1..]);
      if IsSpace(s[0]) {
        if |s| > 1 {
          SkipSpaceStops(s, 0, 1);
        }
      }
      assert s == [s[0]] + s[1..];
    }
  }

  /** Collapsing keeps the visible characters, in order. */
  lemma {:induction false} CollapseKeepsVisible(s: string)
    ensures Filter(CollapseSpace(s), Visible) == Filter(s, Visible)
    decreases |s|
  {
    if |s| > 0 {
      if IsSpace(s[0]) {
        var j := SkipSpace(s, 0);
        var t := s[j..];
        CollapseKeepsVisible(t);
        assert (" " + CollapseSpace(t))[1..] == CollapseSpace(t);
        assert s == s[..j] + t;
        FilterAppend(s[..j], t, Visible);
        FilterNone(s[..j], Visible);
      } else {
        CollapseKeepsVisible(s[1..]);
        assert ([s[0]] + CollapseSpace(s[1..]))[1..] == CollapseSpace(s[1..]);
      }
    }
  }

  /** Stripping keeps the visible characters, in order. */
  lemma TrimKeepsVisible(s: string)
    ensures Filter(Trim(s), Visible) == Filter(s, Visible)
  {
    var i, j :| 0 <= i <= j <= |s| && Trim(s) == s[i..j] && AllSpace(s[..i]) && AllSpace(s[j..]);
    assert s == s[..i] + s[i..j] + s[j..];
    BlanksAroundAreInvisible(s[..i], s[i..j], s[j..]);
  }

  lemma BlanksAroundAreInvisible(a: string, m: string, b: string)
    requires AllSpace(a) && AllSpace(b)
    ensures Filter(a + m + b, Visible) == Filter(m, Visible)
  {
    FilterAppend(a + m, b, Visible);
    FilterAppend(a, m, Visible);
    FilterNone(a, Visible);
    FilterNone(b, Visible);
  }

  /** A normalised value has no whitespace at either end, no whitespace but
      single blanks, the visible characters of the capture in their order, and
      normalising it again changes nothing. */
  lemma NormalizeSpec(v: string)
    ensures IsTrimmed(Normalize(v)) && Collapsed(Normalize(v))
    ensures Filter(Normalize(v), Visible) == Filter(v, Visible)
    ensures Normalize(Normalize(v)) == Normalize(v)
  {
    var t := Trim(v);
    var n := Normalize(v);
    CollapseSpaceSpec(t);
    CollapseKeepsVisible(t);
    TrimKeepsVisible(v);
    TrimTrimmed(n);
    CollapseFixed(n);
  }

  // ---------------------------------------------------------------- patterns

  /** The two shapes of the extractor's patterns, compiled with `re.MULTILINE`
      and `re.DOTALL`: `marker\s*(.+?)(?:\n|$)`, a value running to the end of
      its line, and `marker\s*(\d+)`, a number. */
  datatype Pattern = ToLineEnd(marker: string) | Number(marker: string)

  /** The `patterns` dict: the output key of each field and its pattern, in
      the dict's order. */
  const Patterns: seq<(string, Pattern)> := [
    ("entidade", ToLineEnd("Designação da entidade adjudicante:")),
    ("nipc", Number("NIPC:")),
    ("distrito", ToLineEnd("Distrito:")),
    ("concelho", ToLineEnd("Concelho:")),
    ("freguesia", ToLineEnd("Freguesia:")),
    ("site", ToLineEnd("Endereço da Entidade (URL):")),
    ("email", ToLineEnd("Endereço Eletrónico:")),
    ("designacao_contrato", ToLineEnd("Designação do contrato:")),
    ("descricao", ToLineEnd("Descrição:")),
    ("preco_base", ToLineEnd("Preço base s/IVA:")),
    ("prazo_execucao", ToLineEnd("Prazo de execução do contrato:")),
    ("prazo_apresentacao_propostas", ToLineEnd("Prazo para apresentação das propostas:")),
    ("fundos_eu", ToLineEnd("Têm fundos EU?")),
    ("plataforma_eletronica", ToLineEnd("Plataforma eletrónica utilizada pela entidade adjudicante:")),
    ("url_procedimento", ToLineEnd("URL para Apresentação:")),
    ("autor_nome", ToLineEnd("28 - IDENTIFICAÇÃO DO(S) AUTOR(ES) DE ANÚNCIO\nNome:")),
    ("autor_cargo", ToLineEnd("Cargo:"))
  ]

  /** The first position from `j` on that ends a line: a line break or the end. */
  function LineEnd(t: string, j: nat): (e: nat)
    requires j <= |t|
    ensures j <= e <= |t| && (e == |t| || t[e] == '\n')
    ensures forall m :: j <= m < e ==> t[m] != '\n'
    decreases |t| - j
  {
    if j == |t| || t[j] == '\n' then j else LineEnd(t, j + 1)
  }

  /** The pattern tried at position `i` of the page text, with the regex
      engine's backtracking written out: `\s*` takes all the whitespace it
      can and gives one character back only when nothing would be left for
      the capture; the lazy capture then stops at the first line end. */
  function PatternAt(p: Pattern, t: string, i: nat): Option<string> {
    if !LiteralAt(t, i, p.marker) then None
    else
      var a := i + |p.marker|;
      var w := SkipSpace(t, a);
      match p
      case ToLineEnd(_) =>
        if w < |t| then Some(t[w..LineEnd(t, w + 1)])
        else if a < w then Some(t[w - 1..])
        else None
      case Number(_) =>
        var d := DigitRunEnd(t, w);
        if w < d then Some(t[w..d]) else None
  }

  /** The pattern as a matcher for `Leftmost`. */
  function MatcherOf(p: Pattern): (string, nat) -> Option<string> {
    (s: string, i: nat) => PatternAt(p, s, i)
  }

  /** `re.search(pattern, text)`: the capture of the leftmost match. */
  function Search(p: Pattern, t: string): Option<string> {
    match Leftmost(t, 0, MatcherOf(p))
    case None => None
    case Some(i) => PatternAt(p, t, i)
  }

  /** `Search` returns the capture at the first position where the pattern
      matches, and nothing exactly when it matches nowhere. */
  lemma SearchIsLeftmost(p: Pattern, t: string)
    ensures Search(p, t).None? <==> forall i :: 0 <= i <= |t| ==> PatternAt(p, t, i).None?
    ensures Search(p, t).Some? ==>
      exists i :: 0 <= i <= |t| && PatternAt(p, t, i) == Search(p, t) && (forall k :: 0 <= k < i ==> PatternAt(p, t, k).None?)
  {
    var at := MatcherOf(p);
    LeftmostIsFirst(t, 0, at);
    forall k: nat ensures at(t, k) == PatternAt(p, t, k) {
    }
  }

  /** A number field is a non-empty run of digits; a line field is one line
      of the text (or a lone whitespace character, when the marker is followed
      by nothing but whitespace up to the end). */
  lemma CaptureShape(p: Pattern, t: string, i: nat)
    requires PatternAt(p, t, i).Some?
    ensures var c := PatternAt(p, t, i).value;
      && |c| > 0
      && (p.Number? ==> AllDigits(c))
      && (p.ToLineEnd? ==> forall m :: 0 < m < |c| ==> c[m] != '\n')
  {
  }

  /** A marker followed by blanks and a value on the rest of its line reads as
      that value, whatever follows the line. */
  lemma LineFieldReadsValue(marker: string, gap: string, v: string, rest: string)
    requires AllSpace(gap) && |v| > 0 && !IsSpace(v[0]) && forall m :: 0 <= m < |v| ==> v[m] != '\n'
    ensures Search(ToLineEnd(marker), marker + gap + v + "\n" + rest) == Some(v)
  {
    var t := marker + gap + v + "\n" + rest;
    var a, w, e := |marker|, |marker| + |gap|, |marker| + |gap| + |v|;
    assert t[0..|marker|] == marker;
    assert t[a..w] == gap && t[w] == v[0];
    SkipSpaceStops(t, a, w);
    assert t[e] == '\n';
    assert forall m :: w + 1 <= m < e ==> t[m] == v[m - w];
    LineEndStops(t, w + 1, e);
    assert t[w..e] == v;
    assert PatternAt(ToLineEnd(marker), t, 0) == Some(v);
  }

  lemma {:induction false} LineEndStops(t: string, j: nat, e: nat)
    requires j <= e < |t| && t[e] == '\n' && forall m :: j <= m < e ==> t[m] != '\n'
    ensures LineEnd(t, j) == e
    decreases e - j
  {
    if j < e {
      LineEndStops(t, j + 1, e);
    }
  }

  /** A marker followed by blanks and a run of digits reads as those digits. */
  lemma NumberFieldReadsDigits(marker: string, gap: string, digits: string, rest: string)
    requires AllSpace(gap) && |digits| > 0 && AllDigits(digits) && (|rest| == 0 || !IsDigit(rest[0]))
    ensures Search(Number(marker), marker + gap + digits + rest) == Some(digits)
  {
    var t := marker + gap + digits + rest;
    var a, w, d := |marker|, |marker| + |gap|, |marker| + |gap| + |digits|;
    assert t[0..|marker|] == marker;
    assert t[a..w] == gap && t[w] == digits[0];
    SkipSpaceStops(t, a, w);
    assert t[w..d] == digits;
    DigitRunEndStops(t, w, d);
    assert PatternAt(Number(marker), t, 0) == Some(digits);
  }

  // ---------------------------------------------------------------- the extraction loop

  /** A field's value: the normalised capture, or nothing when the pattern
      does not match. */
  function FieldValue(p: Pattern, text: string): (v: Option<string>)
    ensures v.Some? <==> Search(p, text).Some?
    ensures v.Some? ==> IsTrimmed(v.value) && Collapsed(v.value)
  {
    match Search(p, text)
    case None => None
    case Some(capture) =>
      NormalizeSpec(capture);
      Some(Normalize(capture))
  }

  /** The loop over a patterns dict: one entry per pattern, in the dict's
      order, each under the pattern's key. */
  method ExtractWith(patterns: seq<(string, Pattern)>, text: string) returns (fields: seq<(string, Option<string>)>)
    ensures |fields| == |patterns|
    ensures forall k :: 0 <= k < |fields| ==> fields[k] == (patterns[k].0, FieldValue(patterns[k].1, text))
  {
    fields := [];
    var k := 0;
    while k < |patterns|
      invariant k <= |patterns| && |fields| == k
      invariant forall j :: 0 <= j < k ==> fields[j] == (patterns[j].0, FieldValue(patterns[j].1, text))
    {
      var (field, pattern) := patterns[k];
      fields := fields + [(field, FieldValue(pattern, text))];
      k := k + 1;
    }
  }

  /** The extractor's loop: every field key, in the dict's order, holding a
      normalised value or nothing. */
  method ExtractFields(text: string) returns (fields: seq<(string, Option<string>)>)
    ensures |fields| == |Patterns|
    ensures forall k :: 0 <= k < |fields| ==> fields[k].0 == Patterns[k].0
    ensures forall k :: 0 <= k < |fields| ==> fields[k].1 == FieldValue(Patterns[k].1, text)
  {
    fields := ExtractWith(Patterns, text);
  }

  /** A dict built by inserting the entries in order: a later entry for the
      same key replaces an earlier one. */
  function DictOf(entries: seq<(string, Option<string>)>): map<string, Option<string>>
    decreases |entries|
  {
    if |entries| == 0 then map[]
    else DictOf(entries[..|entries| - 1])[entries[|entries| - 1].0 := entries[|entries| - 1].1]
  }

  /** The dict has exactly the entries' keys. */
  lemma {:induction false} DictOfKeys(entries: seq<(string, Option<string>)>)
    ensures DictOf(entries).Keys == KeysOf(entries)
    decreases |entries|
  {
    if |entries| > 0 {
      var init := entries[..|entries| - 1];
      DictOfKeys(init);
      KeysOfSnoc(entries);
    }
  }

  function KeysOf(entries: seq<(string, Option<string>)>): set<string> {
    set i | 0 <= i < |entries| :: entries[i].0
  }

  lemma KeysOfSnoc(entries: seq<(string, Option<string>)>)
    requires |entries| > 0
    ensures KeysOf(entries) == KeysOf(entries[..|entries| - 1]) + {entries[|entries| - 1].0}
  {
    var init := entries[..|entries| - 1];
    forall x | x in KeysOf(entries) ensures x in KeysOf(init) + {entries[|entries| - 1].0} {
      var i :| 0 <= i < |entries| && entries[i].0 == x;
      if i < |init| {
        assert init[i].0 == x;
      }
    }
    forall x | x in KeysOf(init) ensures x in KeysOf(entries) {
      var i :| 0 <= i < |init| && init[i].0 == x;
      assert entries[i].0 == x;
    }
  }

  /** With distinct keys, every key maps to its entry's value. */
  lemma {:induction false} DictOfValues(entries: seq<(string, Option<string>)>)
    requires forall i, j :: 0 <= i < j < |entries| ==> entries[i].0 != entries[j].0
    ensures forall i :: 0 <= i < |entries| ==> entries[i].0 in DictOf(entries) && DictOf(entries)[entries[i].0] == entries[i].1
    decreases |entries|
  {
    if |entries| > 0 {
      var init := entries[..|entries| - 1];
      DictOfValues(init);
      assert forall i :: 0 <= i < |init| ==> init[i] == entries[i];
    }
  }

  /** The field keys are distinct, so every field lands in the dict. */
  lemma PatternKeysDistinct()
    ensures forall i, j :: 0 <= i < j < |Patterns| ==> Patterns[i].0 != Patterns[j].0
  {
  }

  /** `{'detalhes_completos': details_text, **extracted_info}`. */
  function DetailsDict(text: string, fields: seq<(string, Option<string>)>): map<string, Option<string>> {
    map["detalhes_completos" := Some(text)] + DictOf(fields)
  }

  /** The details of a page hold its whole text and every field key, each with
      its extracted value or nothing. */
  lemma DetailsHaveEveryField(text: string, fields: seq<(string, Option<string>)>)
    requires |fields| == |Patterns| && forall k :: 0 <= k < |fields| ==> fields[k].0 == Patterns[k].0
    ensures var d := DetailsDict(text, fields);
      && d["detalhes_completos"] == Some(text)
      && forall k :: 0 <= k < |Patterns| ==> Patterns[k].0 in d && d[Patterns[k].0] == fields[k].1
  {
    PatternKeysDistinct();
    DictOfValues(fields);
    DictOfKeys(fields);
    assert forall k :: 0 <= k < |Patterns| ==> Patterns[k].0 != "detalhes_completos";
    assert "detalhes_completos" !in KeysOf(fields);
  }
}

=== FILE: search.dfy ===
/** The two filters of the page's query pipeline: the free-text search over a
    procedure's haystack, and the gate of the active seed (a saved set of
    keyword tags plus an optional district). */
module Search {
  import opened Wrappers
  import opened Text
  import opened Seqs
  import opened Procedures

  // ---------------------------------------------------------------- free-text search

  /** The search input as the page uses it: lower-cased, then trimmed. */
  function SearchTerm(raw: string): string {
    Trim(Lower(raw))
  }

  predicate MatchesQuery(term: string, p: Procedure) {
    Contains(Haystack(p), term)
  }

  /** The free-text stage of the pipeline: an empty term keeps every procedure;
      any other term keeps, in order, the procedures whose haystack contains it. */
  function SearchFilter(records: seq<Procedure>, raw: string): (r: seq<Procedure>)
    ensures SearchTerm(raw) == "" ==> r == records
    ensures IsSubsequence(r, records)
    ensures forall i :: 0 <= i < |r| ==> MatchesQuery(SearchTerm(raw), r[i])
    ensures forall x | x in records ::
      multiset(r)[x] == if MatchesQuery(SearchTerm(raw), x) then multiset(records)[x] else 0
  {
    var term := SearchTerm(raw);
    if term == "" then
      assert forall x | x in records :: MatchesQuery(term, x) by {
        forall x | x in records ensures MatchesQuery(term, x) {
          ContainsEmpty(Haystack(x));
        }
      }
      IsSubsequenceRefl(records);
      records
    else
      FilterSpec(records, p => MatchesQuery(term, p));
      Filter(records, p => MatchesQuery(term, p))
  }

  /** The shortcut for an empty term is only a shortcut: filtering by the
      empty term would keep everything as well. */
  lemma EmptyTermKeepsAll(records: seq<Procedure>)
    ensures Filter(records, p => MatchesQuery("", p)) == records
  {
    forall i | 0 <= i < |records| ensures MatchesQuery("", records[i]) {
      ContainsEmpty(Haystack(records[i]));
    }
    FilterAll(records, p => MatchesQuery("", p));
  }

  /** A procedure one of whose fields, lower-cased, contains the lower-cased
      trimmed query is kept by the search: the field may be written in any
      case. */
  lemma FieldMatchIsFound(p: Procedure, k: nat, raw: string)
    requires k < 19 && Contains(Lower(SearchEntries(p)[k]), SearchTerm(raw))
    ensures p in SearchFilter([p], raw)
  {
    EntryLowerInHaystack(p, k, SearchTerm(raw));
  }

  /** Searching the results again with the same input changes nothing. */
  lemma SearchIdempotent(records: seq<Procedure>, raw: string)
    ensures SearchFilter(SearchFilter(records, raw), raw) == SearchFilter(records, raw)
  {
    var term := SearchTerm(raw);
    if term != "" {
      var m := p => MatchesQuery(term, p);
      FilterFilter(records, m, m, m);
    }
  }

  // ---------------------------------------------------------------- seeds

  /** A saved seed: its code (`SEED` and six characters), its keyword tags, its
      district (`''` or missing for every district), its display name and its
      creation timestamp. */
  datatype Seed = Seed(code: string, tags: seq<string>, district: Option<string>, name: string, created: string)

  /** `seeds.find(s => s.code === code)`. */
  function FindSeed(seeds: seq<Seed>, code: string): Option<Seed> {
    if |seeds| == 0 then None
    else if seeds[0].code == code then Some(seeds[0])
    else FindSeed(seeds[1..], code)
  }

  /** `FindSeed` returns the first seed with the code, and nothing exactly when
      no seed has it. */
  lemma {:induction false} FindSeedFirst(seeds: seq<Seed>, code: string)
    ensures FindSeed(seeds, code).Some? ==>
      (exists i :: 0 <= i < |seeds| && seeds[i] == FindSeed(seeds, code).value
        && seeds[i].code == code && forall j :: 0 <= j < i ==> seeds[j].code != code)
    ensures FindSeed(seeds, code).None? <==> forall i :: 0 <= i < |seeds| ==> seeds[i].code != code
  {
    if |seeds| > 0 && seeds[0].code != code {
      var rest := seeds[1..];
      FindSeedFirst(rest, code);
      if FindSeed(rest, code).Some? {
        var i :| 0 <= i < |rest| && rest[i] == FindSeed(rest, code).value
          && rest[i].code == code && forall j :: 0 <= j < i ==> rest[j].code != code;
        assert seeds[i + 1] == rest[i];
        forall j | 0 <= j < i + 1 ensures seeds[j].code != code {
          if j > 0 {
            assert seeds[j] == rest[j - 1];
          }
        }
      } else {
        forall i | 0 <= i < |seeds| ensures seeds[i].code != code {
          if i > 0 {
            assert seeds[i] == rest[i - 1];
          }
        }
      }
    }
  }

  /** The district gate: a seed with a non-empty district admits only the
      procedures whose district equals it, ignoring case (not whitespace). */
  predicate DistrictGate(seed: Seed, p: Procedure) {
    Truthy(seed.district) ==> Lower(OrEmpty(p.district)) == Lower(seed.district.value)
  }

  /** The tag gate: some tag, lower-cased, occurs in the haystack. */
  predicate TagGate(seed: Seed, p: Procedure) {
    exists i :: 0 <= i < |seed.tags| && Contains(Haystack(p), Lower(seed.tags[i]))
  }

  /** `procedureMatchesSeed`: no active code, or a code that names no saved
      seed, admits everything; otherwise both gates must pass. */
  function MatchesSeed(seeds: seq<Seed>, active: Option<string>, p: Procedure): (b: bool)
    ensures !Truthy(active) ==> b
    ensures Truthy(active) && FindSeed(seeds, active.value).None? ==> b
    ensures Truthy(active) && FindSeed(seeds, active.value).Some? ==>
      (b <==> DistrictGate(FindSeed(seeds, active.value).value, p) && TagGate(FindSeed(seeds, active.value).value, p))
  {
    if !Truthy(active) then true
    else
      match FindSeed(seeds, active.value)
      case None => true
      case Some(seed) =>
        if Truthy(seed.district) && Lower(OrEmpty(p.district)) != Lower(seed.district.value) then false
        else exists i :: 0 <= i < |seed.tags| && Contains(Haystack(p), Lower(seed.tags[i]))
  }

  /** The seed stage of the pipeline, applied only when a code is active. */
  function SeedFilter(records: seq<Procedure>, seeds: seq<Seed>, active: Option<string>): (r: seq<Procedure>)
    ensures IsSubsequence(r, records)
    ensures forall i :: 0 <= i < |r| ==> MatchesSeed(seeds, active, r[i])
    ensures forall x | x in records ::
      multiset(r)[x] == if MatchesSeed(seeds, active, x) then multiset(records)[x] else 0
  {
    if Truthy(active) then
      FilterSpec(records, p => MatchesSeed(seeds, active, p));
      Filter(records, p => MatchesSeed(seeds, active, p))
    else
      IsSubsequenceRefl(records);
      records
  }

  /** An active code that names no saved seed filters nothing out. */
  lemma UnknownSeedKeepsAll(records: seq<Procedure>, seeds: seq<Seed>, code: string)
    requires FindSeed(seeds, code).None?
    ensures SeedFilter(records, seeds, Some(code)) == records
  {
    if code != "" {
      FilterAll(records, p => MatchesSeed(seeds, Some(code), p));
    }
  }

  /** Tags as the tag editor stores them: non-empty, trimmed and lower-case. */
  predicate CleanTag(t: string) {
    t != "" && Trim(t) == t && Lower(t) == t
  }

  /** With clean tags, a seed admits a procedure exactly when the district gate
      passes and a free-text search for one of its tags would keep it. */
  lemma SeedIsDistrictAndTagSearch(seed: Seed, p: Procedure)
    requires forall i :: 0 <= i < |seed.tags| ==> CleanTag(seed.tags[i])
    ensures TagGate(seed, p) <==> exists i :: 0 <= i < |seed.tags| && p in SearchFilter([p], seed.tags[i])
  {
    forall i | 0 <= i < |seed.tags|
      ensures (p in SearchFilter([p], seed.tags[i])) == Contains(Haystack(p), Lower(seed.tags[i]))
    {
      var t := seed.tags[i];
      assert SearchTerm(t) == t;
      assert SearchTerm(t) != "";
      assert multiset([p])[p] == 1;
    }
  }

  /** With an active seed whose tags are clean, a procedure is admitted
      exactly when its district passes and a free-text search for one of the
      tags would keep it. */
  lemma MatchesSeedIsSearch(seeds: seq<Seed>, code: string, p: Procedure)
    requires code != "" && FindSeed(seeds, code).Some?
    requires forall i :: 0 <= i < |FindSeed(seeds, code).value.tags| ==> CleanTag(FindSeed(seeds, code).value.tags[i])
    ensures var seed := FindSeed(seeds, code).value;
      MatchesSeed(seeds, Some(code), p) <==>
        DistrictGate(seed, p) && exists i :: 0 <= i < |seed.tags| && p in SearchFilter([p], seed.tags[i])
  {
    SeedIsDistrictAndTagSearch(FindSeed(seeds, code).value, p);
  }

  /** A procedure in the seed's district one of whose 19 search entries
      contains one of the seed's tags once both are lower-cased, is admitted:
      the entry may be written in any case. */
  lemma SeedAdmitsTaggedEntry(seeds: seq<Seed>, code: string, p: Procedure, i: nat, k: nat)
    requires code != "" && FindSeed(seeds, code).Some?
    requires var seed := FindSeed(seeds, code).value;
      Truthy(seed.district) ==> Lower(OrEmpty(p.district)) == Lower(seed.district.value)
    requires i < |FindSeed(seeds, code).value.tags| && k < 19
    requires Contains(Lower(SearchEntries(p)[k]), Lower(FindSeed(seeds, code).value.tags[i]))
    ensures MatchesSeed(seeds, Some(code), p)
  {
    EntryLowerInHaystack(p, k, Lower(FindSeed(seeds, code).value.tags[i]));
  }

  /** A seed with a district rejects a procedure from any other district,
      whatever its text. */
  lemma OtherDistrictIsRejected(seeds: seq<Seed>, code: string, p: Procedure)
    requires code != "" && FindSeed(seeds, code).Some?
    requires var seed := FindSeed(seeds, code).value;
      Truthy(seed.district) && Lower(OrEmpty(p.district)) != Lower(seed.district.value)
    ensures !MatchesSeed(seeds, Some(code), p)
  {
  }

  /** A seed without a district is its tag gate alone. */
  lemma NoDistrictIsTagGate(seeds: seq<Seed>, code: string, p: Procedure)
    requires FindSeed(seeds, code).Some? && code != ""
    requires !Truthy(FindSeed(seeds, code).value.district)
    ensures MatchesSeed(seeds, Some(code), p) == TagGate(FindSeed(seeds, code).value, p)
  {
  }
}

=== FILE: seqs.dfy ===
/** Order-preserving selection over sequences: `Array.prototype.filter` and the
    append-inside-a-loop idiom of the Python scripts, with the facts the rest
    of the model needs about them. */
module Seqs {

  /** `a` can be obtained from `b` by deleting elements: it keeps `b`'s order. */
  predicate IsSubsequence<T(==)>(a: seq<T>, b: seq<T>)
    decreases |b|
  {
    if |a| == 0 then true
    else if |b| == 0 then false
    else if a[0] == b[0] then IsSubsequence(a[1..], b[1..])
    else IsSubsequence(a, b[1..])
  }

  /** Every sequence is a subsequence of itself, and so is its tail. */
  lemma {:induction false} IsSubsequenceRefl<T>(s: seq<T>)
    ensures IsSubsequence(s, s)
    decreases |s|
  {
    if |s| > 0 {
      IsSubsequenceRefl(s[1..]);
    }
  }

  lemma {:induction false} TailIsSubsequence<T>(s: seq<T>)
    requires |s| > 0
    ensures IsSubsequence(s[1..], s)
    decreases |s|
  {
    if |s| >= 2 && s[1] == s[0] {
      TailIsSubsequence(s[1..]);
      assert s[1..][1..] == s[2..];
    } else {
      IsSubsequenceRefl(s[1..]);
    }
  }

  /** The elements of `s` that satisfy `p`, in their original order. */
  function Filter<T(==)>(s: seq<T>, p: T -> bool): seq<T>
    decreases |s|
  {
    if |s| == 0 then []
    else if p(s[0]) then [s[0]] + Filter(s[1..], p)
    else Filter(s[1..], p)
  }

  /** What `Filter` keeps: only elements satisfying `p`, in their original
      order, each with all of its occurrences or with none. */
  lemma FilterSpec<T>(s: seq<T>, p: T -> bool)
    ensures |Filter(s, p)| <= |s|
    ensures forall i :: 0 <= i < |Filter(s, p)| ==> p(Filter(s, p)[i])
    ensures multiset(Filter(s, p)) <= multiset(s)
    ensures forall x | x in s :: multiset(Filter(s, p))[x] == if p(x) then multiset(s)[x] else 0
    ensures IsSubsequence(Filter(s, p), s)
  {
    FilterKeeps(s, p);
    FilterCounts(s, p);
    FilterIsSubsequence(s, p);
  }

  /** `Filter` is no longer than its input and keeps only what `p` accepts. */
  lemma {:induction false} FilterKeeps<T>(s: seq<T>, p: T -> bool)
    ensures |Filter(s, p)| <= |s|
    ensures forall i :: 0 <= i < |Filter(s, p)| ==> p(Filter(s, p)[i])
    decreases |s|
  {
    if |s| > 0 {
      FilterKeeps(s[1..], p);
    }
  }

  /** Each element occurs in `Filter(s, p)` as often as in `s` when `p` accepts
      it, and not at all otherwise. */
  lemma {:induction false} FilterCounts<T>(s: seq<T>, p: T -> bool)
    ensures multiset(Filter(s, p)) <= multiset(s)
    ensures forall x :: multiset(Filter(s, p))[x] == if p(x) then multiset(s)[x] else 0
    decreases |s|
  {
    if |s| > 0 {
      var rest := Filter(s[1..], p);
      FilterCounts(s[1..], p);
      assert s == [s[0]] + s[1..];
      assert multiset(s) == multiset{s[0]} + multiset(s[1..]);
      if p(s[0]) {
        assert multiset([s[0]] + rest) == multiset{s[0]} + multiset(rest);
      }
    }
  }

  /** `Filter(s, p)` keeps the order of `s`. */
  lemma {:induction false} FilterIsSubsequence<T>(s: seq<T>, p: T -> bool)
    ensures IsSubsequence(Filter(s, p), s)
    decreases |s|
  {
    if |s| > 0 {
      var rest := Filter(s[1..], p);
      FilterIsSubsequence(s[1..], p);
      if p(s[0]) {
        var r := [s[0]] + rest;
        assert r[1..] == rest;
        assert r[0] == s[0];
      } else if rest != [] {
        FilterKeeps(s[1..], p);
        assert p(rest[0]) && rest[0] != s[0];
      }
    }
  }

  lemma {:induction false} FilterAll<T>(s: seq<T>, p: T -> bool)
    requires forall i :: 0 <= i < |s| ==> p(s[i])
    ensures Filter(s, p) == s
    decreases |s|
  {
    if |s| > 0 {
      FilterAll(s[1..], p);
      assert s == [s[0]] + s[1..];
    }
  }

  lemma {:induction false} FilterNone<T>(s: seq<T>, p: T -> bool)
    requires forall i :: 0 <= i < |s| ==> !p(s[i])
    ensures Filter(s, p) == []
    decreases |s|
  {
    if |s| > 0 {
      FilterNone(s[1..], p);
    }
  }

  /** Filtering with two predicates that agree on the elements gives the same result. */
  lemma {:induction false} FilterCongruent<T>(s: seq<T>, p: T -> bool, q: T -> bool)
    requires forall i :: 0 <= i < |s| ==> p(s[i]) == q(s[i])
    ensures Filter(s, p) == Filter(s, q)
    decreases |s|
  {
    if |s| > 0 {
      FilterCongruent(s[1..], p, q);
    }
  }

  /** Two predicates that agree on a set containing every element filter alike. */
  lemma FilterCongruentOn<T>(s: seq<T>, p: T -> bool, q: T -> bool, u: set<T>)
    requires Elements(s) <= u
    requires forall x | x in u :: p(x) == q(x)
    ensures Filter(s, p) == Filter(s, q)
  {
    assert forall i :: 0 <= i < |s| ==> s[i] in Elements(s);
    FilterCongruent(s, p, q);
  }

  /** Filtering distributes over concatenation. */
  lemma {:induction false} FilterAppend<T>(a: seq<T>, b: seq<T>, p: T -> bool)
    ensures Filter(a + b, p) == Filter(a, p) + Filter(b, p)
    decreases |a|
  {
    if |a| == 0 {
      assert a + b == b;
    } else {
      assert (a + b)[1..] == a[1..] + b;
      FilterAppend(a[1..], b, p);
    }
  }

  /** Filtering twice keeps what both predicates accept. */
  lemma {:induction false} FilterFilter<T>(s: seq<T>, p: T -> bool, q: T -> bool, pq: T -> bool)
    requires forall x :: pq(x) == (p(x) && q(x))
    ensures Filter(Filter(s, p), q) == Filter(s, pq)
    decreases |s|
  {
    if |s| > 0 {
      FilterFilter(s[1..], p, q, pq);
      if p(s[0]) {
        assert ([s[0]] + Filter(s[1..], p))[1..] == Filter(s[1..], p);
      }
    }
  }

  /** `s` read from the end. */
  function Reverse<T>(s: seq<T>): (r: seq<T>)
    ensures |r| == |s|
    ensures forall i :: 0 <= i < |s| ==> r[i] == s[|s| - 1 - i]
    decreases |s|
  {
    if |s| == 0 then [] else Reverse(s[1..]) + [s[0]]
  }

  lemma {:induction false} ReverseMultiset<T>(s: seq<T>)
    ensures multiset(Reverse(s)) == multiset(s)
    decreases |s|
  {
    if |s| > 0 {
      ReverseMultiset(s[1..]);
      assert s == [s[0]] + s[1..];
    }
  }

  /** The set of elements occurring in `s`. */
  function Elements<T>(s: seq<T>): set<T> {
    set x | x in s
  }
}

=== FILE: sort_engine.dfy ===
/** `sortProcedimentos`: a stable sort of a copy of the list with a comparator
    that, per column, builds two JavaScript values and compares them with `<`
    and `>`. The values are lower-cased strings for the text columns, time
    values of parsed dates (or the raw strings, when either side has no date)
    for the date columns, and `parseFloat` numbers for the price. */
module SortEngine {
  import opened Wrappers
  import opened Text
  import opened Seqs
  import opened StableSort
  import opened Dates
  import opened PublicationDate
  import opened Procedures
  import opened Price
  import opened SortKeys

  const DescriptionColumn: string := "descricao"
  const EntityColumn: string := "entidade"
  const PlatformColumn: string := "plataforma"
  const PublicationColumn: string := "publicacao"
  const DeadlineColumn: string := "prazo"
  const PriceColumn: string := "preco"

  predicate KnownColumn(col: string) {
    col in {DescriptionColumn, EntityColumn, PlatformColumn, PublicationColumn, DeadlineColumn, PriceColumn}
  }

  datatype Direction = Asc | Desc

  /** The JavaScript values the comparator compares: strings, numbers, the time
      value of a date (kept as the date), and NaN. */
  datatype JsValue = JStr(s: string) | JNum(x: real) | JDay(d: Date) | JNaN

  function DayValue(o: Option<Date>): JsValue {
    match o
    case Some(d) => JDay(d)
    case None => JNaN
  }

  function NumValue(o: Option<real>): JsValue {
    match o
    case Some(x) => JNum(x)
    case None => JNaN
  }

  /** JavaScript's `a < b` on the values the comparator builds: NaN is less
      than nothing and nothing is less than NaN. */
  predicate JsLess(a: JsValue, b: JsValue) {
    match (a, b)
    case (JStr(x), JStr(y)) => LexCompare(x, y) < 0
    case (JNum(x), JNum(y)) => x < y
    case (JDay(x), JDay(y)) => Before(x, y)
    case _ => false
  }

  /** The text of the description column: `descricao`, else `designacao_contrato`. */
  function DescriptionText(p: Procedure): string {
    Lower(Or(p.description, OrEmpty(p.contractDesignation)))
  }

  /** The text of the entity column: `entidade`, else `entidade_adjudicante`. */
  function EntityText(p: Procedure): string {
    Lower(Or(p.entity, OrEmpty(p.awardingEntity)))
  }

  function PlatformText(p: Procedure): string {
    Lower(OrEmpty(p.platform))
  }

  /** The pair of values compared for `a` and `b` in `col`; `None` for a column
      the comparator does not know (it then returns 0). The date columns
      convert to time values only when both sides have a date. */
  function ColumnValues(col: string, a: Procedure, b: Procedure): Option<(JsValue, JsValue)> {
    if col == DescriptionColumn then Some((JStr(DescriptionText(a)), JStr(DescriptionText(b))))
    else if col == EntityColumn then Some((JStr(EntityText(a)), JStr(EntityText(b))))
    else if col == PlatformColumn then Some((JStr(PlatformText(a)), JStr(PlatformText(b))))
    else if col == PublicationColumn then
      var pa, pb := ExtractPublicationDate(a.fullDetails), ExtractPublicationDate(b.fullDetails);
      if pa != NotAvailable && pb != NotAvailable
      then Some((DayValue(PublicationDay(pa)), DayValue(PublicationDay(pb))))
      else Some((JStr(pa), JStr(pb)))
    else if col == DeadlineColumn then
      var da, db := OrEmpty(a.proposalDeadline), OrEmpty(b.proposalDeadline);
      if da != "" && db != ""
      then Some((DayValue(DeadlineDay(da)), DayValue(DeadlineDay(db))))
      else Some((JStr(da), JStr(db)))
    else if col == PriceColumn then Some((NumValue(PriceValue(a.basePrice)), NumValue(PriceValue(b.basePrice))))
    else None
  }

  /** The comparator's verdict on two values: -1 when `va < vb` and 1 when
      `va > vb` for the ascending direction, the opposite for the descending
      one, and 0 when neither holds. */
  function Order(dir: Direction, va: JsValue, vb: JsValue): int {
    if JsLess(va, vb) then (if dir == Asc then -1 else 1)
    else if JsLess(vb, va) then (if dir == Asc then 1 else -1)
    else 0
  }

  /** The comparator of `sortProcedimentos` for one column and direction. */
  function Compare(col: string, dir: Direction, a: Procedure, b: Procedure): int {
    match ColumnValues(col, a, b)
    case None => 0
    case Some((va, vb)) => Order(dir, va, vb)
  }

  function Comparator(col: string, dir: Direction): (Procedure, Procedure) -> int {
    (a, b) => Compare(col, dir, a, b)
  }

  /** `sortProcedimentos(records, col, dir)`: a sorted copy; the input list is a
      value and stays as it was. */
  function SortProcedures(records: seq<Procedure>, col: string, dir: Direction): (r: seq<Procedure>)
    ensures multiset(r) == multiset(records)
    ensures |r| == |records|
  {
    var r := Sort(records, Comparator(col, dir));
    assert |r| == |multiset(r)| == |multiset(records)| == |records|;
    r
  }

  // ---------------------------------------------------------------- keys

  /** The key of `p` in `col`, under which the comparator is a total order. */
  function ColumnKey(col: string, p: Procedure): Key {
    if col == DescriptionColumn then KText(DescriptionText(p))
    else if col == EntityColumn then KText(EntityText(p))
    else if col == PlatformColumn then KText(PlatformText(p))
    else if col == PublicationColumn then
      var pub := ExtractPublicationDate(p.fullDetails);
      if pub == NotAvailable then KLast
      else (match PublicationDay(pub) case Some(d) => KDay(d) case None => KLast)
    else if col == DeadlineColumn then
      var dl := OrEmpty(p.proposalDeadline);
      if dl == "" then KFirst
      else (match DeadlineDay(dl) case Some(d) => KDay(d) case None => KFirst)
    else if col == PriceColumn then
      (match PriceValue(p.basePrice) case Some(x) => KNumber(x) case None => KFirst)
    else KFirst
  }

  /** The procedures whose values the comparator orders consistently: in the
      deadline column an empty or readable deadline, in the price column a
      price `parseFloat` can read. Elsewhere every procedure. */
  predicate Comparable(col: string, p: Procedure) {
    && (col == DeadlineColumn ==> OrEmpty(p.proposalDeadline) == "" || DeadlineDay(OrEmpty(p.proposalDeadline)).Some?)
    && (col == PriceColumn ==> PriceValue(p.basePrice).Some?)
  }

  function DirSign(dir: Direction): int {
    if dir == Asc then 1 else -1
  }

  // ---------------------------------------------------------------- agreement

  lemma JsLessAsymmetric(a: JsValue, b: JsValue)
    ensures !(JsLess(a, b) && JsLess(b, a))
  {
    if a.JStr? && b.JStr? {
      LexCompareAntisymmetric(a.s, b.s);
    } else if a.JDay? && b.JDay? {
      BeforeStrictTotal(a.d, b.d, a.d);
    }
  }

  /** The descending comparator is exactly the negation of the ascending one. */
  lemma DescNegatesAsc(col: string, a: Procedure, b: Procedure)
    ensures Compare(col, Desc, a, b) == -Compare(col, Asc, a, b)
  {
    match ColumnValues(col, a, b)
    case None =>
    case Some((va, vb)) =>
      JsLessAsymmetric(va, vb);
      assert Order(Desc, va, vb) == -Order(Asc, va, vb);
  }

  /** A column the comparator does not know leaves every pair equivalent. */
  lemma UnknownColumnIsZero(col: string, dir: Direction, a: Procedure, b: Procedure)
    requires !KnownColumn(col)
    ensures Compare(col, dir, a, b) == 0
  {
  }

  /** Comparing two strings with `<` and `>` is their lexicographic order. */
  lemma TextAgrees(dir: Direction, x: string, y: string)
    ensures Order(dir, JStr(x), JStr(y)) == DirSign(dir) * KeyCompare(KText(x), KText(y))
  {
    LexCompareAntisymmetric(x, y);
    LexCompareRange(x, y);
  }

  lemma DayAgrees(dir: Direction, x: Date, y: Date)
    ensures Order(dir, JDay(x), JDay(y)) == DirSign(dir) * KeyCompare(KDay(x), KDay(y))
  {
  }

  lemma NumberAgrees(dir: Direction, x: real, y: real)
    ensures Order(dir, JNum(x), JNum(y)) == DirSign(dir) * KeyCompare(KNumber(x), KNumber(y))
  {
  }

  /** A publication date the extractor found starts with a digit and reads as a day. */
  lemma ExtractedDateReadable(details: Option<string>)
    requires ExtractPublicationDate(details) != NotAvailable
    ensures PublicationDay(ExtractPublicationDate(details)).Some?
    ensures LexCompare(ExtractPublicationDate(details), NotAvailable) == -1
  {
    ExtractedDateShape(details);
    assert NotAvailable[0] == 'N';
  }

  /** The publication key and the value the comparator sees for one side. */
  lemma PublicationKey(p: Procedure)
    ensures var pub := ExtractPublicationDate(p.fullDetails);
      if pub == NotAvailable then ColumnKey(PublicationColumn, p) == KLast
      else (PublicationDay(pub).Some? && ColumnKey(PublicationColumn, p) == KDay(PublicationDay(pub).value)
        && LexCompare(pub, NotAvailable) == -1 && LexCompare(NotAvailable, pub) == 1)
  {
    var pub := ExtractPublicationDate(p.fullDetails);
    if pub != NotAvailable {
      ExtractedDateReadable(p.fullDetails);
      LexCompareAntisymmetric(pub, NotAvailable);
    }
  }

  lemma PublicationAgrees(dir: Direction, a: Procedure, b: Procedure)
    ensures Compare(PublicationColumn, dir, a, b)
      == DirSign(dir) * KeyCompare(ColumnKey(PublicationColumn, a), ColumnKey(PublicationColumn, b))
  {
    var pa, pb := ExtractPublicationDate(a.fullDetails), ExtractPublicationDate(b.fullDetails);
    PublicationKey(a);
    PublicationKey(b);
    PublicationValues(a, b);
    if pa != NotAvailable && pb != NotAvailable {
      DayAgrees(dir, PublicationDay(pa).value, PublicationDay(pb).value);
    } else {
      UndatedAgrees(dir, pa, pb, ColumnKey(PublicationColumn, a), ColumnKey(PublicationColumn, b));
    }
  }

  /** What the comparator compares in the publication column. */
  lemma PublicationValues(a: Procedure, b: Procedure)
    ensures var pa, pb := ExtractPublicationDate(a.fullDetails), ExtractPublicationDate(b.fullDetails);
      ColumnValues(PublicationColumn, a, b)
        == if pa != NotAvailable && pb != NotAvailable
           then Some((DayValue(PublicationDay(pa)), DayValue(PublicationDay(pb))))
           else Some((JStr(pa), JStr(pb)))
  {
  }

  /** When one side has no publication date the comparator compares the two
      strings, and "N/A" sorts after every extracted date, as `KLast` does. */
  lemma UndatedAgrees(dir: Direction, pa: string, pb: string, ka: Key, kb: Key)
    requires pa == NotAvailable || pb == NotAvailable
    requires pa == NotAvailable ==> ka == KLast
    requires pa != NotAvailable ==> ka.KDay? && LexCompare(pa, NotAvailable) == -1 && LexCompare(NotAvailable, pa) == 1
    requires pb == NotAvailable ==> kb == KLast
    requires pb != NotAvailable ==> kb.KDay? && LexCompare(pb, NotAvailable) == -1 && LexCompare(NotAvailable, pb) == 1
    ensures Order(dir, JStr(pa), JStr(pb)) == DirSign(dir) * KeyCompare(ka, kb)
  {
    if pa == NotAvailable && pb == NotAvailable {
      LexCompareZero(pa, pb);
    }
  }

  lemma DeadlineAgrees(dir: Direction, a: Procedure, b: Procedure)
    requires Comparable(DeadlineColumn, a) && Comparable(DeadlineColumn, b)
    ensures Compare(DeadlineColumn, dir, a, b)
      == DirSign(dir) * KeyCompare(ColumnKey(DeadlineColumn, a), ColumnKey(DeadlineColumn, b))
  {
    var da, db := OrEmpty(a.proposalDeadline), OrEmpty(b.proposalDeadline);
    var v := ColumnValues(DeadlineColumn, a, b).value;
    if da != "" && db != "" {
      assert v == (JDay(DeadlineDay(da).value), JDay(DeadlineDay(db).value));
      DayAgrees(dir, DeadlineDay(da).value, DeadlineDay(db).value);
    } else {
      assert v == (JStr(da), JStr(db));
      if da == "" && db == "" {
        assert LexCompare(da, db) == 0;
      } else {
        LexCompareAntisymmetric(da, db);
      }
    }
  }

  lemma PriceAgrees(dir: Direction, a: Procedure, b: Procedure)
    requires Comparable(PriceColumn, a) && Comparable(PriceColumn, b)
    ensures Compare(PriceColumn, dir, a, b)
      == DirSign(dir) * KeyCompare(ColumnKey(PriceColumn, a), ColumnKey(PriceColumn, b))
  {
    var x, y := PriceValue(a.basePrice).value, PriceValue(b.basePrice).value;
    assert ColumnValues(PriceColumn, a, b) == Some((JNum(x), JNum(y)));
    assert ColumnKey(PriceColumn, a) == KNumber(x) && ColumnKey(PriceColumn, b) == KNumber(y);
    NumberAgrees(dir, x, y);
  }

  /** On comparable procedures the page's comparator is the key order, turned
      around for the descending direction. */
  lemma CompareIsKeyOrder(col: string, dir: Direction, a: Procedure, b: Procedure)
    requires KnownColumn(col) && Comparable(col, a) && Comparable(col, b)
    ensures Compare(col, dir, a, b) == DirSign(dir) * KeyCompare(ColumnKey(col, a), ColumnKey(col, b))
  {
    if col == DescriptionColumn {
      TextAgrees(dir, DescriptionText(a), DescriptionText(b));
    } else if col == EntityColumn {
      TextAgrees(dir, EntityText(a), EntityText(b));
    } else if col == PlatformColumn {
      TextAgrees(dir, PlatformText(a), PlatformText(b));
    } else if col == PublicationColumn {
      PublicationAgrees(dir, a, b);
    } else if col == DeadlineColumn {
      DeadlineAgrees(dir, a, b);
    } else {
      PriceAgrees(dir, a, b);
    }
  }

  // ---------------------------------------------------------------- the sort

  /** On comparable procedures the comparator is consistent (a total preorder),
      which is what a stable sort needs to have a well-defined result. */
  lemma ComparatorConsistent(col: string, dir: Direction, u: set<Procedure>)
    requires forall p | p in u :: Comparable(col, p)
    ensures ConsistentOn(Comparator(col, dir), u)
  {
    var cmp := Comparator(col, dir);
    forall a, b | a in u && b in u ensures FlipsAt(cmp, a, b) {
      DescNegatesAsc(col, a, b);
      DescNegatesAsc(col, b, a);
      if KnownColumn(col) {
        CompareIsKeyOrder(col, dir, a, b);
        CompareIsKeyOrder(col, dir, b, a);
        KeyCompareFlips(ColumnKey(col, a), ColumnKey(col, b));
      }
    }
    forall a, b, c | a in u && b in u && c in u ensures ChainsAt(cmp, a, b, c) {
      if KnownColumn(col) && cmp(a, b) <= 0 && cmp(b, c) <= 0 {
        var ka, kb, kc := ColumnKey(col, a), ColumnKey(col, b), ColumnKey(col, c);
        CompareIsKeyOrder(col, dir, a, b);
        CompareIsKeyOrder(col, dir, b, c);
        CompareIsKeyOrder(col, dir, a, c);
        if dir == Asc {
          KeyCompareChains(ka, kb, kc);
        } else {
          KeyCompareFlips(ka, kb);
          KeyCompareFlips(kb, kc);
          KeyCompareFlips(ka, kc);
          KeyCompareChains(kc, kb, ka);
        }
      }
    }
  }

  lemma AllComparable(records: seq<Procedure>, col: string)
    requires forall i :: 0 <= i < |records| ==> Comparable(col, records[i])
    ensures forall p | p in Elements(records) :: Comparable(col, p)
  {
  }

  /** The sorted copy runs through the column's keys in order: non-decreasing
      for `Asc`, non-increasing for `Desc`. */
  lemma SortedByKey(records: seq<Procedure>, col: string, dir: Direction)
    requires KnownColumn(col)
    requires forall i :: 0 <= i < |records| ==> Comparable(col, records[i])
    ensures var r := SortProcedures(records, col, dir);
      forall i, j :: 0 <= i < j < |r| ==> DirSign(dir) * KeyCompare(ColumnKey(col, r[i]), ColumnKey(col, r[j])) <= 0
  {
    var u := Elements(records);
    var cmp := Comparator(col, dir);
    AllComparable(records, col);
    ComparatorConsistent(col, dir, u);
    SortSorted(records, cmp, u);
    var r := SortProcedures(records, col, dir);
    MultisetElements(r, records);
    forall i, j | 0 <= i < j < |r|
      ensures DirSign(dir) * KeyCompare(ColumnKey(col, r[i]), ColumnKey(col, r[j])) <= 0
    {
      assert r[i] in u && r[j] in u;
      assert cmp(r[i], r[j]) <= 0;
      CompareIsKeyOrder(col, dir, r[i], r[j]);
    }
  }

  /** The procedures sharing `p`'s key in `col`. */
  function SameKey(col: string, p: Procedure): Procedure -> bool {
    q => ColumnKey(col, q) == ColumnKey(col, p)
  }

  /** Procedures with equal keys keep their input order: the sorted copy,
      restricted to the procedures sharing `p`'s key, is the input restricted
      the same way. */
  lemma StableByKey(records: seq<Procedure>, col: string, dir: Direction, p: Procedure)
    requires KnownColumn(col) && Comparable(col, p)
    requires forall i :: 0 <= i < |records| ==> Comparable(col, records[i])
    ensures Filter(SortProcedures(records, col, dir), SameKey(col, p)) == Filter(records, SameKey(col, p))
  {
    AllComparable(records, col);
    StableByKeyOn(records, col, dir, p, Elements(records) + {p});
  }

  lemma StableByKeyOn(records: seq<Procedure>, col: string, dir: Direction, p: Procedure, u: set<Procedure>)
    requires KnownColumn(col) && Elements(records) <= u && p in u
    requires forall q | q in u :: Comparable(col, q)
    ensures Filter(SortProcedures(records, col, dir), SameKey(col, p)) == Filter(records, SameKey(col, p))
  {
    ComparatorConsistent(col, dir, u);
    ClassIsSameKey(col, dir, p, u);
    SortStableBy(records, Comparator(col, dir), u, p, SameKey(col, p));
  }

  /** Equivalence under the comparator is equality of keys. */
  lemma ClassIsSameKey(col: string, dir: Direction, p: Procedure, u: set<Procedure>)
    requires KnownColumn(col) && Comparable(col, p)
    requires forall q | q in u :: Comparable(col, q)
    ensures forall q | q in u :: ClassOf(Comparator(col, dir), p)(q) == SameKey(col, p)(q)
  {
    forall q | q in u ensures ClassOf(Comparator(col, dir), p)(q) == SameKey(col, p)(q) {
      CompareIsKeyOrder(col, dir, q, p);
      KeyCompareZero(ColumnKey(col, q), ColumnKey(col, p));
    }
  }

  /** For a column the comparator does not know, the copy is in input order. */
  lemma UnknownColumnKeepsOrder(records: seq<Procedure>, col: string, dir: Direction)
    requires !KnownColumn(col)
    ensures SortProcedures(records, col, dir) == records
  {
    SortOfSorted(records, Comparator(col, dir));
  }

  /** When no two procedures share a key, the descending copy is the
      ascending copy read backwards. */
  lemma DescIsReverse(records: seq<Procedure>, col: string)
    requires KnownColumn(col)
    requires forall i :: 0 <= i < |records| ==> Comparable(col, records[i])
    requires forall p, q | p in records && q in records && ColumnKey(col, p) == ColumnKey(col, q) :: p == q
    ensures SortProcedures(records, col, Desc) == Reverse(SortProcedures(records, col, Asc))
  {
    var u := Elements(records);
    var asc, desc := Comparator(col, Asc), Comparator(col, Desc);
    AllComparable(records, col);
    ComparatorConsistent(col, Asc, u);
    forall a, b | a in u && b in u && asc(a, b) == 0 ensures a == b {
      CompareIsKeyOrder(col, Asc, a, b);
      KeyCompareZero(ColumnKey(col, a), ColumnKey(col, b));
    }
    forall a, b | a in u && b in u ensures desc(a, b) == -asc(a, b) {
      DescNegatesAsc(col, a, b);
    }
    SortNegatedIsReverse(records, asc, desc, u);
  }

  /** Sorting the sorted copy again changes nothing. */
  lemma SortProceduresIdempotent(records: seq<Procedure>, col: string, dir: Direction)
    requires forall i :: 0 <= i < |records| ==> Comparable(col, records[i])
    ensures SortProcedures(SortProcedures(records, col, dir), col, dir) == SortProcedures(records, col, dir)
  {
    var u := Elements(records);
    AllComparable(records, col);
    ComparatorConsistent(col, dir, u);
    SortIdempotent(records, Comparator(col, dir), u);
  }

  // ---------------------------------------------------------------- column behaviour

  /** In ascending order a procedure without a publication date ("N/A") goes
      after every procedure with one. */
  lemma MissingPublicationGoesLast(a: Procedure, b: Procedure)
    requires ExtractPublicationDate(a.fullDetails) != NotAvailable
    requires ExtractPublicationDate(b.fullDetails) == NotAvailable
    ensures Compare(PublicationColumn, Asc, a, b) == -1
    ensures Compare(PublicationColumn, Desc, a, b) == 1
  {
    DatedBeforeUndated(a, b);
    PublicationAgrees(Asc, a, b);
    PublicationAgrees(Desc, a, b);
  }

  lemma DatedBeforeUndated(a: Procedure, b: Procedure)
    requires ExtractPublicationDate(a.fullDetails) != NotAvailable
    requires ExtractPublicationDate(b.fullDetails) == NotAvailable
    ensures KeyCompare(ColumnKey(PublicationColumn, a), ColumnKey(PublicationColumn, b)) == -1
  {
    PublicationKey(a);
    PublicationKey(b);
  }

  /** In ascending order an empty deadline goes before every non-empty one. */
  lemma EmptyDeadlineGoesFirst(a: Procedure, b: Procedure)
    requires OrEmpty(a.proposalDeadline) == "" && OrEmpty(b.proposalDeadline) != ""
    ensures Compare(DeadlineColumn, Asc, a, b) == -1
  {
  }

  /** Only the date before the first space counts: two deadlines on the same
      day compare equal whatever their times. */
  lemma DeadlineIgnoresTime(dir: Direction, a: Procedure, b: Procedure)
    requires OrEmpty(a.proposalDeadline) != "" && OrEmpty(b.proposalDeadline) != ""
    requires Split(OrEmpty(a.proposalDeadline), ' ')[0] == Split(OrEmpty(b.proposalDeadline), ' ')[0]
    ensures Compare(DeadlineColumn, dir, a, b) == 0
  {
    var da := DeadlineDay(OrEmpty(a.proposalDeadline));
    if da.Some? {
      BeforeStrictTotal(da.value, da.value, da.value);
    }
  }

  /** A deadline's day is the day-first reading of its first token. */
  lemma DeadlineKeyIsDay(p: Procedure)
    requires OrEmpty(p.proposalDeadline) != ""
    requires DayMonthYear(Split(Split(OrEmpty(p.proposalDeadline), ' ')[0], '-')).Some?
    ensures ColumnKey(DeadlineColumn, p) == KDay(DayMonthYear(Split(Split(OrEmpty(p.proposalDeadline), ' ')[0], '-')).value)
  {
    DeadlineDayIsDayMonthYear(OrEmpty(p.proposalDeadline));
  }

  /** A price `parseFloat` cannot read is equivalent to every other price. */
  lemma UnreadablePriceTiesWithAll(dir: Direction, a: Procedure, b: Procedure)
    requires PriceValue(a.basePrice).None?
    ensures Compare(PriceColumn, dir, a, b) == 0 && Compare(PriceColumn, dir, b, a) == 0
  {
  }

  /** Why comparability is needed: a price `parseFloat` cannot read (such as
      "N/A") is equivalent to a larger and to a smaller price that are not
      equivalent to each other, so the comparator does not chain and the
      page's order then depends on the sorting algorithm. */
  lemma UnreadablePriceBreaksChain(a: Procedure, b: Procedure, c: Procedure)
    requires PriceValue(a.basePrice).Some? && PriceValue(c.basePrice).Some?
    requires PriceValue(c.basePrice).value < PriceValue(a.basePrice).value
    requires PriceValue(b.basePrice).None?
    ensures !ChainsAt(Comparator(PriceColumn, Asc), a, b, c)
  {
    UnreadablePriceTiesWithAll(Asc, b, a);
    UnreadablePriceTiesWithAll(Asc, b, c);
    GreaterPriceGoesAfter(a, c);
    TiesBreakChain(a, b, c);
  }

  /** In ascending order a larger readable price goes after a smaller one. */
  lemma GreaterPriceGoesAfter(a: Procedure, c: Procedure)
    requires PriceValue(a.basePrice).Some? && PriceValue(c.basePrice).Some?
    requires PriceValue(c.basePrice).value < PriceValue(a.basePrice).value
    ensures Compare(PriceColumn, Asc, a, c) == 1
  {
    PriceValues(a, c);
    assert Order(Asc, JNum(PriceValue(a.basePrice).value), JNum(PriceValue(c.basePrice).value)) == 1;
  }

  /** What the comparator compares in the price column. */
  lemma PriceValues(a: Procedure, b: Procedure)
    ensures ColumnValues(PriceColumn, a, b) == Some((NumValue(PriceValue(a.basePrice)), NumValue(PriceValue(b.basePrice))))
  {
  }

  lemma TiesBreakChain(a: Procedure, b: Procedure, c: Procedure)
    requires Compare(PriceColumn, Asc, a, b) == 0 && Compare(PriceColumn, Asc, b, c) == 0
    requires Compare(PriceColumn, Asc, a, c) == 1
    ensures !ChainsAt(Comparator(PriceColumn, Asc), a, b, c)
  {
  }
}

=== FILE: sort_keys.dfy ===
/** The reference order of the sort: every sortable column maps a procedure to
    a `Key`, and keys are compared by `KeyCompare`, a total order. The page's
    comparator is proved to agree with it in `SortEngine`. */
module SortKeys {
  import opened Text
  import opened Dates

  /** A column key. `KFirst` and `KLast` sort before and after everything
      else: an empty deadline, and a missing publication date. */
  datatype Key = KFirst | KText(s: string) | KNumber(x: real) | KDay(d: Date) | KLast

  function Rank(k: Key): nat {
    match k
    case KFirst => 0
    case KText(_) => 1
    case KNumber(_) => 2
    case KDay(_) => 3
    case KLast => 4
  }

  function Sign(x: real): int {
    if x < 0.0 then -1 else if x > 0.0 then 1 else 0
  }

  /** -1, 0 or 1 as `x` goes before, together with, or after `y`. */
  function KeyCompare(x: Key, y: Key): (c: int)
    ensures -1 <= c <= 1
  {
    if Rank(x) != Rank(y) then (if Rank(x) < Rank(y) then -1 else 1)
    else
      match x
      case KText(s) => LexCompareSign(s, y.s)
      case KNumber(n) => Sign(n - y.x)
      case KDay(d) => if Before(d, y.d) then -1 else if Before(y.d, d) then 1 else 0
      case _ => 0
  }

  function LexCompareSign(a: string, b: string): (c: int)
    ensures -1 <= c <= 1 && c == LexCompare(a, b)
  {
    LexCompareRange(a, b);
    LexCompare(a, b)
  }

  lemma {:induction false} LexCompareRange(a: string, b: string)
    ensures -1 <= LexCompare(a, b) <= 1
    decreases |a|
  {
    if |a| > 0 && |b| > 0 && a[0] == b[0] {
      LexCompareRange(a[1..], b[1..]);
    }
  }

  /** `KeyCompare` is a total order: it flips with its arguments, chains, and
      calls two keys equivalent only when they are equal. */
  lemma KeyCompareFlips(x: Key, y: Key)
    ensures KeyCompare(y, x) == -KeyCompare(x, y)
  {
    if Rank(x) == Rank(y) && x.KText? {
      LexCompareAntisymmetric(x.s, y.s);
    } else if Rank(x) == Rank(y) && x.KDay? {
      BeforeStrictTotal(x.d, y.d, x.d);
    }
  }

  lemma KeyCompareChains(x: Key, y: Key, z: Key)
    requires KeyCompare(x, y) <= 0 && KeyCompare(y, z) <= 0
    ensures KeyCompare(x, z) <= 0
  {
    if Rank(x) == Rank(y) == Rank(z) {
      match x
      case KText(s) => LexCompareTransitive(s, y.s, z.s);
      case KDay(d) =>
        BeforeStrictTotal(d, y.d, z.d);
        BeforeStrictTotal(y.d, z.d, d);
        BeforeStrictTotal(z.d, d, y.d);
      case _ =>
    }
  }

  lemma KeyCompareZero(x: Key, y: Key)
    ensures KeyCompare(x, y) == 0 <==> x == y
  {
    if Rank(x) == Rank(y) && x.KText? {
      LexCompareZero(x.s, y.s);
    } else if Rank(x) == Rank(y) && x.KDay? {
      BeforeStrictTotal(x.d, y.d, x.d);
    }
  }
}

=== FILE: stable_sort.dfy ===
/** A stable sort parameterised by a three-way comparator, the contract of
    `Array.prototype.sort` (stable since ECMAScript 2019) and of Python's
    `sorted`. The comparator returns a negative number when its first argument
    goes first, a positive one when the second does, and 0 when the two are
    equivalent. The sort is insertion sort: each element, taken from the end of
    the input backwards, goes in front of the first element it does not follow. */
module StableSort {
  import opened Seqs

  /** `cmp` behaves as a total preorder on the values in `u`: swapping the
      arguments flips the sign, and "goes no later than" is transitive. */
  ghost predicate ConsistentOn<T>(cmp: (T, T) -> int, u: set<T>) {
    && (forall a, b {:trigger FlipsAt(cmp, a, b)} | a in u && b in u :: FlipsAt(cmp, a, b))
    && (forall a, b, c {:trigger ChainsAt(cmp, a, b, c)} | a in u && b in u && c in u :: ChainsAt(cmp, a, b, c))
  }

  /** Swapping `a` and `b` flips the sign of the comparison. */
  ghost predicate FlipsAt<T>(cmp: (T, T) -> int, a: T, b: T) {
    cmp(b, a) == -cmp(a, b)
  }

  /** "Goes no later than" chains from `a` through `b` to `c`. */
  ghost predicate ChainsAt<T>(cmp: (T, T) -> int, a: T, b: T, c: T) {
    cmp(a, b) <= 0 && cmp(b, c) <= 0 ==> cmp(a, c) <= 0
  }

  /** No two distinct values of `u` are equivalent under `cmp`. */
  ghost predicate StrictOn<T>(cmp: (T, T) -> int, u: set<T>) {
    forall a, b | a in u && b in u && cmp(a, b) == 0 :: a == b
  }

  /** Every element goes no later than every element after it. */
  predicate Sorted<T>(s: seq<T>, cmp: (T, T) -> int) {
    forall i, j :: 0 <= i < j < |s| ==> cmp(s[i], s[j]) <= 0
  }

  /** The values equivalent to `p` under `cmp`. */
  function ClassOf<T>(cmp: (T, T) -> int, p: T): T -> bool {
    y => cmp(y, p) == 0
  }

  function Insert<T(==)>(x: T, l: seq<T>, cmp: (T, T) -> int): (r: seq<T>)
    ensures multiset(r) == multiset(l) + multiset{x}
    decreases |l|
  {
    if |l| == 0 || cmp(x, l[0]) <= 0 then [x] + l
    else
      assert l == [l[0]] + l[1..];
      [l[0]] + Insert(x, l[1..], cmp)
  }

  /** The stably sorted copy of `s`; `s` itself is a value and is left as it was. */
  function Sort<T(==)>(s: seq<T>, cmp: (T, T) -> int): (r: seq<T>)
    ensures multiset(r) == multiset(s)
    decreases |s|
  {
    if |s| == 0 then []
    else
      assert s == [s[0]] + s[1..];
      Insert(s[0], Sort(s[1..], cmp), cmp)
  }

  lemma MultisetElements<T>(a: seq<T>, b: seq<T>)
    requires multiset(a) == multiset(b)
    ensures Elements(a) == Elements(b)
  {
    forall x | x in a ensures x in b {
      assert x in multiset(a);
    }
    forall x | x in b ensures x in a {
      assert x in multiset(b);
    }
  }

  lemma {:induction false} InsertSorted<T>(x: T, l: seq<T>, cmp: (T, T) -> int, u: set<T>)
    requires ConsistentOn(cmp, u) && x in u && Elements(l) <= u
    requires Sorted(l, cmp)
    ensures Sorted(Insert(x, l, cmp), cmp)
    decreases |l|
  {
    if |l| == 0 || cmp(x, l[0]) <= 0 {
      forall j | 0 <= j < |l| ensures cmp(x, l[j]) <= 0 {
        if j > 0 {
          assert l[0] in u && l[j] in u;
          assert ChainsAt(cmp, x, l[0], l[j]);
        }
      }
      ConsSorted(x, l, cmp);
    } else {
      assert l[0] in u;
      InsertSorted(x, l[1..], cmp, u);
      HeadGoesFirst(x, l, cmp, u);
      ConsSorted(l[0], Insert(x, l[1..], cmp), cmp);
    }
  }

  /** A sorted list behind an element that goes no later than any of it is sorted. */
  lemma ConsSorted<T>(h: T, t: seq<T>, cmp: (T, T) -> int)
    requires Sorted(t, cmp) && forall j :: 0 <= j < |t| ==> cmp(h, t[j]) <= 0
    ensures Sorted([h] + t, cmp)
  {
    var r := [h] + t;
    forall i, j | 0 <= i < j < |r| ensures cmp(r[i], r[j]) <= 0 {
      if i == 0 {
        assert r[j] == t[j - 1];
      } else {
        assert r[i] == t[i - 1] && r[j] == t[j - 1];
      }
    }
  }

  /** When `x` goes after the head of a sorted list, the head goes no later
      than anything in the rest with `x` inserted. */
  lemma HeadGoesFirst<T>(x: T, l: seq<T>, cmp: (T, T) -> int, u: set<T>)
    requires ConsistentOn(cmp, u) && x in u && Elements(l) <= u
    requires Sorted(l, cmp) && |l| > 0 && cmp(x, l[0]) > 0
    ensures forall j :: 0 <= j < |Insert(x, l[1..], cmp)| ==> cmp(l[0], Insert(x, l[1..], cmp)[j]) <= 0
  {
    var t := Insert(x, l[1..], cmp);
    assert l[0] in u;
    forall j | 0 <= j < |t| ensures cmp(l[0], t[j]) <= 0 {
      assert t[j] in multiset(t);
      if t[j] == x {
        assert FlipsAt(cmp, x, l[0]);
      } else {
        assert t[j] in multiset(l[1..]);
        var k :| 0 <= k < |l[1..]| && l[1..][k] == t[j];
        assert l[k + 1] == t[j];
      }
    }
  }

  /** The result of `Sort` is sorted whenever `cmp` is consistent on the input. */
  lemma {:induction false} SortSorted<T>(s: seq<T>, cmp: (T, T) -> int, u: set<T>)
    requires ConsistentOn(cmp, u) && Elements(s) <= u
    ensures Sorted(Sort(s, cmp), cmp)
    decreases |s|
  {
    if |s| > 0 {
      SortSorted(s[1..], cmp, u);
      MultisetElements(Sort(s[1..], cmp), s[1..]);
      assert s[0] in u;
      InsertSorted(s[0], Sort(s[1..], cmp), cmp, u);
    }
  }

  lemma {:induction false} InsertClass<T>(x: T, l: seq<T>, cmp: (T, T) -> int, u: set<T>, p: T)
    requires ConsistentOn(cmp, u) && x in u && p in u && Elements(l) <= u
    ensures Filter(Insert(x, l, cmp), ClassOf(cmp, p))
         == (if cmp(x, p) == 0 then [x] else []) + Filter(l, ClassOf(cmp, p))
    decreases |l|
  {
    var e := ClassOf(cmp, p);
    if |l| == 0 || cmp(x, l[0]) <= 0 {
      assert ([x] + l)[1..] == l;
    } else {
      assert l[0] in u;
      InsertClass(x, l[1..], cmp, u, p);
      var t := Insert(x, l[1..], cmp);
      assert ([l[0]] + t)[1..] == t;
      if cmp(x, p) == 0 {
        // x and l[0] are not equivalent, so l[0] is not in x's class.
        assert FlipsAt(cmp, l[0], p) && ChainsAt(cmp, x, p, l[0]);
        assert cmp(l[0], p) != 0;
      }
    }
  }

  /** Stability: within every class of equivalent values, `Sort` keeps the
      input's relative order. */
  lemma {:induction false} SortStable<T>(s: seq<T>, cmp: (T, T) -> int, u: set<T>, p: T)
    requires ConsistentOn(cmp, u) && Elements(s) <= u && p in u
    ensures Filter(Sort(s, cmp), ClassOf(cmp, p)) == Filter(s, ClassOf(cmp, p))
    decreases |s|
  {
    if |s| > 0 {
      SortStable(s[1..], cmp, u, p);
      MultisetElements(Sort(s[1..], cmp), s[1..]);
      assert s[0] in u;
      InsertClass(s[0], Sort(s[1..], cmp), cmp, u, p);
    }
  }

  /** Stability stated for any predicate that picks out exactly `p`'s class
      within `u`. */
  lemma SortStableBy<T>(s: seq<T>, cmp: (T, T) -> int, u: set<T>, p: T, same: T -> bool)
    requires ConsistentOn(cmp, u) && Elements(s) <= u && p in u
    requires forall q | q in u :: ClassOf(cmp, p)(q) == same(q)
    ensures Filter(Sort(s, cmp), same) == Filter(s, same)
  {
    var r := Sort(s, cmp);
    SortStable(s, cmp, u, p);
    MultisetElements(r, s);
    FilterCongruentOn(s, ClassOf(cmp, p), same, u);
    FilterCongruentOn(r, ClassOf(cmp, p), same, u);
  }

  /** An input that is already sorted comes back unchanged; in particular a
      comparator that is constantly 0 leaves every input as it is. */
  lemma {:induction false} SortOfSorted<T>(s: seq<T>, cmp: (T, T) -> int)
    requires Sorted(s, cmp)
    ensures Sort(s, cmp) == s
    decreases |s|
  {
    if |s| > 0 {
      SortOfSorted(s[1..], cmp);
      assert s == [s[0]] + s[1..];
    }
  }

  lemma SortIdempotent<T>(s: seq<T>, cmp: (T, T) -> int, u: set<T>)
    requires ConsistentOn(cmp, u) && Elements(s) <= u
    ensures Sort(Sort(s, cmp), cmp) == Sort(s, cmp)
  {
    SortSorted(s, cmp, u);
    SortOfSorted(Sort(s, cmp), cmp);
  }

  /** Two sorted arrangements of the same values are equal when no two distinct
      values are equivalent. */
  lemma {:induction false} SortedUnique<T>(a: seq<T>, b: seq<T>, cmp: (T, T) -> int, u: set<T>)
    requires ConsistentOn(cmp, u) && StrictOn(cmp, u) && Elements(a) <= u
    requires Sorted(a, cmp) && Sorted(b, cmp) && multiset(a) == multiset(b)
    ensures a == b
    decreases |a|
  {
    assert |b| == |multiset(b)| == |multiset(a)| == |a|;
    if |a| > 0 {
      SortedHeads(a, b, cmp, u);
      TailMultiset(a, b);
      SortedTail(a, cmp);
      SortedTail(b, cmp);
      assert Elements(a[1..]) <= u;
      SortedUnique(a[1..], b[1..], cmp, u);
      assert a == [a[0]] + a[1..] && b == [b[0]] + b[1..];
    }
  }

  lemma TailMultiset<T>(a: seq<T>, b: seq<T>)
    requires |a| > 0 && |b| > 0 && a[0] == b[0] && multiset(a) == multiset(b)
    ensures multiset(a[1..]) == multiset(b[1..])
  {
    assert a == [a[0]] + a[1..] && b == [b[0]] + b[1..];
    assert multiset(a[1..]) == multiset(a) - multiset{a[0]};
    assert multiset(b[1..]) == multiset(b) - multiset{a[0]};
  }

  lemma SortedTail<T>(s: seq<T>, cmp: (T, T) -> int)
    requires |s| > 0 && Sorted(s, cmp)
    ensures Sorted(s[1..], cmp)
  {
    forall i, j | 0 <= i < j < |s| - 1 ensures cmp(s[1..][i], s[1..][j]) <= 0 {
      assert s[1..][i] == s[i + 1] && s[1..][j] == s[j + 1];
    }
  }

  lemma SortedHeads<T>(a: seq<T>, b: seq<T>, cmp: (T, T) -> int, u: set<T>)
    requires ConsistentOn(cmp, u) && StrictOn(cmp, u) && Elements(a) <= u
    requires Sorted(a, cmp) && Sorted(b, cmp) && multiset(a) == multiset(b)
    requires |a| > 0 && |b| > 0
    ensures a[0] == b[0]
  {
    assert a[0] in multiset(b) && b[0] in multiset(a);
    var i :| 0 <= i < |b| && b[i] == a[0];
    var j :| 0 <= j < |a| && a[j] == b[0];
    assert a[0] in u && b[0] in u;
    assert FlipsAt(cmp, a[0], a[0]) && FlipsAt(cmp, a[0], b[0]);
    assert cmp(b[0], a[0]) <= 0 by {
      if i > 0 { assert cmp(b[0], b[i]) <= 0; }
    }
    assert cmp(a[0], b[0]) <= 0 by {
      if j > 0 { assert cmp(a[0], a[j]) <= 0; }
    }
  }

  /** With a comparator that is the exact negation of `asc` and no two distinct
      values equivalent, sorting with it gives the `asc` order reversed. */
  lemma SortNegatedIsReverse<T>(s: seq<T>, asc: (T, T) -> int, desc: (T, T) -> int, u: set<T>)
    requires ConsistentOn(asc, u) && StrictOn(asc, u) && Elements(s) <= u
    requires forall a, b | a in u && b in u :: desc(a, b) == -asc(a, b)
    ensures Sort(s, desc) == Reverse(Sort(s, asc))
  {
    var up := Sort(s, asc);
    var down := Reverse(up);
    SortSorted(s, asc, u);
    MultisetElements(up, s);
    ReverseMultiset(up);
    MultisetElements(down, up);
    ReverseSortedNegated(up, asc, desc, u);
    NegatedConsistent(asc, desc, u);
    var dn := Sort(s, desc);
    SortSorted(s, desc, u);
    MultisetElements(dn, s);
    SortedUnique(dn, down, desc, u);
  }

  lemma NegatedConsistent<T>(asc: (T, T) -> int, desc: (T, T) -> int, u: set<T>)
    requires ConsistentOn(asc, u) && StrictOn(asc, u)
    requires forall a, b | a in u && b in u :: desc(a, b) == -asc(a, b)
    ensures ConsistentOn(desc, u) && StrictOn(desc, u)
  {
    forall a, b | a in u && b in u ensures FlipsAt(desc, a, b) {
      assert FlipsAt(asc, a, b);
    }
    forall a, b, c | a in u && b in u && c in u ensures ChainsAt(desc, a, b, c) {
      assert FlipsAt(asc, a, b) && FlipsAt(asc, b, c) && FlipsAt(asc, a, c);
      assert ChainsAt(asc, c, b, a);
    }
  }

  lemma ReverseSortedNegated<T>(up: seq<T>, asc: (T, T) -> int, desc: (T, T) -> int, u: set<T>)
    requires ConsistentOn(asc, u) && Elements(up) <= u && Sorted(up, asc)
    requires forall a, b | a in u && b in u :: desc(a, b) == -asc(a, b)
    ensures Sorted(Reverse(up), desc)
  {
    var down := Reverse(up);
    forall i, j | 0 <= i < j < |down| ensures desc(down[i], down[j]) <= 0 {
      var n := |up|;
      assert down[i] == up[n - 1 - i] && down[j] == up[n - 1 - j];
      assert up[n - 1 - i] in u && up[n - 1 - j] in u;
      assert asc(up[n - 1 - j], up[n - 1 - i]) <= 0;
      NegatedAt(asc, desc, u, up[n - 1 - i], up[n - 1 - j]);
    }
  }

  /** A pair the ascending comparator accepts the other way round is in order
      under the negated one. */
  lemma NegatedAt<T>(asc: (T, T) -> int, desc: (T, T) -> int, u: set<T>, x: T, y: T)
    requires ConsistentOn(asc, u) && x in u && y in u && asc(y, x) <= 0
    requires forall a, b | a in u && b in u :: desc(a, b) == -asc(a, b)
    ensures desc(x, y) <= 0
  {
    assert FlipsAt(asc, y, x);
  }
}

=== FILE: text.dfy ===
/** Character and string primitives shared by the browser pipeline and the
    feed scripts: whitespace and digits, case mapping, trimming, substring
    search, joining and splitting, the host's string ordering, and the
    leftmost-match search that a regular-expression `match`/`search` performs. */
module Text {
  import opened Wrappers

  /** Whitespace as recognised by JavaScript's `trim` and `\s` and by Python's
      `strip` and `\s`, restricted to the ASCII characters they agree on. */
  predicate IsSpace(c: char) {
    c == ' ' || c == '\t' || c == '\n' || c == '\r' || c == '\U{000B}' || c == '\U{000C}'
  }

  predicate IsDigit(c: char) {
    '0' <= c <= '9'
  }

  predicate AllDigits(s: string) {
    forall i :: 0 <= i < |s| ==> IsDigit(s[i])
  }

  predicate AllSpace(s: string) {
    forall i :: 0 <= i < |s| ==> IsSpace(s[i])
  }

  // ---------------------------------------------------------------- case

  /** `toLowerCase`/`lower()` on one character (ASCII letters only). */
  function LowerChar(c: char): char {
    if 'A' <= c <= 'Z' then (c as int + 32) as char else c
  }

  /** `toUpperCase` on one character (ASCII letters only). */
  function UpperChar(c: char): char {
    if 'a' <= c <= 'z' then (c as int - 32) as char else c
  }

  function Lower(s: string): string {
    seq(|s|, i requires 0 <= i < |s| => LowerChar(s[i]))
  }

  function Upper(s: string): string {
    seq(|s|, i requires 0 <= i < |s| => UpperChar(s[i]))
  }

  lemma LowerAppend(a: string, b: string)
    ensures Lower(a + b) == Lower(a) + Lower(b)
  {
    assert forall i :: 0 <= i < |a + b| ==> Lower(a + b)[i] == (Lower(a) + Lower(b))[i];
  }

  lemma LowerIdempotent(s: string)
    ensures Lower(Lower(s)) == Lower(s)
  {
  }

  lemma LowerKeepsSpace(c: char)
    ensures IsSpace(LowerChar(c)) <==> IsSpace(c)
  {
  }

  // ---------------------------------------------------------------- trimming

  /** The end of the run of whitespace that starts at `i`: what a greedy `\s*`
      consumes, and the first index `trim`/`strip` keeps. */
  function SkipSpace(s: string, i: nat): (j: nat)
    requires i <= |s|
    ensures i <= j <= |s|
    ensures forall k :: i <= k < j ==> IsSpace(s[k])
    ensures j == |s| || !IsSpace(s[j])
    decreases |s| - i
  {
    if i < |s| && IsSpace(s[i]) then SkipSpace(s, i + 1) else i
  }

  /** A run of whitespace ended by a non-space is exactly what `SkipSpace` skips. */
  lemma SkipSpaceStops(s: string, lo: nat, k: nat)
    requires lo <= k < |s| && AllSpace(s[lo..k]) && !IsSpace(s[k])
    ensures SkipSpace(s, lo) == k
  {
  }

  /** The start of the run of whitespace that ends at `j`, not going below `lo`. */
  function SkipSpaceBack(s: string, j: nat, lo: nat): (k: nat)
    requires lo <= j <= |s|
    ensures lo <= k <= j
    ensures forall m :: k <= m < j ==> IsSpace(s[m])
    ensures k == lo || !IsSpace(s[k - 1])
    decreases j
  {
    if j > lo && IsSpace(s[j - 1]) then SkipSpaceBack(s, j - 1, lo) else j
  }

  /** Neither starts nor ends with whitespace. */
  predicate IsTrimmed(s: string) {
    |s| == 0 || (!IsSpace(s[0]) && !IsSpace(s[|s| - 1]))
  }

  /** JavaScript `trim()` and Python `strip()`: the infix of `s` left after
      removing the leading and the trailing whitespace. */
  function Trim(s: string): (r: string)
    ensures IsTrimmed(r)
    ensures exists i, j :: 0 <= i <= j <= |s| && r == s[i..j] && AllSpace(s[..i]) && AllSpace(s[j..])
  {
    var i := SkipSpace(s, 0);
    var j := SkipSpaceBack(s, |s|, i);
    assert AllSpace(s[..i]) && AllSpace(s[j..]);
    assert i < j ==> s[i..j][0] == s[i] && s[i..j][j - i - 1] == s[j - 1];
    s[i..j]
  }

  lemma TrimTrimmed(s: string)
    requires IsTrimmed(s)
    ensures Trim(s) == s
  {
  }

  lemma {:induction false} SkipSpaceBackStops(s: string, j: nat, lo: nat, k: nat)
    requires lo < k <= j <= |s| && !IsSpace(s[k - 1])
    requires forall m :: k <= m < j ==> IsSpace(s[m])
    ensures SkipSpaceBack(s, j, lo) == k
    decreases j
  {
    if j > k {
      SkipSpaceBackStops(s, j - 1, lo, k);
    }
  }

  /** Blanks around a text that neither starts nor ends with one are trimmed away. */
  lemma TrimPadded(before: string, s: string, after: string)
    requires AllSpace(before) && AllSpace(after) && |s| > 0 && IsTrimmed(s)
    ensures Trim(before + s + after) == s
  {
    var t := before + s + after;
    var b, e := |before|, |before| + |s|;
    assert t[0..b] == before && t[b] == s[0] && t[e - 1] == s[|s| - 1];
    SkipSpaceStops(t, 0, b);
    assert forall m :: e <= m < |t| ==> t[m] == after[m - e];
    SkipSpaceBackStops(t, |t|, b, e);
    assert t[b..e] == s;
  }

  lemma TrimIdempotent(s: string)
    ensures Trim(Trim(s)) == Trim(s)
  {
    TrimTrimmed(Trim(s));
  }

  lemma TrimEmptyIffAllSpace(s: string)
    ensures Trim(s) == "" <==> AllSpace(s)
  {
    var i := SkipSpace(s, 0);
    var j := SkipSpaceBack(s, |s|, i);
    assert Trim(s) == s[i..j];
    if !AllSpace(s) {
      var k :| 0 <= k < |s| && !IsSpace(s[k]);
      assert i <= k;
      assert i < |s| && !IsSpace(s[i]);
      assert j > i;
    }
  }

  /** Lower-casing and trimming commute (case mapping keeps whitespace). */
  lemma LowerTrimCommute(s: string)
    ensures Lower(Trim(s)) == Trim(Lower(s))
  {
    var i := SkipSpace(s, 0);
    var j := SkipSpaceBack(s, |s|, i);
    var l := Lower(s);
    SkipSpaceLower(s, 0);
    SkipSpaceBackLower(s, |s|, i);
    assert Lower(s[i..j]) == l[i..j];
  }

  lemma {:induction false} SkipSpaceLower(s: string, i: nat)
    requires i <= |s|
    ensures SkipSpace(Lower(s), i) == SkipSpace(s, i)
    decreases |s| - i
  {
    if i < |s| {
      LowerKeepsSpace(s[i]);
      if IsSpace(s[i]) {
        SkipSpaceLower(s, i + 1);
      }
    }
  }

  lemma {:induction false} SkipSpaceBackLower(s: string, j: nat, lo: nat)
    requires lo <= j <= |s|
    ensures SkipSpaceBack(Lower(s), j, lo) == SkipSpaceBack(s, j, lo)
    decreases j
  {
    if j > lo {
      LowerKeepsSpace(s[j - 1]);
      if IsSpace(s[j - 1]) {
        SkipSpaceBackLower(s, j - 1, lo);
      }
    }
  }

  // ---------------------------------------------------------------- substrings

  /** `hay.includes(needle)` / Python `needle in hay`. */
  predicate Contains(hay: string, needle: string) {
    exists i :: 0 <= i <= |hay| - |needle| && InfixAt(hay, needle, i)
  }

  /** `needle` occurs in `hay` starting at index `i`. */
  predicate InfixAt(hay: string, needle: string, i: int) {
    0 <= i <= |hay| - |needle| && hay[i..i + |needle|] == needle
  }

  lemma ContainsEmpty(hay: string)
    ensures Contains(hay, "")
  {
    assert InfixAt(hay, "", 0);
  }

  lemma ContainsSelf(s: string)
    ensures Contains(s, s)
  {
    assert InfixAt(s, s, 0);
  }

  /** Containment is transitive: what a substring contains, the whole does. */
  lemma ContainsTrans(hay: string, mid: string, needle: string)
    requires Contains(hay, mid) && Contains(mid, needle)
    ensures Contains(hay, needle)
  {
    var i :| 0 <= i <= |hay| - |mid| && InfixAt(hay, mid, i);
    var j :| 0 <= j <= |mid| - |needle| && InfixAt(mid, needle, j);
    assert hay[i..i + |mid|] == mid;
    forall t | 0 <= t < |needle| ensures hay[i + j + t] == needle[t] {
      assert hay[i + j + t] == mid[j + t] == mid[j..j + |needle|][t];
    }
    assert hay[i + j..i + j + |needle|] == needle;
    assert InfixAt(hay, needle, i + j);
  }

  /** A substring of the middle part is a substring of the whole. */
  lemma ContainsInfix(a: string, m: string, b: string, needle: string)
    requires Contains(m, needle)
    ensures Contains(a + m + b, needle)
  {
    var i :| 0 <= i <= |m| - |needle| && InfixAt(m, needle, i);
    var w := a + m + b;
    assert w[|a| + i..|a| + i + |needle|] == m[i..i + |needle|];
    assert InfixAt(w, needle, |a| + i);
  }

  /** A substring of a lower-cased string is found again after lower-casing a
      larger text that contains the original. */
  lemma ContainsLower(m: string, needle: string)
    requires Contains(m, needle)
    ensures Contains(Lower(m), Lower(needle))
  {
    var i :| 0 <= i <= |m| - |needle| && InfixAt(m, needle, i);
    assert Lower(m)[i..i + |needle|] == Lower(needle);
    assert InfixAt(Lower(m), Lower(needle), i);
  }

  // ---------------------------------------------------------------- join / split

  /** `parts.join(sep)`. */
  function Join(sep: string, parts: seq<string>): string
    decreases |parts|
  {
    if |parts| == 0 then ""
    else if |parts| == 1 then parts[0]
    else parts[0] + sep + Join(sep, parts[1..])
  }

  lemma Join3(sep: string, a: string, b: string, c: string)
    ensures Join(sep, [a, b, c]) == a + sep + b + sep + c
  {
    var p := [a, b, c];
    assert p[1..] == [b, c] && p[1..][1..] == [c];
    assert Join(sep, [c]) == c;
    assert Join(sep, [b, c]) == b + sep + c;
  }

  /** Every part of a joined string is a substring of it. */
  lemma {:induction false} JoinContainsPart(sep: string, parts: seq<string>, k: nat, needle: string)
    requires k < |parts|
    requires Contains(parts[k], needle)
    ensures Contains(Join(sep, parts), needle)
    decreases |parts|
  {
    if |parts| == 1 {
    } else if k == 0 {
      assert Join(sep, parts) == "" + parts[0] + (sep + Join(sep, parts[1..]));
      ContainsInfix("", parts[0], sep + Join(sep, parts[1..]), needle);
    } else {
      JoinContainsPart(sep, parts[1..], k - 1, needle);
      assert Join(sep, parts) == parts[0] + sep + Join(sep, parts[1..]) + "";
      ContainsInfix(parts[0] + sep, Join(sep, parts[1..]), "", needle);
    }
  }

  /** The index of the first occurrence of `c` in `s`, from `i` on. */
  function IndexOf(s: string, c: char, i: nat): (r: Option<nat>)
    requires i <= |s|
    ensures r.Some? ==> i <= r.value < |s| && s[r.value] == c && forall k :: i <= k < r.value ==> s[k] != c
    ensures r.None? ==> forall k :: i <= k < |s| ==> s[k] != c
    decreases |s| - i
  {
    if i == |s| then None else if s[i] == c then Some(i) else IndexOf(s, c, i + 1)
  }

  /** `s.split(c)` for a one-character separator. */
  function Split(s: string, c: char): (parts: seq<string>)
    ensures |parts| >= 1
    ensures forall k :: 0 <= k < |parts| ==> c !in parts[k]
    ensures Join([c], parts) == s
    decreases |s|
  {
    match IndexOf(s, c, 0)
    case None => [s]
    case Some(k) =>
      var rest := Split(s[k + 1..], c);
      assert c !in s[..k] by {
        forall m | 0 <= m < k ensures s[..k][m] != c { }
      }
      assert s == s[..k] + [c] + s[k + 1..];
      [s[..k]] + rest
  }

  /** `split` undoes `join` when no part holds the separator. */
  lemma {:induction false} SplitJoin(parts: seq<string>, c: char)
    requires |parts| >= 1
    requires forall k :: 0 <= k < |parts| ==> c !in parts[k]
    ensures Split(Join([c], parts), c) == parts
    decreases |parts|
  {
    var s := Join([c], parts);
    if |parts| == 1 {
      assert IndexOf(s, c, 0).None?;
    } else {
      var n := |parts[0]|;
      var tail := Join([c], parts[1..]);
      assert s == parts[0] + [c] + tail;
      FirstSeparator(parts[0], c, tail);
      SplitJoin(parts[1..], c);
      assert parts == [parts[0]] + parts[1..];
    }
  }

  /** The first separator of `a + [c] + t` is the one after `a`, when `a` has none. */
  lemma FirstSeparator(a: string, c: char, t: string)
    requires c !in a
    ensures var s := a + [c] + t;
      IndexOf(s, c, 0) == Some(|a|) && s[..|a|] == a && s[|a| + 1..] == t
  {
    var s := a + [c] + t;
    assert s[|a|] == c;
    assert forall k :: 0 <= k < |a| ==> s[k] == a[k];
  }

  /** Every occurrence of `a` replaced by `b` (`s.replace(/a/g, b)`). */
  function ReplaceChar(s: string, a: char, b: char): (r: string)
    ensures |r| == |s|
    ensures forall i :: 0 <= i < |s| ==> r[i] == (if s[i] == a then b else s[i])
  {
    if |s| == 0 then "" else [if s[0] == a then b else s[0]] + ReplaceChar(s[1..], a, b)
  }

  // ---------------------------------------------------------------- numbers

  function DigitValue(c: char): nat {
    if IsDigit(c) then c as int - '0' as int else 0
  }

  /** The value of a run of decimal digits (0 for the empty run). */
  function DigitsValue(s: string): nat
    decreases |s|
  {
    if |s| == 0 then 0 else 10 * DigitsValue(s[..|s| - 1]) + DigitValue(s[|s| - 1])
  }

  /** The end of the maximal run of digits starting at `i` (what a greedy `\d+` consumes). */
  function DigitRunEnd(s: string, i: nat): (j: nat)
    requires i <= |s|
    ensures i <= j <= |s|
    ensures AllDigits(s[i..j])
    ensures j == |s| || !IsDigit(s[j])
    decreases |s| - i
  {
    if i < |s| && IsDigit(s[i]) then DigitRunEnd(s, i + 1) else i
  }

  /** `DigitRunEnd` stops at the first non-digit. */
  lemma DigitRunEndStops(s: string, i: nat, k: nat)
    requires i <= k <= |s| && AllDigits(s[i..k]) && (k == |s| || !IsDigit(s[k]))
    ensures DigitRunEnd(s, i) == k
    decreases k - i
  {
    if i < k {
      assert s[i..k][0] == s[i];
      assert s[i + 1..k] == s[i..k][1..];
      DigitRunEndStops(s, i + 1, k);
    }
  }

  function Pow10(n: nat): (r: nat)
    ensures r >= 1
  {
    if n == 0 then 1 else 10 * Pow10(n - 1)
  }

  // ---------------------------------------------------------------- ordering

  /** JavaScript's relational comparison of two strings, as -1, 0 or 1:
      lexicographic by character, a proper prefix first. */
  function LexCompare(a: string, b: string): int
    decreases |a|
  {
    if |a| == 0 then (if |b| == 0 then 0 else -1)
    else if |b| == 0 then 1
    else if a[0] < b[0] then -1
    else if a[0] > b[0] then 1
    else LexCompare(a[1..], b[1..])
  }

  lemma {:induction false} LexCompareAntisymmetric(a: string, b: string)
    ensures LexCompare(b, a) == -LexCompare(a, b)
    decreases |a|
  {
    if |a| > 0 && |b| > 0 && a[0] == b[0] {
      LexCompareAntisymmetric(a[1..], b[1..]);
    }
  }

  lemma {:induction false} LexCompareZero(a: string, b: string)
    ensures LexCompare(a, b) == 0 <==> a == b
    decreases |a|
  {
    if |a| > 0 && |b| > 0 && a[0] == b[0] {
      LexCompareZero(a[1..], b[1..]);
      assert a == [a[0]] + a[1..] && b == [b[0]] + b[1..];
    }
  }

  lemma {:induction false} LexCompareTransitive(a: string, b: string, c: string)
    requires LexCompare(a, b) <= 0 && LexCompare(b, c) <= 0
    ensures LexCompare(a, c) <= 0
    decreases |a|
  {
    if |a| > 0 && |b| > 0 && |c| > 0 && a[0] == b[0] && b[0] == c[0] {
      LexCompareTransitive(a[1..], b[1..], c[1..]);
    }
  }

  // ---------------------------------------------------------------- matching

  /** The leftmost position, from `i` on, at which the matcher `at` succeeds:
      how a regular-expression search picks its match when `at(s, k)` says
      whether (and with what capture) the pattern matches starting at `k`. */
  function Leftmost(s: string, i: nat, at: (string, nat) -> Option<string>): Option<nat>
    requires i <= |s|
    decreases |s| - i
  {
    if at(s, i).Some? then Some(i) else if i == |s| then None else Leftmost(s, i + 1, at)
  }

  /** `Leftmost` finds the first position from `i` on where `at` succeeds, and
      nothing exactly when `at` fails everywhere from `i` to the end. */
  lemma {:induction false} LeftmostIsFirst(s: string, i: nat, at: (string, nat) -> Option<string>)
    requires i <= |s|
    ensures var r := Leftmost(s, i, at);
      && (r.Some? ==> i <= r.value <= |s| && at(s, r.value).Some?)
      && (r.Some? ==> forall k :: i <= k < r.value ==> at(s, k).None?)
      && (r.None? <==> forall k :: i <= k <= |s| ==> at(s, k).None?)
    decreases |s| - i
  {
    if at(s, i).None? && i < |s| {
      LeftmostIsFirst(s, i + 1, at);
      if Leftmost(s, i, at).None? {
        forall k | i <= k <= |s| ensures at(s, k).None? {
          if k > i {
            assert i + 1 <= k;
          }
        }
      }
    }
  }

  /** `s` has `p` as a literal prefix at position `i`. */
  predicate LiteralAt(s: string, i: nat, p: string) {
    i + |p| <= |s| && s[i..i + |p|] == p
  }
}

=== FILE: wrappers.dfy ===
/** Failure-compatible wrappers used throughout the model: `Option` for the
    source's missing (`undefined`/`null`/`None`) values and `Result` for the
    operations that report an error instead of producing a value. */
module Wrappers {

  datatype Option<+T> = None | Some(value: T) {

    /** The wrapped value, or `default` when there is none. */
    function GetOr(default: T): T {
      match this
      case Some(v) => v
      case None => default
    }
  }

  datatype Result<+R, +E> = Success(value: R) | Failure(error: E)
}
